=== FILE: README.md ===
# Blueprint Extractor core, modelled in Dafny

The WordPress plugin "Blueprint Extractor for WordPress Playground" turns a running
site into a Playground blueprint. A blueprint is a JSON recipe of ordered steps:
installPlugin, installTheme, setSiteOptions, defineWpConfigConsts, unzip and runPHP.
It also carries some top-level metadata.

This project models the deterministic core of that plugin as pure Dafny functions over
immutable datatypes. It proves properties of that model.

The core has these parts:

* **Resource resolution** (`Resolver`): `get_plugin_resource` and `check_theme_exists`.
  - A plugin's download link is classified as a wordpress.org plugin-directory locator,
    as a GitHub-archive proxy URL, or as "not installable".
  - Every answer, negative ones included, is memoised per slug in a transient.
* **Scanners**:
  - `ConfigScan` covers `get_wp_config_constants`, the walk over the `wp-config.php`
    token stream.
  - `OptionScan` covers `get_wp_plugin_options`, the filter over the options that the
    active plugins read.
* **Manifest assembly**:
  - `Assembler` covers `generate_blueprint`.
  - `Prioritize` covers plugin discovery and the one-level `RequiresPlugins`
    prioritisation.
* **Template-part rewriting** (`Rewriter`): navigation references inside template parts
  become `REFERENCE_k` tokens, and navigation links become `NAV_ITEM_id` tokens.
* **The admin page script's `updateBlueprint`** (`Merge`): the generated blueprint is
  merged with the editor's selections.
  - Plugins, theme, global styles, site options and constants.
  - Users, pages, template parts and templates.
  - Reinstalling the extractor itself.
* **Small extras**:
  - `Naming`: the blueprint-name bump.
  - `Escaping`: the quote escape and the `PHP_EOL`/`\n` encode–decode pair used by the
    runPHP payloads.

Shared building blocks:

* `Text` gives PHP's `str_replace`, `explode`, `implode`, `substr` and decimal printing.
* `OrderedMap` treats PHP arrays as insertion-ordered maps. Assignment keeps a key's
  position and `unset` removes it.
* `Manifest` holds the blueprint datatypes.

Every WordPress or remote lookup is a function parameter (an "oracle"). This covers
`plugins_api`, `themes_api`, `get_option`, `get_plugin_data`, `get_plugin_files`,
`get_post` and the regex and JSON outputs. Each transient is a plain map that goes in
and comes out. A runPHP payload is modelled as a typed `Script` value. Its string fields
are the exact texts that the script splices between single quotes.

## Model

| member | source | states |
|---|---|---|
| Resolver.Memo | blueprint-extractor.php:32-35 | A cache hit returns the cached value and leaves the cache unchanged. A miss returns the fetched value and adds exactly that key. Every other entry keeps its value. |
| Resolver.MemoRepeatHits | blueprint-extractor.php:41-68 | A second lookup of the same slug returns the first answer, even when the oracle would now answer differently, and changes nothing. |
| Resolver.NormalizeSlug | blueprint-extractor.php:37-39 | The own-plugin normalisation is the identity. An 18-character prefix can never equal the 19-character literal. |
| Resolver.SlugOf | blueprint-extractor.php:227 | `explode( '/', $plugin )[0]` is everything before the first slash: a slash-free prefix of the plugin path that is either the whole path or followed by a slash. |
| Resolver.ClassifyDownload | blueprint-extractor.php:49-62 | The result is a plugin-directory locator exactly when the response has a link starting with `https://downloads.wordpress.org/plugin/`. It then carries the queried slug. A URL locator always points at the GitHub proxy and comes from a link containing `https://github.com/`. An error or a missing link gives no locator. Which GitHub links are proxied, and with which groups, is stated by `Resolver.ProxiedIff` and `Resolver.ProxiedArchive`. |
| Resolver.GithubArchiveLink | blueprint-extractor.php:57-61 | A link `https://github.com/O/R/archive/refs/KIND/REF.zip`, with KIND `heads` or `tags`, classifies as the proxy URL `…?repo=O/R&release=REF`. |
| Resolver.ProxiedIff | blueprint-extractor.php:49-62 | A link that does not start with `https://downloads.wordpress.org/plugin/` gives a locator exactly when a `heads`/`tags` archive link (non-empty slash-free owner, repository and ref) occurs somewhere in it, and that locator is a URL. With no such occurrence, or any other link, the slug is recorded as `false`. |
| Resolver.ProxiedArchive | blueprint-extractor.php:57-61 | A proxied URL always comes from the leftmost archive link in the download link: the link holds an archive link at some index `i`, none starts before `i`, and the URL is `…?repo=` that link's owner/repository `&release=` its ref. |
| Resolver.ShortLinkNotProxied | blueprint-extractor.php:57 | `https://github.com/o/r/archive/v1.zip`, an archive link without `refs/heads` or `refs/tags`, gives no locator. |
| Resolver.ReleaseAssetNotProxied | blueprint-extractor.php:57 | The release-asset link `https://github.com/o/r/releases/download/v1/p.zip` gives no locator. |
| Resolver.GithubIsNotRegistry | blueprint-extractor.php:52-57 | A GitHub link never takes the plugin-directory branch, so the two branches do not overlap. |
| Resolver.GetPluginResource | blueprint-extractor.php:30-69 | A cached slug, including a cached "not installable" answer, returns its entry without consulting the API. Otherwise the classified API answer is returned and stored under that slug only. |
| Resolver.CheckThemeExists | blueprint-extractor.php:71-91 | The same memo discipline for themes: a cached `false` is returned as is, and a miss stores whether the theme API answered without error. |
| OptionScan.FirstToken | blueprint-extractor.php:145 | `strtok( $file, '/' )` gives the first path segment: the non-empty slash-free run that starts right after the leading slashes and ends at the next slash or at the end. It gives nothing exactly when the path is all slashes. |
| OptionScan.PluginOptionsExact | blueprint-extractor.php:104-172 | A (slug, option) pair is reported exactly when it meets all of these, in both directions. The value reported is the stored one. <br>• Some active plugin with that slug is not ignored. <br>• One of its files ends in `.php`, has a first path segment other than `node_modules` and `vendor`, and reads the option. For a plugin in a folder that segment is the folder, so the plugin's own nested `vendor` and `node_modules` files are scanned. <br>• The option is not a core option and does not start with `wp_` or `_`. <br>• The option's value is truthy. |
| OptionScan.ScannedInFolder | blueprint-extractor.php:141-150 | A file listed under a plugin folder has that folder as its first segment, so it is scanned exactly when it ends in `.php` and the folder itself is not named `node_modules` or `vendor`; a nested `vendor` or `node_modules` directory further down is not skipped. |
| OptionScan.FindingsSound | blueprint-extractor.php:135-169 | Every finding of the walk satisfies the reference filter, and its value is the option's stored value. |
| OptionScan.FindingsComplete | blueprint-extractor.php:135-169 | Every pair admitted by the reference filter is found by the walk. |
| OptionScan.PluginOptions | blueprint-extractor.php:163-166 | A slug key exists only when it has at least one option. |
| OptionScan.IgnoredSlugHasNoOptions | blueprint-extractor.php:137-139 | A slug on the ignored list never has options reported. |
| OptionScan.ReportableNotIgnored | blueprint-extractor.php:137-139 | For a slug not on the ignored list, the filter admits the same options whatever else the list holds. |
| ConfigScan.Constants | blueprint-extractor.php:191-196 | The result is a well-formed map without any of the six `DB_*` keys. |
| ConfigScan.BuildLastWins | blueprint-extractor.php:185-196 | A non-database name is present exactly when some pair names it. It then holds the value of the LAST such pair. |
| ConfigScan.ConstantsFromLiterals | blueprint-extractor.php:177-186 | Every reported name and value is the text of a string-literal token with `"` trimmed. |
| ConfigScan.TrimDoubleQuoted | blueprint-extractor.php:181 | `trim( $t, '"' )` recovers the body of a double-quoted literal. |
| ConfigScan.SingleQuotesKept | blueprint-extractor.php:181 | Single quotes are not trimmed: `'DB_PASSWORD'` keeps them, so it is not removed by the `DB_*` unsets. |
| ConfigScan.CursorMissesDefine | blueprint-extractor.php:177-189 | As written: `next()` runs its own cursor from the first token, so `define("NAME","VALUE");` yields no constant. |
| ConfigScan.IntendedFindsDefine | blueprint-extractor.php:177-196 | Corrected scanner: the same file yields exactly the pair (NAME, VALUE), unless NAME is a database key. |
| ConfigScan.IntendedReadsDefine | blueprint-extractor.php:178-186 | Corrected scanner: at a `define` followed by `(`, a literal, `,` and a literal, the pair of trimmed literals is read at that position. |
| Prioritize.Requirements | blueprint-extractor.php:243-244 | There are required slugs exactly when the header is set and not empty. PHP's `empty` also holds of `"0"`. |
| Prioritize.RequirementsNotTrimmed | blueprint-extractor.php:244 | The header `a, b` requires `a` and ` b`, with the space, because the pieces are not trimmed. |
| Prioritize.DiscoverFound | blueprint-extractor.php:226-254 | Besides the steps found before it, the loop finds exactly the slugs of the active plugins that are not skipped and resolve. |
| Prioritize.DiscoverIgnored | blueprint-extractor.php:251-253 | The unresolvable slugs are appended to the ignored list in discovery order. |
| Prioritize.UnresolvedMembers | blueprint-extractor.php:226-253 | A slug is reported unresolved exactly when it is some active plugin's slug, is not skipped and does not resolve. |
| Prioritize.DiscoverDeps | blueprint-extractor.php:243-250 | `$dependent_upon` is keyed by the required slugs in order of first mention. |
| Prioritize.DiscoverAgrees | blueprint-extractor.php:231 | Every found step is fetched from the place the memoised lookup gives, judged against the transient as it stood before the run. |
| Prioritize.IgnoreAllFindsNothing | blueprint-extractor.php:228-230 | With `ignore_all_plugins` the loop changes nothing. |
| Prioritize.PrioritizedSlugs | blueprint-extractor.php:256-271 | The prioritised steps are the required slugs that have a step, in the order they were first required. |
| Prioritize.PrioritizedLeft | blueprint-extractor.php:270-274 | The steps left over are the other discovered steps, in discovery order, with their values untouched. |
| Prioritize.PrioritizedFromFound | blueprint-extractor.php:260-269 | Every prioritised step is the discovered step for its slug, and its info starts with ` (prioritized because of `. |
| Prioritize.PluginEntriesInfo | blueprint-extractor.php:256-274 | A step whose slug some plugin requires has the info ` (prioritized because of ` + the requiring plugins' names joined by `, `, in the order they required it, + `)`. A requiring plugin whose slug was prioritised in an earlier round, or that has no step, gives an empty name. Every other step has an empty info. |
| Prioritize.PrioritizedInfoFrom | blueprint-extractor.php:256-269 | The same, round by round: started from the steps without a given set of slugs, each prioritised step names its dependents with those slugs and the earlier required slugs moved out. |
| Prioritize.PluginEntriesOrder | blueprint-extractor.php:240-274 | The installPlugin entries are the discovered plugins, each exactly once. First come the required ones, then the rest. Each entry carries its discovered resource and name. |
| Prioritize.RequiredFirst | blueprint-extractor.php:256-274 | A required slug comes before every slug that nothing requires. |
| Prioritize.ChainedRequirementOrder | blueprint-extractor.php:256-271 | The prioritisation looks one level deep. Take `c` requiring `b`, and `b` requiring `a`, discovered as c, b, a. The output order is b, a, c, and `a`'s info names nobody because `b` has already left `$plugin_steps`. So `b` is installed before `a`, which it requires. |
| Prioritize.ChainedPrioritized | blueprint-extractor.php:256-274 | The full entry list of the chained example, with the info texts. |
| Assembler.IgnoreList | blueprint-extractor.php:211-222 | The ignore list is the comma-split `ignore` parameter plus `blueprint-extractor` and `blueprint-extractor-main`, and nothing else. |
| Assembler.GenerateLayout | blueprint-extractor.php:221-306 | The steps are the installPlugin steps in entry order, then at most one installTheme, then exactly one setSiteOptions with exactly `blogname`, `blogdescription` and `permalink_structure`, then the purge runPHP. There is a theme step exactly when the theme check passes. |
| Assembler.GenerateMetadata | blueprint-extractor.php:308-320 | The landing page is the stored one or `/`. The PHP version is a prefix of at most three characters. The bundle is kitchen-sink, and networking and login are on. |
| Assembler.DiscoveredSpec | blueprint-extractor.php:224-254 | Discovery from empty maps agrees with the reference definitions: resolvable slugs, resolved places, unresolved slugs in order, and requirement keys in first-mention order. |
| Assembler.EntriesExact | blueprint-extractor.php:226-274 | Each non-ignored active plugin that resolves gets exactly one step, fetched from where its lookup said. No other slug gets a step. |
| Assembler.NoIgnoredPlugin | blueprint-extractor.php:221-230 | No installPlugin step has a slug on the ignore list, so the extractor never installs itself. |
| Assembler.IgnoreAllPlugins | blueprint-extractor.php:215-230 | With `ignore_all_plugins` there is no installPlugin step and no plugin is recorded as ignored. |
| Assembler.RequiredBeforeRequiring | blueprint-extractor.php:240-274 | In the generated steps, a slug some plugin requires precedes every slug nothing requires. |
| Assembler.ThemeStep | blueprint-extractor.php:276-287 | The theme is installed exactly when its text domain is not ignored, the theme directory knows it and `ignore_theme` is unset. Otherwise the text domain is appended to the ignored list. |
| Assembler.IgnoredThemeNotLookedUp | blueprint-extractor.php:277 | The condition short-circuits: an ignored text domain never reaches the theme directory or its transient. |
| Assembler.GenerateBlueprint | blueprint-extractor.php:201-323 | `ignored_plugins` afterwards holds the slugs of the active plugins that are neither skipped nor resolvable, in order, then the text domain when the theme is not installed. Every cached plugin answer is the one the lookup gives, and the old entries stay. The theme answer is cached exactly when the text domain is not ignored and was not cached. |
| Assembler.IgnoredPluginsExact | blueprint-extractor.php:211-287 | A slug is recorded as ignored exactly when it is the text domain of a theme that is not installed, or an active plugin's slug that is not in `ignore`, does not resolve, and `ignore_all_plugins` is unset. A plugin named in `ignore` is never recorded unless it is the text domain. With `ignore_all_plugins` only the text domain can be recorded. |
| Assembler.ScanAfterGenerate | blueprint-extractor.php:104-172 | The options scan after generation still reports the options of a plugin named in `ignore`, of every plugin under `ignore_all_plugins`, and of every resolvable plugin, as the file and name filter admits them. The exception is a slug equal to the text domain of a theme that is not installed. An active plugin that is neither ignored nor resolvable gets no options. |
| Assembler.SiteOptionsGet | blueprint-extractor.php:289-296 | Each of the three site options holds what `get_option` answers for it, `false` when the option is missing. |
| Rewriter.ExistingMembers | blueprint-extractor.php:425-431 | A reference is kept exactly when it is numeric and names an existing post. |
| Rewriter.RewriteNavSpec | blueprint-extractor.php:433-447 | The existing link ids are replaced one after another, in link order. Each replacement turns every occurrence of the id in the text as left by the earlier ones into `NAV_ITEM_id`. The nav table gains exactly those ids, each with its post's name and type, and keeps its other entries. |
| Rewriter.NavTokensCascade | blueprint-extractor.php:440-444 | The replacements cascade: with links to 12 and then 1, the content `12` becomes `NAV_ITEM_NAV_ITEM_12`, because the `1` of the token written for 12 is replaced too. |
| Rewriter.SequentialIndices | blueprint-extractor.php:420-463 | The references are indexed 0, 1, 2, … over the existing ones in order. A non-numeric or missing reference takes no index and adds no entry. Each entry holds its post with navigation-rewritten content. The part content has the k-th id replaced by `REFERENCE_k`. |
| Rewriter.NothingToRewrite | blueprint-extractor.php:425-431 | Without an existing reference, the part and both tables are left exactly as they were. |
| Rewriter.OneReferenceOneLink | blueprint-extractor.php:420-463 | A part with one reference holding one link gains `REFERENCE_0`. Its single reference holds `NAV_ITEM_n`, and the nav table holds `n`. |
| Rewriter.StrayDigitsAlsoReplaced | blueprint-extractor.php:457-461 | The replacement runs over the whole part text. With reference 1, the text `1,21` becomes `REFERENCE_0,2REFERENCE_0`. |
| Text.Explode | blueprint-extractor.php:244 | `explode` gives at least one piece, none holding the delimiter. The first piece is the whole text when the delimiter does not occur; otherwise it ends exactly at the leftmost occurrence. |
| Text.ReplaceIsImplodeOfExplode | blueprint-extractor.php:440-444 | `str_replace` with one needle replaces the non-overlapping occurrences, left to right. |
| Text.ImplodeExplodeRoundTrip | blueprint-extractor.php:244 | The pieces `explode` cuts from the `RequiresPlugins` header, joined again with the same delimiter, give the header back: no text is lost or added between pieces. |
| OrderedMap.PutAllLastWins | blueprint-extractor.php:185 | After a series of array assignments, a key holds the value of its last assignment, or its old value when it was never assigned. |
| OrderedMap.UniqueIsAppendNew | blueprint-extractor.php:152 | `array_unique` keeps first occurrences in order, just as successive assignments to new keys do. |
| NamingFacts.TrailingNumberIff | blueprint-extractor.php:331 | `/\d+$/` matches exactly when the name, less at most one final newline, ends in a digit. |
| NamingFacts.BumpIncrements | blueprint-extractor.php:331-332 | A name ending in a number is bumped to the number plus one. The text before the number and the final newline are kept. |
| NamingFacts.BumpUnnumbered | blueprint-extractor.php:333-335 | A name without a trailing number gets ` V2` appended. |
| NamingFacts.BumpTwice | blueprint-extractor.php:331-335 | Bumping an unnumbered name twice gives ` V2`, then ` V3`. |
| NamingFacts.LeadingZerosDropped | blueprint-extractor.php:332 | `$m[0] + 1` reads the digits as a decimal integer, so `…009` becomes `…10`. |
| Escaping.Encode | blueprint-extractor.php:388 | The attribute text carries no newline. |
| Escaping.Escape | blueprint-extractor.php:829 | Every `'` in the escaped text is preceded by a backslash. |
| Escaping.DecodeEncode | blueprint-extractor.php:829 | The script's decode undoes the page's `PHP_EOL` encoding (line 388): decoding the encoded text gives the original back, for a text without a backslash-`n` pair of its own. |
| Escaping.EscapeEncodeCommute | blueprint-extractor.php:829 | The quote escape and the newline encoding commute. |
| Escaping.PayloadRoundTrip | blueprint-extractor.php:829 | The text the script splices into a payload, from an attribute encoded as on line 388, is the text handed to that encoding with its quotes escaped, for a text without a backslash-`n` pair. The attribute escaping around it is not part of the chain (see "## Left out"). |
| Escaping.LiteralBackslashNBecomesNewline | blueprint-extractor.php:829 | A literal backslash-`n` in the content reaches the payload as a newline, so that round trip is lossy. |
| Merge.UpdateBlueprint | blueprint-extractor.php:704-920 | Both results carry the typed landing page and the generated metadata. The launched blueprint is the shown one plus exactly two steps when the extractor box is checked. |
| Merge.ShownSteps | blueprint-extractor.php:707-899 | The shown steps are the kept generated steps, then the zip import when a URL is given, then the appended selections. |
| Merge.PluginSelection | blueprint-extractor.php:720-731 | The shown installPlugin steps are exactly the checked ones, in order, each stripped of name, info and slug. |
| Merge.ThemeSelection | blueprint-extractor.php:757-763 | "Use Default Theme" drops every installTheme step. Otherwise all are kept as generated. |
| Merge.StylesBeforeTheme | blueprint-extractor.php:764-772 | With global styles checked, every kept installTheme step comes directly after the global-styles runPHP step. |
| Merge.OptionsSelection | blueprint-extractor.php:732-756 | A setSiteOptions step is kept exactly when its generated map is non-empty. It then carries the option inputs merged in. |
| Merge.MergeOptionsSpec | blueprint-extractor.php:734-744 | The merged keys are the generated keys plus the filled input keys. A key named by a filled input holds the text of its last input. Every other key keeps its generated value. |
| Merge.FieldMapSpec | blueprint-extractor.php:802-812 | The constants map has exactly the filled input keys, each with the value of its last input. |
| Merge.ConstantsStepIff | blueprint-extractor.php:813-818 | A defineWpConfigConsts step is added exactly when some constant input has a key, and it then carries that map. |
| Merge.ConstantsSelection | blueprint-extractor.php:802-818 | The shown constants steps are the generated ones, then the one built from the inputs. |
| Merge.SelectedInPhaseOrder | blueprint-extractor.php:782-898 | The appended steps run in the order users, constants, pages, template parts, templates. |
| Merge.ExtractorSelection | blueprint-extractor.php:902-920 | With the box checked, the launched blueprint is the shown one plus the extractor install and a setSiteOptions step. That step holds the constants, the options, the landing page, the default-checked flag and the name. The options are rebuilt from the inputs when the generated steps have a setSiteOptions step, and are the previous ones otherwise. Unchecked, both blueprints are the same. |
| Merge.NavOpsSorted | blueprint-extractor.php:849-856 | The nav lookups visit the table in ascending id order and cover every entry. |
| Merge.PartPayloadOrder | blueprint-extractor.php:847-869 | The template-part payload loads the part first and inserts the part last. In between come the nav lookups, in ascending id order and covering the table. |
| Merge.PartReferenceOrder | blueprint-extractor.php:857-866 | Reference `j` is inserted under index `j` with its fields escaped, and its `REFERENCE_j` token is replaced right after. |
| Merge.PageRoundTrip | blueprint-extractor.php:825-836 | A checked page reaches its runPHP payload with each field quote-escaped and its content otherwise as the page's attribute delivers it, for content that holds no backslash-`n` pair of its own. That equals the stored content only when the content has no HTML character reference (see "## Left out"). |
| Merge.UntouchedSelection | blueprint-extractor.php:719-898 | With every plugin checked, the theme kept without styles and no constant filled or box ticked, the shown steps are the generated ones unlabelled, with the option inputs assigned into each setSiteOptions map. This holds as long as no setSiteOptions map is empty. With no option input filled either, the shown steps are the generated ones unlabelled. |
| Merge.GeneratedUntouched | blueprint-extractor.php:719-898 | Applied with every plugin checked, the theme kept without styles and no constant filled or box ticked (the page's state when `blueprint_extractor_default_checked` is unset and no additional options are stored) to a freshly generated blueprint, the merge gives its steps unlabelled, with the option inputs assigned into the site options. The generated site options are never empty, so they are never dropped. |
| Merge.GeneratedUnedited | blueprint-extractor.php:496-506 | When `blueprint_extractor_default_checked` is unset and no additional options are stored, the page as first shown has one filled input pair per generated site option, holding the printed value. The merge then gives the generated steps unlabelled, except that the setSiteOptions step holds the shown site options: a stored option keeps its value and a missing one (`false`) becomes the empty string. |
| Merge.RenderedRoundTrip | blueprint-extractor.php:500-506 | Reading a map's shown inputs back into it keeps its keys and their order and turns each value into the text shown: `false` gives the empty string, `true` gives `1`. |
| Merge.StoredSiteOptions | blueprint-extractor.php:496-506 | The site options as their inputs show them: the three option names, in order, each with the stored text, or the empty string when the option is missing. |
| Merge.SiteOptionsReadBack | blueprint-extractor.php:500-506 | Reading the generated site options back from their shown inputs gives exactly those shown values. |
| Merge.SiteOptionRendered | blueprint-extractor.php:500-506 | Each generated site option, read back from its input, holds the stored text, or the empty string when the option is missing. |
| OrderedMap.PutAllInPlace | blueprint-extractor.php:734-743 | Assigning new values, in order, to every key a map already holds gives the new pairs, in the old key order. |

## Left out

- WordPress, remote and file lookups are oracle parameters, not behaviour. This covers `plugins_api`, `themes_api`, `get_option`, `get_plugin_data`, `get_plugin_files`, `get_post`, `get_posts`, `get_users`, `wp_get_theme` and `file_get_contents`.
- Transient expiry (`DAY_IN_SECONDS`) is wall-clock time. A transient is a map passed in and returned.
- PCRE matching of `get_option(…)` calls and of navigation block comments, `json_decode`, `json_encode`, `token_get_all` and `maybe_serialize` are library calls. Their outputs are structured inputs: option-name lists, `Option<nat>` ids, token sequences and serialized strings.
- `is_numeric` is modelled as "parsed to a natural number". Numeric strings such as `"1.5"` or `" 12"` are not modelled.
- `in_array` is modelled as strict membership. PHP's loose comparison differs only for numeric-looking strings.
- The admin page HTML, CSS and DOM are replaced by the `Selection` record, whose fields hold the values the script reads from the page. `esc_attr`/`esc_html` and the browser's attribute decoding are not modelled, and together they are NOT lossless: `esc_attr` does not re-encode an existing character reference, so a stored `&amp;`, `&lt;` or `&nbsp;` reaches the script as `&`, `<` or a no-break space.
- Hooks, the admin menu, the admin-bar button, nonces and recording are glue.
- The media ZIP, HTTP headers and file streaming are I/O. This includes the fixed media step of `generate_media_step`.
- Base64 and URI encoding of the Playground link, the clipboard and `localStorage` persistence are browser facilities. The script's `additionalOptions` global is modelled as an input and an output of the merge.
- `phpversion()` and `$wp_version` are environment inputs.
- `wp_unslash` on the `ignore` parameter is not modelled: the query is taken as already unslashed text.
- NamingFacts.BumpIncrements: the digits are read as an unbounded natural number. PHP turns a number past `PHP_INT_MAX` into a float and prints it in exponent form; that is not modelled.
- Escaping.PayloadRoundTrip: starts from the text the attribute delivers to the script, not from the stored post. For stored content holding HTML character references the two differ (see the `esc_attr` line above), so the round trip back to the stored content holds only for content without character references.
- Merge.PageRoundTrip: the same restriction: a page's payload carries the stored content only when that content has no HTML character reference; otherwise it carries the content with those references decoded.
- Merge.MergeOptionsSpec: the merged options keep insertion order: generated keys first, then new input keys. The page prints the object with `JSON.stringify`, which lists integer-like keys first in ascending order, so an option named `10` would be printed before `siteurl`. That printing order is not modelled for the options map; only its keys and values are.
- Merge.FieldMapSpec: the constants map likewise keeps input order, whereas `JSON.stringify` would print integer-like constant names first in ascending order. Only the navigation table (`SortByKey`) models that order.
- Merge.OptionsSelection: the drop rule follows the code, not the intuitive "merged map is empty" reading. An empty generated map is encoded as a JSON array, and named assignments do not change an array's `length`. So the step is dropped exactly when the generated map was empty, whatever was merged in.
- Merge.UpdateBlueprint: the user, page, template and global-styles payloads are typed `Script` values holding the escaped hole texts. The full PHP source text around the holes, and the `home_url` replacement inside it, are not rendered.

## Findings

| source | as written | input that shows it | evidently intended | confidence | as-written member | corrected member |
|---|---|---|---|---|---|---|
| blueprint-extractor.php:177-189 | The by-value `foreach` leaves the array's internal position at the start, so `next( $tokens )` reads tokens 1, 2, … regardless of where the `define` is. It also never skips the `(`, `,` or whitespace tokens between `define` and its literals. | A `wp-config.php` consisting of `<?php define("NAME","VALUE");` yields no constant. | The two string literals following each `define` are read as name and value. | not executed | ConfigScan.CursorMissesDefine | ConfigScan.IntendedFindsDefine |

=== FILE: assembler.dfy ===
/** `generate_blueprint`: the ignore list, the installPlugin steps in prioritised order,
    the theme step, the three site options, the purge step and the top-level metadata. */
module Assembler {
  import opened Wrappers
  import opened Text
  import opened OrderedMap
  import opened Manifest
  import opened Resolver
  import opened Prioritize
  import OptionScan

  /** The query parameters `ignore`, `ignore_all_plugins` and `ignore_theme`. */
  datatype Query = Query(ignore: Option<string>, ignoreAllPlugins: bool, ignoreTheme: bool)

  /** The WordPress installation as the plugin sees it: `active_plugins`, the plugin
      headers, the plugin and theme directories, the active theme's text domain,
      `get_option` (`None` when the option does not exist) and the versions. */
  datatype Environment = Environment(
    activePlugins: seq<string>,
    header: string -> PluginHeader,
    api: string -> PluginApiResponse,
    themeDomain: string,
    themeFound: string -> bool,
    option: string -> Option<string>,
    phpVersion: string,
    wpVersion: string)

  /** The two transients the lookups are memoised in. */
  datatype Caches = Caches(plugins: PluginCache, themes: map<string, bool>)

  /** The blueprint, `$this->ignored_plugins` afterwards, and the transients afterwards. */
  datatype Outcome = Outcome(blueprint: Blueprint, ignoredPlugins: seq<string>, caches: Caches)

  const MainSlug: string := "blueprint-extractor-main"
  const SiteOptionNames: seq<string> := ["blogname", "blogdescription", "permalink_structure"]
  const LandingPageOption: string := "blueprint_extractor_initial_landing_page"

  /** The `ignore` parameter split on commas, then the plugin's own two slugs. */
  function IgnoreList(q: Query): (r: seq<string>)
    ensures OwnSlug in r && MainSlug in r
    ensures forall s :: s in r <==> (s == OwnSlug || s == MainSlug
                                     || (q.ignore.Some? && s in Explode(",", q.ignore.value)))
  {
    var given := match q.ignore
      case None => []
      case Some(list) => Explode(",", list);
    given + [OwnSlug, MainSlug]
  }

  function RequestOf(env: Environment, q: Query): Request {
    Request(IgnoreList(q), q.ignoreAllPlugins, env.header, PluginLookup(env.api))
  }

  /** The discovery loop run from empty step maps over the active plugins. */
  function Discovered(env: Environment, q: Query, caches: Caches): Discovery {
    Discover(RequestOf(env, q), env.activePlugins, Discovery([], [], [], caches.plugins))
  }

  /** The installPlugin steps before their editor-only fields are stripped. */
  function Entries(env: Environment, q: Query, caches: Caches): seq<Entry> {
    var d := Discovered(env, q, caches);
    PluginEntries(d.found, d.dependentUpon)
  }

  function PluginSteps(es: seq<Entry>): (r: seq<Step>)
    ensures |r| == |es|
    ensures forall i :: 0 <= i < |es| ==> r[i] == ToStep(es[i])
  {
    if |es| == 0 then [] else [ToStep(es[0])] + PluginSteps(es[1..])
  }

  /** `get_option( $name )`, which answers `false` for a missing option. */
  function OptionValue(o: Option<string>): Value {
    match o
    case None => Flag(false)
    case Some(s) => Text(s)
  }

  function SiteOptions(env: Environment): (r: OMap<string, Value>)
    ensures Keys(r) == SiteOptionNames
    ensures forall k :: 0 <= k < |r| ==> r[k].1 == OptionValue(env.option(r[k].0))
  {
    var r := [("blogname", OptionValue(env.option("blogname"))),
              ("blogdescription", OptionValue(env.option("blogdescription"))),
              ("permalink_structure", OptionValue(env.option("permalink_structure")))];
    KeysOf(r);
    r
  }

  /** Each site option holds what `get_option` answers for it. */
  lemma {:induction false} SiteOptionsGet(env: Environment, name: string)
    requires name in SiteOptionNames
    ensures Get(SiteOptions(env), name) == Some(OptionValue(env.option(name)))
  {
    var r := SiteOptions(env);
    var n0, n1, n2 := SiteOptionNames[0], SiteOptionNames[1], SiteOptionNames[2];
    assert |n0| == 8 && |n1| == 15 && |n2| == 19;
    assert r[0] == (n0, OptionValue(env.option(n0))) && r[1] == (n1, OptionValue(env.option(n1)))
        && r[2] == (n2, OptionValue(env.option(n2)));
    assert r[1..][1..] == [r[2]];
    if name != n0 {
      assert Get(r, name) == Get(r[1..], name);
      if name != n1 {
        assert Get(r[1..], name) == Get(r[1..][1..], name);
      }
    }
  }

  /** The theme condition, evaluated left to right: the theme directory is asked (and
      the answer cached) only when the text domain is not in the ignore list. */
  function ThemeCheck(env: Environment, q: Query, themes: map<string, bool>): (r: (bool, map<string, bool>)) {
    var td := env.themeDomain;
    if td in IgnoreList(q) then (false, themes)
    else
      var (found, themes') := CheckThemeExists(themes, td, env.themeFound);
      (found && !q.ignoreTheme, themes')
  }

  /** The theme is installed when its text domain is not ignored, the theme directory
      knows it (the cached answer first) and `ignore_theme` is unset. */
  predicate ThemeInstalled(env: Environment, q: Query, themes: map<string, bool>) {
    var td := env.themeDomain;
    && td !in IgnoreList(q)
    && (if td in themes then themes[td] else env.themeFound(td))
    && !q.ignoreTheme
  }

  /** `$this->ignored_plugins` afterwards holds the active plugins that are neither
      ignored nor resolvable, in order, then the text domain when the theme is not
      installed. Every cached plugin answer is the one the lookup gives; the theme
      answer is cached exactly when the text domain was looked up. */
  function GenerateBlueprint(env: Environment, q: Query, caches: Caches): (r: Outcome)
    ensures r.ignoredPlugins
            == Unresolved(RequestOf(env, q), caches.plugins, env.activePlugins)
               + (if ThemeInstalled(env, q, caches.themes) then [] else [env.themeDomain])
    ensures CacheAgrees(caches.plugins, PluginLookup(env.api), r.caches.plugins)
    ensures var td := env.themeDomain;
      r.caches.themes == if td in IgnoreList(q) || td in caches.themes then caches.themes
                         else caches.themes[td := env.themeFound(td)]
  {
    DiscoveredSpec(env, q, caches);
    var d := Discovered(env, q, caches);
    var (install, themes) := ThemeCheck(env, q, caches.themes);
    var themeSteps := if install then [InstallTheme(ThemeDirectory(env.themeDomain))] else [];
    var steps := PluginSteps(Entries(env, q, caches)) + themeSteps
                 + [SetSiteOptions(SiteOptions(env)), RunPhp(PurgeContent)];
    var landing := env.option(LandingPageOption).GetOr("/");
    var bp := Blueprint(landing, Take(env.phpVersion, 3), env.wpVersion, ["kitchen-sink"], true, true, steps);
    Outcome(bp, d.ignoredPlugins + (if install then [] else [env.themeDomain]), Caches(d.cache, themes))
  }

  // ---------------------------------------------------------------------------
  // Properties.

  /** Installation steps, then exactly one setSiteOptions with the three site options,
      then the purge step; the theme step, when there is one, comes right before the
      site options. */
  ghost predicate Layout(steps: seq<Step>) {
    && |steps| >= 2
    && steps[|steps| - 1] == RunPhp(PurgeContent)
    && steps[|steps| - 2].SetSiteOptions?
    && Keys(steps[|steps| - 2].options) == SiteOptionNames
    && forall i :: 0 <= i < |steps| - 2 ==>
         (steps[i].InstallPlugin? || steps[i].InstallTheme?)
         && (steps[i].InstallTheme? ==> i == |steps| - 3)
  }

  lemma {:induction false} GenerateLayout(env: Environment, q: Query, caches: Caches)
    ensures var r := GenerateBlueprint(env, q, caches);
      var es := Entries(env, q, caches);
      && Layout(r.blueprint.steps)
      && (forall i :: 0 <= i < |es| ==> r.blueprint.steps[i] == ToStep(es[i]))
      && (ThemeCheck(env, q, caches.themes).0
          <==> |r.blueprint.steps| == |es| + 3 && r.blueprint.steps[|es|] == InstallTheme(ThemeDirectory(env.themeDomain)))
      && (!ThemeCheck(env, q, caches.themes).0 ==> |r.blueprint.steps| == |es| + 2)
  {
  }

  /** The top-level fields: the stored landing page or "/", the first three characters
      of the PHP version, the kitchen-sink bundle, networking and login on. */
  lemma {:induction false} GenerateMetadata(env: Environment, q: Query, caches: Caches)
    ensures var bp := GenerateBlueprint(env, q, caches).blueprint;
      && (env.option(LandingPageOption).None? ==> bp.landingPage == "/")
      && (env.option(LandingPageOption).Some? ==> bp.landingPage == env.option(LandingPageOption).value)
      && StartsWith(env.phpVersion, bp.phpVersion) && |bp.phpVersion| <= 3
      && bp.phpExtensionBundles == ["kitchen-sink"] && bp.networking && bp.login
  {
  }

  /** The discovered steps agree with the reference definitions of `Prioritize`: the
      slugs are exactly the resolvable non-ignored ones, each once, each fetched from
      its resolved place, and the unresolvable ones head the ignored list in order. */
  lemma {:induction false} DiscoveredSpec(env: Environment, q: Query, caches: Caches)
    ensures var rq := RequestOf(env, q);
      var d := Discovered(env, q, caches);
      && Wf(d.found) && Wf(d.dependentUpon)
      && CacheAgrees(caches.plugins, rq.lookup, d.cache)
      && (forall k :: k in Keys(d.found) <==> Resolvable(rq, caches.plugins, env.activePlugins, k))
      && FoundAgrees(caches.plugins, rq.lookup, d.found)
      && d.ignoredPlugins == Unresolved(rq, caches.plugins, env.activePlugins)
      && Keys(d.dependentUpon) == Unique(AllRequirements(rq, caches.plugins, env.activePlugins))
  {
    var rq := RequestOf(env, q);
    var st := Discovery([], [], [], caches.plugins);
    DiscoverAgrees(rq, caches.plugins, env.activePlugins, st);
    DiscoverFound(rq, caches.plugins, env.activePlugins, st);
    DiscoverIgnored(rq, caches.plugins, env.activePlugins, st);
    DiscoverDeps(rq, caches.plugins, env.activePlugins, st);
    UniqueIsAppendNew(AllRequirements(rq, caches.plugins, env.activePlugins));
    assert [] + Unresolved(rq, caches.plugins, env.activePlugins) == Unresolved(rq, caches.plugins, env.activePlugins);
  }

  /** Each active plugin that is not ignored and resolves gets exactly one step, fetched
      from the place its lookup gave; no other slug gets one. */
  lemma {:induction false} EntriesExact(env: Environment, q: Query, caches: Caches)
    ensures var rq := RequestOf(env, q);
      var es := Entries(env, q, caches);
      && Distinct(Slugs(es))
      && (forall k :: k in Slugs(es) <==> Resolvable(rq, caches.plugins, env.activePlugins, k))
      && (forall i :: 0 <= i < |es| ==> Resolve(caches.plugins, rq.lookup, es[i].slug) == Some(es[i].resource))
  {
    var rq := RequestOf(env, q);
    var d := Discovered(env, q, caches);
    DiscoveredSpec(env, q, caches);
    PluginEntriesOrder(d.found, d.dependentUpon);
    var es := Entries(env, q, caches);
    forall i | 0 <= i < |es|
      ensures Resolve(caches.plugins, rq.lookup, es[i].slug) == Some(es[i].resource)
    {
      assert Get(d.found, es[i].slug) == Some(Found(es[i].resource, es[i].name));
    }
  }

  /** No step installs a slug from the ignore list, so never the plugin itself. */
  lemma {:induction false} NoIgnoredPlugin(env: Environment, q: Query, caches: Caches)
    ensures var es := Entries(env, q, caches);
      forall i :: 0 <= i < |es| ==> es[i].slug !in IgnoreList(q) && es[i].slug != OwnSlug && es[i].slug != MainSlug
  {
    EntriesExact(env, q, caches);
    var es := Entries(env, q, caches);
    forall i | 0 <= i < |es|
      ensures es[i].slug !in IgnoreList(q)
    {
      assert es[i].slug in Slugs(es);
    }
  }

  /** With `ignore_all_plugins` there is no installPlugin step and no plugin is recorded
      as ignored. */
  lemma {:induction false} IgnoreAllPlugins(env: Environment, q: Query, caches: Caches)
    requires q.ignoreAllPlugins
    ensures Entries(env, q, caches) == []
    ensures Discovered(env, q, caches).ignoredPlugins == []
  {
    var st := Discovery([], [], [], caches.plugins);
    IgnoreAllFindsNothing(RequestOf(env, q), env.activePlugins, st);
    assert Prioritized([], []) == ([], []);
  }

  /** A plugin that is required by some discovered plugin is installed before every
      discovered plugin that nothing requires. */
  lemma {:induction false} RequiredBeforeRequiring(env: Environment, q: Query, caches: Caches, a: string, b: string)
    requires var rq := RequestOf(env, q);
      a in AllRequirements(rq, caches.plugins, env.activePlugins)
      && b !in AllRequirements(rq, caches.plugins, env.activePlugins)
    ensures var es := Entries(env, q, caches);
      forall i, j :: 0 <= i < |es| && 0 <= j < |es| && es[i].slug == a && es[j].slug == b ==> i < j
  {
    var d := Discovered(env, q, caches);
    DiscoveredSpec(env, q, caches);
    UniqueIsAppendNew(AllRequirements(RequestOf(env, q), caches.plugins, env.activePlugins));
    RequiredFirst(d.found, d.dependentUpon, a, b);
  }

  /** The theme step is there exactly when the text domain is not ignored, the theme
      directory knows it and `ignore_theme` is unset; otherwise the text domain is
      appended to the ignored list. */
  lemma {:induction false} ThemeStep(env: Environment, q: Query, caches: Caches)
    ensures var install := ThemeCheck(env, q, caches.themes).0;
      var td := env.themeDomain;
      var known := if td in caches.themes then caches.themes[td] else env.themeFound(td);
      && (install <==> td !in IgnoreList(q) && known && !q.ignoreTheme)
      && (install ==> InstallTheme(ThemeDirectory(td)) in GenerateBlueprint(env, q, caches).blueprint.steps)
      && (!install ==> GenerateBlueprint(env, q, caches).ignoredPlugins[|Discovered(env, q, caches).ignoredPlugins|] == td)
  {
    GenerateLayout(env, q, caches);
  }

  /** An ignored text domain never reaches the theme directory. */
  lemma {:induction false} IgnoredThemeNotLookedUp(env: Environment, q: Query, caches: Caches)
    requires env.themeDomain in IgnoreList(q)
    ensures GenerateBlueprint(env, q, caches).caches.themes == caches.themes
  {
  }

  /** A slug is recorded as ignored exactly when it is the text domain of a theme that
      is not installed, or it is an active plugin's slug that is not in the `ignore`
      list and does not resolve while `ignore_all_plugins` is unset. So a plugin named
      in `ignore` is recorded only as the text domain, and with `ignore_all_plugins`
      nothing but the text domain is recorded. */
  lemma {:induction false} IgnoredPluginsExact(env: Environment, q: Query, caches: Caches, s: string)
    ensures var ignored := GenerateBlueprint(env, q, caches).ignoredPlugins;
      s in ignored
      <==> (s == env.themeDomain && !ThemeInstalled(env, q, caches.themes))
           || ((exists i :: 0 <= i < |env.activePlugins| && SlugOf(env.activePlugins[i]) == s)
               && s !in IgnoreList(q) && !q.ignoreAllPlugins
               && Resolve(caches.plugins, PluginLookup(env.api), s).None?)
    ensures q.ignore.Some? && s in Explode(",", q.ignore.value) && s != env.themeDomain
            ==> s !in GenerateBlueprint(env, q, caches).ignoredPlugins
    ensures q.ignoreAllPlugins && s in GenerateBlueprint(env, q, caches).ignoredPlugins ==> s == env.themeDomain
  {
    UnresolvedMembers(RequestOf(env, q), caches.plugins, env.activePlugins, s);
  }

  /** The options scan that follows generation skips exactly the recorded slugs: a
      plugin named in `ignore`, every plugin under `ignore_all_plugins` and every
      resolvable plugin still has its options scanned, unless its slug is the text
      domain of a theme that is not installed; an active plugin that is neither
      ignored nor resolvable has none. */
  lemma {:induction false} ScanAfterGenerate(env: Environment, q: Query, caches: Caches,
                                             site: OptionScan.Site, slug: string, name: string)
    ensures var opts := OptionScan.PluginOptions(site, env.activePlugins, GenerateBlueprint(env, q, caches).ignoredPlugins);
      (slug in IgnoreList(q) || q.ignoreAllPlugins || Resolve(caches.plugins, PluginLookup(env.api), slug).Some?)
      && (slug != env.themeDomain || ThemeInstalled(env, q, caches.themes))
      ==> (OptionScan.Lookup(opts, slug, name).Some? <==> OptionScan.Reportable(site, env.activePlugins, [], slug, name))
    ensures var opts := OptionScan.PluginOptions(site, env.activePlugins, GenerateBlueprint(env, q, caches).ignoredPlugins);
      (exists i :: 0 <= i < |env.activePlugins| && SlugOf(env.activePlugins[i]) == slug)
      && slug !in IgnoreList(q) && !q.ignoreAllPlugins && Resolve(caches.plugins, PluginLookup(env.api), slug).None?
      ==> OptionScan.Lookup(opts, slug, name).None?
  {
    var ignored := GenerateBlueprint(env, q, caches).ignoredPlugins;
    IgnoredPluginsExact(env, q, caches, slug);
    OptionScan.PluginOptionsExact(site, env.activePlugins, ignored, slug, name);
    if slug in ignored {
      OptionScan.IgnoredSlugHasNoOptions(site, env.activePlugins, ignored, slug, name);
    } else {
      OptionScan.ReportableNotIgnored(site, env.activePlugins, ignored, slug, name);
    }
  }
}

=== FILE: config_scan.dfy ===
/** The wp-config.php constants scanner: a walk over the PHP token stream that keeps
    name/value string literals following `define`, then drops the database credentials.
    Lexing (`token_get_all`) and reading the file are outside the model: the token
    stream is the input. */
module ConfigScan {
  import opened Wrappers
  import opened OrderedMap

  /** The token identifiers the scanner looks at; every other identifier is `TOther`. */
  datatype TokenKind = TString | TConstantEncapsedString | TWhitespace | TComment | TOther

  /** `token_get_all` yields `[id, text, line]` arrays for most tokens and bare
      one-character strings for punctuation such as `(`, `,` and `;`. */
  datatype Token = Lexeme(kind: TokenKind, text: string) | Single(ch: char)

  predicate IsDefine(t: Token) {
    t.Lexeme? && t.kind == TString && t.text == "define"
  }

  predicate IsLiteral(t: Token) {
    t.Lexeme? && t.kind == TConstantEncapsedString
  }

  predicate AllQuotes(s: string) {
    forall k :: 0 <= k < |s| ==> s[k] == '"'
  }

  /** The characters after every leading `"`. */
  function TrimLeft(s: string): (r: string)
    ensures |r| <= |s| && r == s[|s| - |r|..]
    ensures AllQuotes(s[..|s| - |r|])
    ensures |r| == 0 || r[0] != '"'
  {
    if |s| > 0 && s[0] == '"' then
      var r := TrimLeft(s[1..]);
      var n := |s| - |r|;
      assert s[1..][n - 1..] == s[n..];
      assert forall k :: 1 <= k < n ==> s[..n][k] == s[1..][..n - 1][k - 1];
      r
    else s
  }

  /** The characters before every trailing `"`. */
  function TrimRight(s: string): (r: string)
    ensures |r| <= |s| && r == s[..|r|]
    ensures AllQuotes(s[|r|..])
    ensures |r| == 0 || r[|r| - 1] != '"'
  {
    if |s| > 0 && s[|s| - 1] == '"' then
      var init := s[..|s| - 1];
      var r := TrimRight(init);
      assert init[..|r|] == s[..|r|];
      assert s[|r|..] == init[|r|..] + ['"'];
      r
    else s
  }

  /** PHP `trim( $s, '"' )`: strips double quotes (only those) from both ends; the
      result neither starts nor ends with a quote. */
  function TrimQuotes(s: string): (r: string)
    ensures |r| <= |s|
    ensures |r| == 0 || (r[0] != '"' && r[|r| - 1] != '"')
  {
    TrimRight(TrimLeft(s))
  }

  /** What trimming removes is a run of leading and a run of trailing quotes: the
      result is the slice of `s` between them. */
  lemma {:induction false} TrimQuotesSlice(s: string)
    ensures exists i: nat, j: nat | i <= j <= |s| ::
              TrimQuotes(s) == s[i..j] && AllQuotes(s[..i]) && AllQuotes(s[j..])
  {
    var l := TrimLeft(s);
    var r := TrimRight(l);
    var i := |s| - |l|;
    assert s[i..][..|r|] == s[i..i + |r|];
    assert s[i + |r|..] == l[|r|..];
    assert r == s[i..i + |r|];
  }

  /** A text with no quote at either end is its own trim. */
  lemma {:induction false} TrimUnquoted(t: string)
    requires |t| == 0 || (t[0] != '"' && t[|t| - 1] != '"')
    ensures TrimLeft(t) == t && TrimRight(t) == t
  {
  }

  /** Trimming a literal wrapped in double quotes gives back its body. */
  lemma {:induction false} TrimDoubleQuoted(body: string)
    requires |body| == 0 || (body[0] != '"' && body[|body| - 1] != '"')
    ensures TrimQuotes("\"" + body + "\"") == body
  {
    var s := "\"" + body + "\"";
    var t := body + "\"";
    assert s[1..] == t;
    assert TrimLeft(s) == TrimLeft(t);
    if |body| == 0 {
      assert TrimLeft(t) == TrimLeft(t[1..]);
      assert t[1..] == [];
    } else {
      assert t[0] == body[0];
      assert TrimLeft(t) == t;
      assert t[..|t| - 1] == body;
      assert TrimRight(t) == TrimRight(body);
      TrimUnquoted(body);
    }
  }

  /** A single-quoted literal keeps its quotes: only `"` is trimmed. */
  lemma {:induction false} SingleQuotesKept()
    ensures TrimQuotes("'DB_PASSWORD'") == "'DB_PASSWORD'"
  {
    var s := "'DB_PASSWORD'";
    assert TrimLeft(s) == s;
    assert TrimRight(s) == s;
  }

  /** The six keys removed before the constants are shown. */
  const DbKeys: seq<string> := ["DB_NAME", "DB_USER", "DB_PASSWORD", "DB_HOST", "DB_CHARSET", "DB_COLLATE"]

  /** `unset( $m[$k] )` for each key of `ks` in turn. */
  function RemoveKeys(m: OMap<string, string>, ks: seq<string>): (r: OMap<string, string>)
    ensures forall k :: k in ks ==> Get(r, k) == None
    ensures forall k :: k !in ks ==> Get(r, k) == Get(m, k)
    ensures Wf(m) ==> Wf(r)
    decreases |ks|
  {
    if |ks| == 0 then m
    else
      RemoveKeepsWf(m, ks[0]);
      RemoveKeys(Remove(m, ks[0]), ks[1..])
  }

  // ---------------------------------------------------------------------------
  // The scanner as written.

  /** PHP `next( $tokens )`. The by-value `foreach` does not move the array's internal
      position, so `next` runs its own cursor from index 0: it advances one place (staying
      past the end once there) and yields the token it lands on, if any. */
  function Next(tokens: seq<Token>, cursor: nat): (r: (nat, Option<Token>))
    requires cursor <= |tokens|
    ensures r.0 <= |tokens|
    ensures r.0 == if cursor < |tokens| then cursor + 1 else |tokens|
    ensures r.1.Some? <==> r.0 < |tokens|
    ensures r.1.Some? ==> r.1.value == tokens[r.0]
  {
    var c := if cursor < |tokens| then cursor + 1 else |tokens|;
    (c, if c < |tokens| then Some(tokens[c]) else None)
  }

  /** Two string literals sitting next to each other at `j` and `j + 1`, read as a pair. */
  predicate LiteralPairAt(tokens: seq<Token>, j: nat, p: (string, string)) {
    0 < j && j + 1 < |tokens| && IsLiteral(tokens[j]) && IsLiteral(tokens[j + 1])
    && p == (TrimQuotes(tokens[j].text), TrimQuotes(tokens[j + 1].text))
  }

  /** `p` was read off two adjacent string literals somewhere in `tokens`. */
  predicate FromLiterals(tokens: seq<Token>, p: (string, string)) {
    exists j: nat | j < |tokens| :: LiteralPairAt(tokens, j, p)
  }

  /** The name/value pairs the loop assigns, in order, for the `foreach` at position `i`
      and the `next` cursor at `cursor`. Every pair is two adjacent literals found by the
      cursor, not by the `foreach`. */
  function DefinePairs(tokens: seq<Token>, i: nat, cursor: nat): (r: seq<(string, string)>)
    requires i <= |tokens| && cursor <= |tokens|
    ensures forall p :: p in r ==> FromLiterals(tokens, p)
    decreases |tokens| - i
  {
    if i == |tokens| then []
    else if !IsDefine(tokens[i]) then DefinePairs(tokens, i + 1, cursor)
    else
      var (c1, t1) := Next(tokens, cursor);
      if t1.None? || !IsLiteral(t1.value) then DefinePairs(tokens, i + 1, c1)
      else
        var (c2, t2) := Next(tokens, c1);
        if t2.None? || !IsLiteral(t2.value) then DefinePairs(tokens, i + 1, c2)
        else
          var p := (TrimQuotes(t1.value.text), TrimQuotes(t2.value.text));
          assert LiteralPairAt(tokens, c1, p);
          [p] + DefinePairs(tokens, i + 1, c2)
  }

  /** `get_wp_config_constants`: the pairs assigned in order into an array, then the
      database keys unset. */
  function Constants(tokens: seq<Token>): (r: OMap<string, string>)
    ensures Wf(r)
    ensures forall k :: k in DbKeys ==> k !in Keys(r)
  {
    Build(DefinePairs(tokens, 0, 0))
  }

  /** Assigns `pairs` into an empty array and drops the database keys. */
  function Build(pairs: seq<(string, string)>): (r: OMap<string, string>)
    ensures Wf(r)
    ensures forall k :: k in DbKeys ==> k !in Keys(r)
    ensures forall k :: k !in DbKeys ==> Get(r, k) == Get(PutAll([], pairs), k)
  {
    PutAllKeepsWf([], pairs);
    RemoveKeys(PutAll([], pairs), DbKeys)
  }

  /** Which constants come out, and with which value: a non-database name is present
      exactly when some pair names it, and then holds the value of the last such pair. */
  lemma {:induction false} BuildLastWins(pairs: seq<(string, string)>, k: string)
    requires k !in DbKeys
    ensures Get(Build(pairs), k) == LastValue(pairs, k)
    ensures k in Keys(Build(pairs)) <==> k in Keys(pairs)
  {
    PutAllLastWins([], pairs, k);
  }

  /** Every constant reported, name and value, is the quote-trimmed text of a string
      literal in the file. */
  lemma {:induction false} ConstantsFromLiterals(tokens: seq<Token>, k: string)
    requires k in Keys(Constants(tokens))
    ensures FromLiterals(tokens, (k, Get(Constants(tokens), k).value))
  {
    ConstantIsPair(tokens, k);
  }

  /** A reported constant is one of the pairs read, with the value of the last pair
      for its name. */
  lemma {:induction false} ConstantIsPair(tokens: seq<Token>, k: string)
    requires k in Keys(Constants(tokens))
    ensures (k, Get(Constants(tokens), k).value) in DefinePairs(tokens, 0, 0)
  {
    var pairs := DefinePairs(tokens, 0, 0);
    assert k !in DbKeys;
    BuildLastWins(pairs, k);
  }

  /** The tokens of `<?php define("NAME","VALUE");` for literal bodies `name` and `value`. */
  function OneDefine(name: string, value: string): (t: seq<Token>)
    ensures |t| == 8
  {
    [Lexeme(TOther, "<?php "), Lexeme(TString, "define"), Single('('),
     Lexeme(TConstantEncapsedString, "\"" + name + "\""), Single(','),
     Lexeme(TConstantEncapsedString, "\"" + value + "\""), Single(')'), Single(';')]
  }

  /** The cursor starts at the file's first token, not at `define`: the first `next`
      lands on `define` itself, so even the simplest definition is missed. */
  lemma {:induction false} CursorMissesDefine(name: string, value: string)
    ensures DefinePairs(OneDefine(name, value), 0, 0) == []
    ensures Constants(OneDefine(name, value)) == []
  {
    var t := OneDefine(name, value);
    assert !IsDefine(t[0]) && IsDefine(t[1]);
    assert Next(t, 0) == (1, Some(t[1]));
    assert !IsLiteral(t[1]);
    assert DefinePairs(t, 8, 1) == [];
    assert DefinePairs(t, 7, 1) == [];
    assert DefinePairs(t, 6, 1) == [];
    assert DefinePairs(t, 5, 1) == [];
    assert DefinePairs(t, 4, 1) == [];
    assert DefinePairs(t, 3, 1) == [];
    assert DefinePairs(t, 2, 1) == [];
  }

  // ---------------------------------------------------------------------------
  // The scanner as evidently intended: the two literals are read after the
  // `define` the loop stands on, past whitespace, comments, `(` and `,`.

  predicate Insignificant(t: Token) {
    (t.Lexeme? && (t.kind == TWhitespace || t.kind == TComment))
    || t == Single('(') || t == Single(',')
  }

  /** The first index at or after `j` holding a significant token, or the end. */
  function SkipFrom(tokens: seq<Token>, j: nat): (r: nat)
    requires j <= |tokens|
    ensures j <= r <= |tokens|
    ensures forall n :: j <= n < r ==> Insignificant(tokens[n])
    ensures r < |tokens| ==> !Insignificant(tokens[r])
    decreases |tokens| - j
  {
    if j == |tokens| || !Insignificant(tokens[j]) then j else SkipFrom(tokens, j + 1)
  }

  /** The pair read after a `define` at `i`, when both arguments are string literals. */
  function PairAfter(tokens: seq<Token>, i: nat): (r: Option<(string, string)>)
    requires i < |tokens|
    ensures r.Some? ==> exists j: nat, k: nat | i < j < k < |tokens| ::
              IsLiteral(tokens[j]) && IsLiteral(tokens[k])
              && r.value == (TrimQuotes(tokens[j].text), TrimQuotes(tokens[k].text))
  {
    var j := SkipFrom(tokens, i + 1);
    if j == |tokens| || !IsLiteral(tokens[j]) then None
    else
      var k := SkipFrom(tokens, j + 1);
      if k == |tokens| || !IsLiteral(tokens[k]) then None
      else Some((TrimQuotes(tokens[j].text), TrimQuotes(tokens[k].text)))
  }

  /** The pairs of every `define` from position `i` on, in file order. */
  function IntendedPairs(tokens: seq<Token>, i: nat): (r: seq<(string, string)>)
    requires i <= |tokens|
    ensures |r| <= |tokens| - i
    decreases |tokens| - i
  {
    if i == |tokens| then []
    else if IsDefine(tokens[i]) && PairAfter(tokens, i).Some? then
      [PairAfter(tokens, i).value] + IntendedPairs(tokens, i + 1)
    else IntendedPairs(tokens, i + 1)
  }

  /** The constants as the scanner evidently intends to report them. */
  function IntendedConstants(tokens: seq<Token>): (r: OMap<string, string>)
    ensures Wf(r)
    ensures forall k :: k in DbKeys ==> k !in Keys(r)
  {
    Build(IntendedPairs(tokens, 0))
  }

  /** A `define( "NAME", "VALUE" )` at `i` contributes its pair, ahead of the pairs of
      later definitions. */
  lemma {:induction false} IntendedReadsDefine(tokens: seq<Token>, i: nat)
    requires i + 4 < |tokens|
    requires IsDefine(tokens[i]) && tokens[i + 1] == Single('(') && IsLiteral(tokens[i + 2])
    requires tokens[i + 3] == Single(',') && IsLiteral(tokens[i + 4])
    ensures PairAfter(tokens, i) == Some((TrimQuotes(tokens[i + 2].text), TrimQuotes(tokens[i + 4].text)))
    ensures IntendedPairs(tokens, i) == [PairAfter(tokens, i).value] + IntendedPairs(tokens, i + 1)
  {
    assert SkipFrom(tokens, i + 3) == SkipFrom(tokens, i + 4) == i + 4;
    assert SkipFrom(tokens, i + 1) == i + 2;
  }

  lemma {:induction false} IntendedPairsOfOneDefine(name: string, value: string)
    requires |name| == 0 || (name[0] != '"' && name[|name| - 1] != '"')
    requires |value| == 0 || (value[0] != '"' && value[|value| - 1] != '"')
    ensures IntendedPairs(OneDefine(name, value), 0) == [(name, value)]
  {
    var t := OneDefine(name, value);
    IntendedReadsDefine(t, 1);
    TrimDoubleQuoted(name);
    TrimDoubleQuoted(value);
    assert PairAfter(t, 1) == Some((name, value));
    NoIntendedPairsAfter(name, value);
    assert !IsDefine(t[0]);
  }

  lemma {:induction false} NoIntendedPairsAfter(name: string, value: string)
    ensures IntendedPairs(OneDefine(name, value), 2) == []
  {
    var t := OneDefine(name, value);
    assert IntendedPairs(t, 8) == [];
    assert IntendedPairs(t, 7) == [];
    assert IntendedPairs(t, 6) == [];
    assert IntendedPairs(t, 5) == [];
    assert IntendedPairs(t, 4) == [];
    assert IntendedPairs(t, 3) == [];
  }

  /** On the same input the intended scanner reports the definition, unless it is one
      of the database keys. */
  lemma {:induction false} IntendedFindsDefine(name: string, value: string)
    requires |name| == 0 || (name[0] != '"' && name[|name| - 1] != '"')
    requires |value| == 0 || (value[0] != '"' && value[|value| - 1] != '"')
    ensures name !in DbKeys ==> IntendedConstants(OneDefine(name, value)) == [(name, value)]
    ensures name in DbKeys ==> IntendedConstants(OneDefine(name, value)) == []
  {
    IntendedPairsOfOneDefine(name, value);
    BuildSingle(name, value);
  }

  /** One assignment, then the database keys dropped. */
  lemma {:induction false} BuildSingle(name: string, value: string)
    ensures name !in DbKeys ==> Build([(name, value)]) == [(name, value)]
    ensures name in DbKeys ==> Build([(name, value)]) == []
  {
    assert PutAll([], [(name, value)]) == PutAll([(name, value)], []);
    RemoveKeysSingle(name, value, DbKeys);
  }

  lemma {:induction false} RemoveKeysSingle(name: string, value: string, ks: seq<string>)
    ensures RemoveKeys([(name, value)], ks) == if name in ks then [] else [(name, value)]
    decreases |ks|
  {
    if |ks| > 0 {
      var m := [(name, value)];
      assert Remove(m, ks[0]) == if name == ks[0] then [] else m by {
        assert m[1..] == [];
      }
      if name == ks[0] {
        RemoveKeysEmpty(ks[1..]);
      } else {
        RemoveKeysSingle(name, value, ks[1..]);
      }
    }
  }

  lemma {:induction false} RemoveKeysEmpty(ks: seq<string>)
    ensures RemoveKeys([], ks) == []
    decreases |ks|
  {
    if |ks| > 0 {
      RemoveKeysEmpty(ks[1..]);
    }
  }
}

=== FILE: escaping.dfy ===
/** The text encodings between the server-rendered admin page and the PHP payloads the
    page script writes: the server turns each newline into the two characters `\n` so a
    post's content fits in an HTML attribute, and the script escapes single quotes and
    turns each `\n` pair back into a newline before splicing a value between single
    quotes in a payload. */
module Escaping {
  import opened Text

  const Eol: string := "\n"
  const EscapedEol: string := "\\n"
  const Quote: string := "'"
  const EscapedQuote: string := "\\'"

  /** Every quote is directly preceded by a backslash. */
  ghost predicate QuotesGuarded(r: string) {
    && (|r| == 0 || r[0] != '\'')
    && forall i, j {:trigger r[i], r[j]} :: 0 <= i < j < |r| && j == i + 1 && r[j] == '\'' ==> r[i] == '\\'
  }

  /** No backslash is directly followed by `n`. */
  predicate NoEscapedEol(s: string)
    decreases |s|
  {
    |s| < 2 || (!(s[0] == '\\' && s[1] == 'n') && NoEscapedEol(s[1..]))
  }

  /** Server side: `str_replace( PHP_EOL, '\n', $s )`, with PHP_EOL a line feed.
      The result has no newline left. */
  function Encode(s: string): (r: string)
    ensures '\n' !in r
  {
    EncodeDropsNewlines(s);
    Replace(s, Eol, EscapedEol)
  }

  /** Script side: `.replace( /'/g, "\\'" )`. Every quote in the result is preceded by a
      backslash. */
  function Escape(s: string): (r: string)
    ensures QuotesGuarded(r)
  {
    EscapeGuardsQuotes(s);
    Replace(s, Quote, EscapedQuote)
  }

  /** Script side: `.replace( /\\n/g, "\n" )`. No backslash-`n` pair is left. */
  function Decode(s: string): (r: string)
    ensures NoEscapedEol(r)
  {
    DecodeLeavesNoPair(s);
    Replace(s, EscapedEol, Eol)
  }

  /** What a post-content value becomes in a payload: escaped, then decoded. */
  function Spliced(s: string): string {
    Decode(Escape(s))
  }

  lemma {:induction false} EncodeDropsNewlines(s: string)
    ensures '\n' !in Replace(s, Eol, EscapedEol)
    decreases |s|
  {
    if |s| > 0 {
      ReplaceCharStep(s, '\n', EscapedEol);
      EncodeDropsNewlines(s[1..]);
    }
  }

  lemma {:induction false} EscapeGuardsQuotes(s: string)
    ensures QuotesGuarded(Replace(s, Quote, EscapedQuote))
    decreases |s|
  {
    if |s| > 0 {
      ReplaceCharStep(s, '\'', EscapedQuote);
      EscapeGuardsQuotes(s[1..]);
      var p := if s[0] == '\'' then EscapedQuote else [s[0]];
      var t := Replace(s[1..], Quote, EscapedQuote);
      var r := p + t;
      forall i, j | 0 <= i < j < |r| && j == i + 1 && r[j] == '\''
        ensures r[i] == '\\'
      {
        if i >= |p| {
          assert r[j] == t[j - |p|];
          assert r[i] == t[i - |p|];
        }
      }
    }
  }

  lemma {:induction false} DecodeLeavesNoPair(s: string)
    ensures NoEscapedEol(Replace(s, EscapedEol, Eol))
    decreases |s|
  {
    if |s| >= 2 && StartsWith(s, EscapedEol) {
      DecodeLeavesNoPair(s[2..]);
      var t := Replace(s[2..], EscapedEol, Eol);
      assert Replace(s, EscapedEol, Eol) == Eol + t;
      assert (Eol + t)[1..] == t;
    } else if |s| > 0 {
      DecodeLeavesNoPair(s[1..]);
      var t := Replace(s[1..], EscapedEol, Eol);
      assert Replace(s, EscapedEol, Eol) == [s[0]] + t;
      assert ([s[0]] + t)[1..] == t;
      if s[0] == '\\' && |t| > 0 {
        DecodeHead(s[1..]);
      }
    }
  }

  /** The first character decoding produces is a newline or the first character read. */
  lemma {:induction false} DecodeHead(s: string)
    requires |Replace(s, EscapedEol, Eol)| > 0
    ensures |s| > 0
    ensures var r := Replace(s, EscapedEol, Eol);
      r[0] == '\n' || r[0] == s[0]
  {
  }

  lemma {:induction false} EncodeHead(s: string)
    requires |s| > 0
    ensures |Encode(s)| > 0
    ensures Encode(s)[0] == if s[0] == '\n' then '\\' else s[0]
  {
    ReplaceCharStep(s, '\n', EscapedEol);
  }

  lemma {:induction false} EscapeHead(s: string)
    requires |s| > 0
    ensures |Escape(s)| > 0
    ensures Escape(s)[0] == if s[0] == '\'' then '\\' else s[0]
  {
    ReplaceCharStep(s, '\'', EscapedQuote);
  }

  /** Escaping quotes and encoding newlines commute: they touch different characters and
      neither inserts what the other looks for. */
  lemma {:induction false} EscapeEncodeCommute(s: string)
    ensures Escape(Encode(s)) == Encode(Escape(s))
    decreases |s|
  {
    if |s| > 0 {
      ReplaceCharStep(s, '\n', EscapedEol);
      ReplaceCharStep(s, '\'', EscapedQuote);
      var pn := if s[0] == '\n' then EscapedEol else [s[0]];
      var pq := if s[0] == '\'' then EscapedQuote else [s[0]];
      ReplaceCharConcat(pn, Encode(s[1..]), '\'', EscapedQuote);
      ReplaceCharConcat(pq, Escape(s[1..]), '\n', EscapedEol);
      EscapeEncodeCommute(s[1..]);
      assert Escape(pn) == Encode(pq) by {
        ReplaceCharStep(pn, '\'', EscapedQuote);
        ReplaceCharStep(pq, '\n', EscapedEol);
        if s[0] == '\n' {
          ReplaceCharStep(pn[1..], '\'', EscapedQuote);
        } else if s[0] == '\'' {
          ReplaceCharStep(pq[1..], '\n', EscapedEol);
        }
      }
    }
  }

  /** Decoding undoes encoding for a value with no backslash-`n` pair of its own. */
  lemma {:induction false} DecodeEncode(t: string)
    requires NoEscapedEol(t)
    ensures Decode(Encode(t)) == t
    decreases |t|
  {
    if |t| > 0 {
      ReplaceCharStep(t, '\n', EscapedEol);
      var rest := Encode(t[1..]);
      DecodeEncode(t[1..]);
      if t[0] == '\n' {
        assert Encode(t) == EscapedEol + rest;
        assert StartsWith(EscapedEol + rest, EscapedEol);
        assert (EscapedEol + rest)[2..] == rest;
      } else {
        assert Encode(t) == [t[0]] + rest;
        assert !StartsWith([t[0]] + rest, EscapedEol) by {
          if t[0] == '\\' && |t| > 1 {
            EncodeHead(t[1..]);
            assert ([t[0]] + rest)[1] == rest[0];
          }
        }
        assert ([t[0]] + rest)[1..] == rest;
      }
    }
  }

  /** Escaping introduces no backslash-`n` pair: every inserted backslash precedes a quote. */
  lemma {:induction false} EscapeKeepsNoEscapedEol(s: string)
    requires NoEscapedEol(s)
    ensures NoEscapedEol(Escape(s))
    decreases |s|
  {
    if |s| > 0 {
      ReplaceCharStep(s, '\'', EscapedQuote);
      var t := Escape(s[1..]);
      EscapeKeepsNoEscapedEol(s[1..]);
      if s[0] == '\'' {
        assert Escape(s) == EscapedQuote + t;
        assert (EscapedQuote + t)[1..] == ['\''] + t;
        assert (['\''] + t)[1..] == t;
      } else {
        assert Escape(s) == [s[0]] + t;
        assert ([s[0]] + t)[1..] == t;
        if s[0] == '\\' && |t| > 0 {
          EscapeHead(s[1..]);
        }
      }
    }
  }

  /** The page-to-payload round trip: a value without a backslash-`n` pair of its own
      reaches the payload as itself with its quotes escaped, newlines included. The value
      is the one handed to the newline encoding; the attribute escaping around it is
      outside this chain. */
  lemma {:induction false} PayloadRoundTrip(s: string)
    requires NoEscapedEol(s)
    ensures Spliced(Encode(s)) == Escape(s)
  {
    EscapeEncodeCommute(s);
    EscapeKeepsNoEscapedEol(s);
    DecodeEncode(Escape(s));
  }

  /** A value that itself contains a backslash followed by `n` does not survive: the pair
      reaches the payload as a newline. */
  lemma {:induction false} LiteralBackslashNBecomesNewline()
    ensures Spliced(Encode("\\n")) == "\n"
    ensures Escape("\\n") == "\\n"
  {
    ReplaceCharStep("\\n", '\n', EscapedEol);
    ReplaceCharStep("n", '\n', EscapedEol);
    ReplaceCharStep("\\n", '\'', EscapedQuote);
    ReplaceCharStep("n", '\'', EscapedQuote);
    assert Encode("\\n") == "\\n";
    assert Escape("\\n") == "\\n";
    assert StartsWith("\\n", EscapedEol);
  }

  /** Backslashes are not escaped: a value without quotes is spliced as it is, so a
      trailing backslash escapes the payload's closing quote. */
  lemma {:induction false} EscapeLeavesBackslashes(s: string)
    requires '\'' !in s
    ensures Escape(s) == s
  {
    forall i: nat | i <= |s|
      ensures !OccursAt(s, Quote, i)
    {
      if i + 1 <= |s| {
        assert s[i..i + 1] == [s[i]];
      }
    }
    ReplaceAbsent(s, Quote, EscapedQuote);
  }
}

=== FILE: manifest.dfy ===
/** The blueprint document: a Playground recipe of ordered steps plus top-level
    metadata, as the plugin builds it in PHP and edits it in the admin page script. */
module Manifest {
  import opened Wrappers
  import opened OrderedMap

  /** Where an installable zip is fetched from. */
  datatype Locator =
    | PluginDirectory(slug: string)   // { resource: "wordpress.org/plugins", slug }
    | ThemeDirectory(slug: string)    // { resource: "wordpress.org/themes", slug }
    | Url(url: string)                // { resource: "url", url }

  /** The editor-only fields of an installPlugin step, stripped before export. */
  datatype PluginLabel = PluginLabel(name: string, slug: string, info: string)

  /** A value in a setSiteOptions map: option strings, the `true` flag and the two
      nested maps the "include the extractor" step stores. */
  datatype Value = Text(text: string) | Flag(flag: bool) | Table(entries: OMap<string, string>)

  /** One statement group of the template-part payload, in the order it runs. Every
      string field is the text spliced between single quotes in the payload. */
  datatype PartOp =
    | LoadPartContent(content: string)
    | LookupNavItem(id: nat, path: string, postType: string)
    | InsertReference(index: nat, postType: string, title: string, content: string, name: string)
    | ReplaceReferenceToken(index: nat)
    | InsertPart(title: string, name: string)

  /** The PHP payload of a runPHP step: a fixed template per kind, with these holes. */
  datatype Script =
    | PurgeContent
    | CreateGlobalStyles(title: string, name: string, content: string)
    | CreateUser(login: string, displayName: string, role: string, password: string)
    | CreatePage(postType: string, title: string, content: string, name: string)
    | CreateTemplatePart(ops: seq<PartOp>)
    | CreateTemplate(title: string, name: string, content: string)

  datatype Step =
    | InstallPlugin(pluginData: Locator, meta: Option<PluginLabel>)
    | InstallTheme(themeZipFile: Locator)
    | SetSiteOptions(options: OMap<string, Value>)
    | DefineWpConfigConsts(consts: OMap<string, string>)
    | Unzip(zipFile: Locator, extractToPath: string)
    | RunPhp(code: Script)

  datatype Blueprint = Blueprint(
    landingPage: string,
    phpVersion: string,
    wpVersion: string,
    phpExtensionBundles: seq<string>,
    networking: bool,
    login: bool,
    steps: seq<Step>)
}

=== FILE: merge.dfy ===
/** The admin page script's `updateBlueprint`: it takes the blueprint the server
    generated and the page's current selections, and produces the blueprint shown in
    the text area and the one the Playground link launches. Selections are an explicit
    record; every value the script reads from a data attribute is the server value
    before its newlines were encoded (the encoding is applied here). */
module Merge {
  import opened Wrappers
  import opened OrderedMap
  import opened Manifest
  import opened Escaping
  import Rewriter
  import Assembler

  /** A user row (the server lists every user but `admin`). */
  datatype UserBox = UserBox(checked: bool, login: string, name: string, role: string, password: string)

  /** A page row. */
  datatype PageBox = PageBox(checked: bool, postType: string, title: string, content: string, name: string)

  /** A template-part row: its title and name, and the rewritten content with the two
      side tables the server computed. */
  datatype PartBox = PartBox(checked: bool, title: string, name: string, part: Rewriter.Rewrite)

  /** A template row, and the global-styles box (same fields). */
  datatype PostBox = PostBox(checked: bool, title: string, name: string, content: string)

  datatype Selection = Selection(
    landingPage: string,
    zipUrl: string,                       // "" when the field is empty
    usePlugin: set<nat>,                  // indices of the checked `use_plugin_<i>` boxes
    ignoreTheme: bool,                    // "Use Default Theme"
    globalStyles: Option<PostBox>,        // absent when the theme has no global styles post
    optionFields: seq<(string, string)>,  // the option key/value inputs, in page order
    constantFields: seq<(string, string)>,
    users: seq<UserBox>,
    pages: seq<PageBox>,
    templateParts: seq<PartBox>,
    templates: seq<PostBox>,
    includeExtractor: bool,
    blueprintName: string,
    storedOptions: OMap<string, string>)  // the script's `additionalOptions` before the call

  /** The blueprint shown in the text area, the one the link launches, and the script's
      `additionalOptions` afterwards. */
  datatype Merged = Merged(shown: Blueprint, launched: Blueprint, additionalOptions: OMap<string, string>)

  const CorsProxy: string := "https://playground.wordpress.net/cors-proxy.php?"
  const UploadsPath: string := "/wordpress/wp-content/uploads"
  const ExtractorZip: string := "https://github-proxy.com/proxy/?repo=akirk/blueprint-extractor&branch=main"

  // ---------------------------------------------------------------------------
  // Key/value inputs.

  /** The inputs whose key is not empty, in page order. */
  function Filled(fields: seq<(string, string)>): (r: seq<(string, string)>)
    ensures forall k :: 0 <= k < |r| ==> r[k].0 != "" && r[k] in fields
    ensures forall p :: p in fields && p.0 != "" ==> p in r
  {
    if |fields| == 0 then []
    else (if fields[0].0 == "" then [] else [fields[0]]) + Filled(fields[1..])
  }

  /** `obj[key] = value` for every filled input: the constants map, and the options
      map the script rebuilds. */
  function FieldMap(fields: seq<(string, string)>): (r: OMap<string, string>)
    ensures Wf(r)
  {
    PutAllKeepsWf([], Filled(fields));
    PutAll([], Filled(fields))
  }

  function AsText(pairs: seq<(string, string)>): (r: seq<(string, Value)>)
    ensures |r| == |pairs|
    ensures forall k :: 0 <= k < |r| ==> r[k] == (pairs[k].0, Text(pairs[k].1))
  {
    if |pairs| == 0 then [] else [(pairs[0].0, Text(pairs[0].1))] + AsText(pairs[1..])
  }

  /** The setSiteOptions map with every filled option input assigned into it. */
  function MergeOptions(options: OMap<string, Value>, fields: seq<(string, string)>): OMap<string, Value> {
    PutAll(options, AsText(Filled(fields)))
  }

  // ---------------------------------------------------------------------------
  // The pass over the generated steps.

  /** The zip-import step added to the generated steps before the pass. */
  function ZipSteps(zipUrl: string): (r: seq<Step>)
    ensures |r| <= 1
  {
    if zipUrl == "" then [] else [Unzip(Url(CorsProxy + zipUrl), UploadsPath)]
  }

  function StylesStep(g: PostBox): Step {
    RunPhp(CreateGlobalStyles(Escape(g.title), Escape(g.name), Spliced(Encode(g.content))))
  }

  /** The global-styles step, when the box exists and is checked. */
  function StylesSteps(sel: Selection): (r: seq<Step>)
    ensures |r| <= 1
  {
    if sel.globalStyles.Some? && sel.globalStyles.value.checked then [StylesStep(sel.globalStyles.value)] else []
  }

  /** What the pass emits for step `i`. */
  function KeepStep(s: Step, i: nat, sel: Selection): (r: seq<Step>)
    ensures |r| <= 2
  {
    match s
    case InstallPlugin(data, _) => if i in sel.usePlugin then [InstallPlugin(data, None)] else []
    case SetSiteOptions(options) =>
      if |options| == 0 then [] else [SetSiteOptions(MergeOptions(options, sel.optionFields))]
    case InstallTheme(_) => if sel.ignoreTheme then [] else StylesSteps(sel) + [s]
    case _ => [s]
  }

  /** The pass over steps `i..`. */
  function KeepFrom(steps: seq<Step>, sel: Selection, i: nat): seq<Step>
    requires i <= |steps|
    decreases |steps| - i
  {
    if i == |steps| then [] else KeepStep(steps[i], i, sel) + KeepFrom(steps, sel, i + 1)
  }

  /** `additionalOptions` after the pass over steps `i..`: every setSiteOptions step
      rebuilds it from the option inputs. */
  function OptionsFrom(steps: seq<Step>, sel: Selection, i: nat, current: OMap<string, string>): OMap<string, string>
    requires i <= |steps|
    decreases |steps| - i
  {
    if i == |steps| then current
    else OptionsFrom(steps, sel, i + 1, if steps[i].SetSiteOptions? then FieldMap(sel.optionFields) else current)
  }

  // ---------------------------------------------------------------------------
  // The appended steps.

  function UserSteps(users: seq<UserBox>): (r: seq<Step>)
    ensures |r| <= |users|
    ensures forall k :: 0 <= k < |r| ==> r[k].RunPhp? && r[k].code.CreateUser?
  {
    if |users| == 0 then []
    else
      var u := users[0];
      (if u.checked then [RunPhp(CreateUser(u.login, Escape(u.name), u.role, Escape(u.password)))] else [])
      + UserSteps(users[1..])
  }

  /** The constants step, when at least one constant input is filled. */
  function ConstantSteps(fields: seq<(string, string)>): (r: seq<Step>)
    ensures |r| <= 1
  {
    var c := FieldMap(fields);
    if |c| == 0 then [] else [DefineWpConfigConsts(c)]
  }

  function PageSteps(pages: seq<PageBox>): (r: seq<Step>)
    ensures |r| <= |pages|
    ensures forall k :: 0 <= k < |r| ==> r[k].RunPhp? && r[k].code.CreatePage?
  {
    if |pages| == 0 then []
    else
      var p := pages[0];
      (if p.checked then [RunPhp(CreatePage(Escape(p.postType), Escape(p.title), Spliced(Encode(p.content)), Escape(p.name)))] else [])
      + PageSteps(pages[1..])
  }

  /** Ordered by key, as a script object enumerates integer keys. */
  predicate KeySorted(items: Rewriter.NavItems) {
    forall i, j :: 0 <= i < j < |items| ==> items[i].0 <= items[j].0
  }

  function InsertByKey(p: (nat, (string, string)), items: Rewriter.NavItems): (r: Rewriter.NavItems)
    requires KeySorted(items)
    ensures forall q :: q in r <==> q == p || q in items
    ensures KeySorted(r)
  {
    if |items| == 0 then [p]
    else if p.0 <= items[0].0 then [p] + items
    else
      var rest := InsertByKey(p, items[1..]);
      assert items == [items[0]] + items[1..];
      assert forall q :: q in items[1..] ==> items[0].0 <= q.0;
      [items[0]] + rest
  }

  lemma {:induction false} InsertByKeyPermutes(p: (nat, (string, string)), items: Rewriter.NavItems)
    requires KeySorted(items)
    ensures multiset(InsertByKey(p, items)) == multiset(items) + multiset{p}
  {
    if |items| > 0 && items[0].0 < p.0 {
      InsertByKeyPermutes(p, items[1..]);
      assert items == [items[0]] + items[1..];
    }
  }

  /** The navigation table in the order the script's `for … in` visits it. */
  function SortByKey(items: Rewriter.NavItems): (r: Rewriter.NavItems)
    ensures KeySorted(r)
    ensures multiset(r) == multiset(items)
  {
    if |items| == 0 then []
    else
      assert items == [items[0]] + items[1..];
      InsertByKeyPermutes(items[0], SortByKey(items[1..]));
      InsertByKey(items[0], SortByKey(items[1..]))
  }

  lemma {:induction false} SortByKeyLength(items: Rewriter.NavItems)
    ensures |SortByKey(items)| == |items|
  {
    assert |multiset(SortByKey(items))| == |multiset(items)|;
  }

  function NavOps(items: Rewriter.NavItems): (r: seq<PartOp>)
    ensures |r| == |items|
    ensures forall k :: 0 <= k < |r| ==> r[k] == LookupNavItem(items[k].0, Escape(items[k].1.0), items[k].1.1)
  {
    if |items| == 0 then []
    else [LookupNavItem(items[0].0, Escape(items[0].1.0), items[0].1.1)] + NavOps(items[1..])
  }

  /** The references, inserted in index order; each insertion is followed by the
      replacement of its `REFERENCE_<k>` token. */
  function ReferenceOps(refs: seq<Rewriter.Reference>, k: nat): (r: seq<PartOp>)
    ensures |r| == 2 * |refs|
  {
    if |refs| == 0 then []
    else [InsertOp(refs[0], k), ReplaceReferenceToken(k)] + ReferenceOps(refs[1..], k + 1)
  }

  /** The insertion of one reference under index `k`. */
  function InsertOp(ref: Rewriter.Reference, k: nat): PartOp {
    InsertReference(k, ref.postType, Escape(ref.title), Spliced(ref.content), Escape(ref.name))
  }

  function PartScript(b: PartBox): Script {
    CreateTemplatePart([LoadPartContent(Spliced(Encode(b.part.content)))]
                       + NavOps(SortByKey(b.part.navItems))
                       + ReferenceOps(b.part.references, 0)
                       + [InsertPart(Escape(b.title), Escape(b.name))])
  }

  function PartSteps(parts: seq<PartBox>): (r: seq<Step>)
    ensures |r| <= |parts|
    ensures forall k :: 0 <= k < |r| ==> r[k].RunPhp? && r[k].code.CreateTemplatePart?
  {
    if |parts| == 0 then []
    else (if parts[0].checked then [RunPhp(PartScript(parts[0]))] else []) + PartSteps(parts[1..])
  }

  function TemplateSteps(templates: seq<PostBox>): (r: seq<Step>)
    ensures |r| <= |templates|
    ensures forall k :: 0 <= k < |r| ==> r[k].RunPhp? && r[k].code.CreateTemplate?
  {
    if |templates| == 0 then []
    else
      var t := templates[0];
      (if t.checked then [RunPhp(CreateTemplate(Escape(t.title), Escape(t.name), Spliced(Encode(t.content))))] else [])
      + TemplateSteps(templates[1..])
  }

  /** Everything the selections append after the pass. */
  function Selected(sel: Selection): seq<Step> {
    UserSteps(sel.users) + ConstantSteps(sel.constantFields) + PageSteps(sel.pages)
    + PartSteps(sel.templateParts) + TemplateSteps(sel.templates)
  }

  /** The two steps that reinstall the extractor with the current selections. */
  function ExtractorSteps(sel: Selection, additional: OMap<string, string>): seq<Step> {
    [InstallPlugin(Url(ExtractorZip), None),
     SetSiteOptions([("blueprint_extractor_initial_constants", Table(FieldMap(sel.constantFields))),
                     ("blueprint_extractor_initial_options", Table(additional)),
                     ("blueprint_extractor_initial_landing_page", Text(sel.landingPage)),
                     ("blueprint_extractor_default_checked", Flag(true)),
                     ("blueprint_extractor_name", Text(sel.blueprintName))])]
  }

  /** `updateBlueprint`. */
  function UpdateBlueprint(base: Blueprint, sel: Selection): (r: Merged)
    ensures r.shown.landingPage == sel.landingPage && r.launched.landingPage == sel.landingPage
    ensures r.shown == base.(landingPage := sel.landingPage, steps := r.shown.steps)
    ensures r.launched == r.shown.(steps := r.launched.steps)
    ensures |r.launched.steps| == |r.shown.steps| + (if sel.includeExtractor then 2 else 0)
    ensures r.launched.steps[..|r.shown.steps|] == r.shown.steps
  {
    var steps := base.steps + ZipSteps(sel.zipUrl);
    var shown := base.(landingPage := sel.landingPage, steps := KeepFrom(steps, sel, 0) + Selected(sel));
    var additional := OptionsFrom(steps, sel, 0, sel.storedOptions);
    var launched := if sel.includeExtractor then shown.(steps := shown.steps + ExtractorSteps(sel, additional)) else shown;
    assert launched.steps[..|shown.steps|] == shown.steps;
    Merged(shown, launched, additional)
  }

  // ---------------------------------------------------------------------------
  // Properties.

  predicate IsPlugin(s: Step) { s.InstallPlugin? }
  predicate IsTheme(s: Step) { s.InstallTheme? }
  predicate IsSiteOptions(s: Step) { s.SetSiteOptions? }
  predicate IsConstants(s: Step) { s.DefineWpConfigConsts? }

  /** The steps of one kind, in order. */
  function Only(steps: seq<Step>, kind: Step -> bool): (r: seq<Step>)
    ensures forall k :: 0 <= k < |r| ==> kind(r[k]) && r[k] in steps
  {
    if |steps| == 0 then []
    else (if kind(steps[0]) then [steps[0]] else []) + Only(steps[1..], kind)
  }

  lemma {:induction false} OnlyConcat(a: seq<Step>, b: seq<Step>, kind: Step -> bool)
    ensures Only(a + b, kind) == Only(a, kind) + Only(b, kind)
    decreases |a|
  {
    if |a| == 0 {
      assert a + b == b;
    } else {
      assert (a + b)[1..] == a[1..] + b;
      OnlyConcat(a[1..], b, kind);
    }
  }

  /** The pass over a list with one more step at the end emits that step's output last. */
  lemma {:induction false} KeepFromSnoc(steps: seq<Step>, x: Step, sel: Selection, i: nat)
    requires i <= |steps|
    ensures KeepFrom(steps + [x], sel, i) == KeepFrom(steps, sel, i) + KeepStep(x, |steps|, sel)
    decreases |steps| - i
  {
    var longer := steps + [x];
    var last := KeepStep(x, |steps|, sel);
    if i < |steps| {
      var head := KeepStep(steps[i], i, sel);
      var rest := KeepFrom(steps, sel, i + 1);
      KeepFromSnoc(steps, x, sel, i + 1);
      assert longer[i] == steps[i];
      assert KeepFrom(longer, sel, i) == head + (rest + last);
      assert head + (rest + last) == (head + rest) + last;
    } else {
      assert longer[i] == x;
      assert KeepFrom(longer, sel, i) == last + [];
    }
  }

  /** A zip URL adds the import step after everything the generated steps keep. */
  lemma {:induction false} ZipStepLast(steps: seq<Step>, sel: Selection)
    ensures KeepFrom(steps + ZipSteps(sel.zipUrl), sel, 0) == KeepFrom(steps, sel, 0) + ZipSteps(sel.zipUrl)
  {
    if sel.zipUrl != "" {
      KeepFromSnoc(steps, Unzip(Url(CorsProxy + sel.zipUrl), UploadsPath), sel, 0);
    } else {
      assert steps + [] == steps;
    }
  }

  /** The plugins the pass keeps: the checked installPlugin steps, in order, each
      stripped of its label. */
  function CheckedPlugins(steps: seq<Step>, sel: Selection, i: nat): seq<Step>
    requires i <= |steps|
    decreases |steps| - i
  {
    if i == |steps| then []
    else (if steps[i].InstallPlugin? && i in sel.usePlugin then [InstallPlugin(steps[i].pluginData, None)] else [])
         + CheckedPlugins(steps, sel, i + 1)
  }

  lemma {:induction false} OnlyNoneAll(steps: seq<Step>, kind: Step -> bool)
    requires forall k :: 0 <= k < |steps| ==> !kind(steps[k])
    ensures Only(steps, kind) == []
    decreases |steps|
  {
    if |steps| > 0 {
      OnlyNoneAll(steps[1..], kind);
    }
  }

  /** Only runPHP steps and the constants step. */
  predicate Appendable(steps: seq<Step>) {
    forall k :: 0 <= k < |steps| ==> steps[k].RunPhp? || steps[k].DefineWpConfigConsts?
  }

  lemma {:induction false} AppendableConcat(a: seq<Step>, b: seq<Step>)
    requires Appendable(a) && Appendable(b)
    ensures Appendable(a + b)
  {
    forall k | 0 <= k < |a + b| ensures (a + b)[k].RunPhp? || (a + b)[k].DefineWpConfigConsts? {
      if k >= |a| { assert (a + b)[k] == b[k - |a|]; }
    }
  }

  /** The appended steps are all runPHP steps except the constants step. */
  lemma {:induction false} SelectedKinds(sel: Selection)
    ensures Appendable(Selected(sel))
  {
    var u := UserSteps(sel.users);
    var c := ConstantSteps(sel.constantFields);
    var p := PageSteps(sel.pages);
    var t := PartSteps(sel.templateParts);
    var m := TemplateSteps(sel.templates);
    AppendableConcat(u, c);
    AppendableConcat(u + c, p);
    AppendableConcat(u + c + p, t);
    AppendableConcat(u + c + p + t, m);
  }

  lemma {:induction false} PluginBlock(s: Step, i: nat, sel: Selection)
    ensures Only(KeepStep(s, i, sel), IsPlugin)
            == if s.InstallPlugin? && i in sel.usePlugin then [InstallPlugin(s.pluginData, None)] else []
  {
    if !s.InstallPlugin? {
      OnlyNoneAll(KeepStep(s, i, sel), IsPlugin);
    }
  }

  lemma {:induction false} KeptPlugins(steps: seq<Step>, sel: Selection, i: nat)
    requires i <= |steps|
    ensures Only(KeepFrom(steps, sel, i), IsPlugin) == CheckedPlugins(steps, sel, i)
    decreases |steps| - i
  {
    if i < |steps| {
      var block := KeepStep(steps[i], i, sel);
      var rest := KeepFrom(steps, sel, i + 1);
      assert KeepFrom(steps, sel, i) == block + rest;
      assert Only(rest, IsPlugin) == CheckedPlugins(steps, sel, i + 1) by {
        KeptPlugins(steps, sel, i + 1);
      }
      PluginBlock(steps[i], i, sel);
      OnlyConcat(block, rest, IsPlugin);
    }
  }

  /** Plugin selection: the shown blueprint installs exactly the checked plugins of the
      generated steps, in their order, without the name, slug and info labels; unchecked
      plugins are gone. */
  lemma {:induction false} PluginSelection(base: Blueprint, sel: Selection)
    ensures Only(UpdateBlueprint(base, sel).shown.steps, IsPlugin) == CheckedPlugins(base.steps, sel, 0)
  {
    var checked := CheckedPlugins(base.steps, sel, 0);
    assert Only(ZipSteps(sel.zipUrl), IsPlugin) == [] by {
      OnlyNoneAll(ZipSteps(sel.zipUrl), IsPlugin);
    }
    assert Only(Selected(sel), IsPlugin) == [] by {
      SelectedKinds(sel);
      OnlyNoneAll(Selected(sel), IsPlugin);
    }
    KeptPlugins(base.steps, sel, 0);
    ShownOnly(base, sel, IsPlugin);
    assert checked + [] == checked;
  }

  /** The shown steps are the kept generated steps, then the zip import (when a URL is
      given), then the appended steps. */
  lemma {:induction false} ShownSteps(base: Blueprint, sel: Selection)
    ensures UpdateBlueprint(base, sel).shown.steps
            == KeepFrom(base.steps, sel, 0) + ZipSteps(sel.zipUrl) + Selected(sel)
  {
    ZipStepLast(base.steps, sel);
  }

  /** The shown steps of a kind the zip import is not: those the pass keeps, then
      those appended. */
  lemma {:induction false} ShownOnly(base: Blueprint, sel: Selection, kind: Step -> bool)
    requires Only(ZipSteps(sel.zipUrl), kind) == []
    ensures Only(UpdateBlueprint(base, sel).shown.steps, kind)
            == Only(KeepFrom(base.steps, sel, 0), kind) + Only(Selected(sel), kind)
  {
    var kept := KeepFrom(base.steps, sel, 0);
    var zip := ZipSteps(sel.zipUrl);
    ShownSteps(base, sel);
    OnlyConcat(kept, zip, kind);
    OnlyConcat(kept + zip, Selected(sel), kind);
    assert Only(kept, kind) + [] == Only(kept, kind);
  }

  /** Steps of one kind that the pass copies unchanged, read from step `i` on. */
  function OnlyFrom(steps: seq<Step>, kind: Step -> bool, i: nat): seq<Step>
    requires i <= |steps|
    decreases |steps| - i
  {
    if i == |steps| then [] else (if kind(steps[i]) then [steps[i]] else []) + OnlyFrom(steps, kind, i + 1)
  }

  lemma {:induction false} OnlyFromAll(steps: seq<Step>, kind: Step -> bool)
    ensures OnlyFrom(steps, kind, 0) == Only(steps, kind)
  {
    OnlyFromSuffix(steps, kind, 0);
    assert steps[0..] == steps;
  }

  lemma {:induction false} OnlyFromSuffix(steps: seq<Step>, kind: Step -> bool, i: nat)
    requires i <= |steps|
    ensures OnlyFrom(steps, kind, i) == Only(steps[i..], kind)
    decreases |steps| - i
  {
    if i < |steps| {
      OnlyFromSuffix(steps, kind, i + 1);
      assert steps[i..][1..] == steps[i + 1..];
    }
  }

  lemma {:induction false} ThemeBlock(s: Step, i: nat, sel: Selection)
    ensures Only(KeepStep(s, i, sel), IsTheme) == if sel.ignoreTheme || !s.InstallTheme? then [] else [s]
  {
    var block := KeepStep(s, i, sel);
    if s.InstallTheme? && !sel.ignoreTheme {
      var styles := StylesSteps(sel);
      assert block == styles + [s];
      OnlyConcat(styles, [s], IsTheme);
      OnlyNoneAll(styles, IsTheme);
      assert Only([s], IsTheme) == [s];
    } else {
      OnlyNoneAll(block, IsTheme);
    }
  }

  lemma {:induction false} KeptThemes(steps: seq<Step>, sel: Selection, i: nat)
    requires i <= |steps|
    ensures Only(KeepFrom(steps, sel, i), IsTheme) == if sel.ignoreTheme then [] else OnlyFrom(steps, IsTheme, i)
    decreases |steps| - i
  {
    if i < |steps| {
      var block := KeepStep(steps[i], i, sel);
      var rest := KeepFrom(steps, sel, i + 1);
      assert KeepFrom(steps, sel, i) == block + rest;
      assert Only(rest, IsTheme) == if sel.ignoreTheme then [] else OnlyFrom(steps, IsTheme, i + 1) by {
        KeptThemes(steps, sel, i + 1);
      }
      ThemeBlock(steps[i], i, sel);
      OnlyConcat(block, rest, IsTheme);
    }
  }

  /** Theme choice: "Use Default Theme" drops every installTheme step; otherwise they are
      all kept as generated. */
  lemma {:induction false} ThemeSelection(base: Blueprint, sel: Selection)
    ensures Only(UpdateBlueprint(base, sel).shown.steps, IsTheme)
            == if sel.ignoreTheme then [] else Only(base.steps, IsTheme)
  {
    var themes := if sel.ignoreTheme then [] else Only(base.steps, IsTheme);
    assert Only(ZipSteps(sel.zipUrl), IsTheme) == [] by {
      OnlyNoneAll(ZipSteps(sel.zipUrl), IsTheme);
    }
    assert Only(Selected(sel), IsTheme) == [] by {
      SelectedKinds(sel);
      OnlyNoneAll(Selected(sel), IsTheme);
    }
    assert Only(KeepFrom(base.steps, sel, 0), IsTheme) == themes by {
      KeptThemes(base.steps, sel, 0);
      OnlyFromAll(base.steps, IsTheme);
    }
    ShownOnly(base, sel, IsTheme);
    assert themes + [] == themes;
  }

  /** Every installTheme step comes right after the step `x`. */
  predicate ThemesAfter(steps: seq<Step>, x: Step) {
    forall k :: 0 <= k < |steps| && steps[k].InstallTheme? ==> 0 < k && steps[k - 1] == x
  }

  lemma {:induction false} ThemesAfterConcat(a: seq<Step>, b: seq<Step>, x: Step)
    requires ThemesAfter(a, x) && ThemesAfter(b, x)
    ensures ThemesAfter(a + b, x)
  {
    forall k | 0 <= k < |a + b| && (a + b)[k].InstallTheme?
      ensures 0 < k && (a + b)[k - 1] == x
    {
      if k >= |a| {
        assert (a + b)[k] == b[k - |a|];
        assert (a + b)[k - 1] == b[k - |a| - 1];
      }
    }
  }

  lemma {:induction false} KeptThemesAfterStyles(steps: seq<Step>, sel: Selection, i: nat)
    requires i <= |steps|
    requires sel.globalStyles.Some? && sel.globalStyles.value.checked
    ensures ThemesAfter(KeepFrom(steps, sel, i), StylesStep(sel.globalStyles.value))
    decreases |steps| - i
  {
    if i < |steps| {
      KeptThemesAfterStyles(steps, sel, i + 1);
      ThemesAfterConcat(KeepStep(steps[i], i, sel), KeepFrom(steps, sel, i + 1), StylesStep(sel.globalStyles.value));
    }
  }

  /** Global styles: when the box is checked, every kept installTheme step is directly
      preceded by the step that recreates the global-styles post. */
  lemma {:induction false} StylesBeforeTheme(base: Blueprint, sel: Selection)
    requires sel.globalStyles.Some? && sel.globalStyles.value.checked
    ensures ThemesAfter(UpdateBlueprint(base, sel).shown.steps, StylesStep(sel.globalStyles.value))
  {
    var x := StylesStep(sel.globalStyles.value);
    var zip := ZipSteps(sel.zipUrl);
    var kept := KeepFrom(base.steps, sel, 0);
    var extra := Selected(sel);
    ShownSteps(base, sel);
    KeptThemesAfterStyles(base.steps, sel, 0);
    SelectedKinds(sel);
    ThemesAfterConcat(kept, zip, x);
    ThemesAfterConcat(kept + zip, extra, x);
  }

  /** The setSiteOptions steps the pass keeps: those whose generated map is not empty,
      each with the option inputs assigned into it. */
  function CheckedOptions(steps: seq<Step>, sel: Selection, i: nat): seq<Step>
    requires i <= |steps|
    decreases |steps| - i
  {
    if i == |steps| then []
    else (if steps[i].SetSiteOptions? && |steps[i].options| > 0
          then [SetSiteOptions(MergeOptions(steps[i].options, sel.optionFields))] else [])
         + CheckedOptions(steps, sel, i + 1)
  }

  lemma {:induction false} OptionsBlock(s: Step, i: nat, sel: Selection)
    ensures Only(KeepStep(s, i, sel), IsSiteOptions)
            == if s.SetSiteOptions? && |s.options| > 0 then [SetSiteOptions(MergeOptions(s.options, sel.optionFields))] else []
  {
    var block := KeepStep(s, i, sel);
    if s.InstallTheme? && !sel.ignoreTheme {
      var styles := StylesSteps(sel);
      assert block == styles + [s];
      OnlyConcat(styles, [s], IsSiteOptions);
      OnlyNoneAll(styles, IsSiteOptions);
      assert Only([s], IsSiteOptions) == [];
    } else if !s.SetSiteOptions? {
      OnlyNoneAll(block, IsSiteOptions);
    }
  }

  lemma {:induction false} KeptOptions(steps: seq<Step>, sel: Selection, i: nat)
    requires i <= |steps|
    ensures Only(KeepFrom(steps, sel, i), IsSiteOptions) == CheckedOptions(steps, sel, i)
    decreases |steps| - i
  {
    if i < |steps| {
      var block := KeepStep(steps[i], i, sel);
      var rest := KeepFrom(steps, sel, i + 1);
      assert KeepFrom(steps, sel, i) == block + rest;
      assert Only(rest, IsSiteOptions) == CheckedOptions(steps, sel, i + 1) by {
        KeptOptions(steps, sel, i + 1);
      }
      OptionsBlock(steps[i], i, sel);
      OnlyConcat(block, rest, IsSiteOptions);
    }
  }

  /** Site options: a generated setSiteOptions step survives exactly when its own map is
      not empty, and then carries the option inputs assigned into it. A step generated
      with an empty map is dropped even when option inputs are filled. */
  lemma {:induction false} OptionsSelection(base: Blueprint, sel: Selection)
    ensures Only(UpdateBlueprint(base, sel).shown.steps, IsSiteOptions) == CheckedOptions(base.steps, sel, 0)
  {
    var checked := CheckedOptions(base.steps, sel, 0);
    assert Only(ZipSteps(sel.zipUrl), IsSiteOptions) == [] by {
      OnlyNoneAll(ZipSteps(sel.zipUrl), IsSiteOptions);
    }
    assert Only(Selected(sel), IsSiteOptions) == [] by {
      SelectedKinds(sel);
      OnlyNoneAll(Selected(sel), IsSiteOptions);
    }
    KeptOptions(base.steps, sel, 0);
    ShownOnly(base, sel, IsSiteOptions);
    assert checked + [] == checked;
  }

  /** Relabelling the values as text keeps the keys and relabels the last value. */
  lemma {:induction false} AsTextLast(pairs: seq<(string, string)>, k: string)
    ensures Keys(AsText(pairs)) == Keys(pairs)
    ensures LastValue(AsText(pairs), k) == match LastValue(pairs, k)
      case None => None
      case Some(v) => Some(Text(v))
  {
    if |pairs| > 0 {
      AsTextLast(pairs[1..], k);
    }
  }

  /** The merged options: the generated keys and the filled input keys; a key that some
      filled input names holds the text of the LAST such input, any other key keeps its
      generated value. */
  lemma {:induction false} MergeOptionsSpec(options: OMap<string, Value>, fields: seq<(string, string)>, k: string)
    ensures var f := Filled(fields);
      var m := MergeOptions(options, fields);
      && (k in Keys(m) <==> k in Keys(options) || k in Keys(f))
      && (k in Keys(f) ==> Get(m, k) == Some(Text(LastValue(f, k).value)))
      && (k !in Keys(f) ==> Get(m, k) == Get(options, k))
  {
    var f := Filled(fields);
    AsTextLast(f, k);
    PutAllLastWins(options, AsText(f), k);
    PutAllKeys(options, AsText(f), k);
  }

  /** The constants (and rebuilt options) map: exactly the filled input keys, each with
      the value of its last input. */
  lemma {:induction false} FieldMapSpec(fields: seq<(string, string)>, k: string)
    ensures k in Keys(FieldMap(fields)) <==> k in Keys(Filled(fields))
    ensures Get(FieldMap(fields), k) == LastValue(Filled(fields), k)
  {
    PutAllLastWins([], Filled(fields), k);
  }

  /** The constants step is added exactly when some constant input has a key. */
  lemma {:induction false} ConstantsStepIff(fields: seq<(string, string)>)
    ensures |ConstantSteps(fields)| == 1 <==> exists p :: p in fields && p.0 != ""
    ensures |ConstantSteps(fields)| == 1 ==> ConstantSteps(fields)[0] == DefineWpConfigConsts(FieldMap(fields))
  {
    var f := Filled(fields);
    if exists p :: p in fields && p.0 != "" {
      var p :| p in fields && p.0 != "";
      assert p in f;
      KeysOf(f);
      assert p.0 in Keys(f);
      FieldMapSpec(fields, p.0);
    }
  }

  lemma {:induction false} ConstantsBlock(s: Step, i: nat, sel: Selection)
    ensures Only(KeepStep(s, i, sel), IsConstants) == if s.DefineWpConfigConsts? then [s] else []
  {
    var block := KeepStep(s, i, sel);
    if s.InstallTheme? && !sel.ignoreTheme {
      var styles := StylesSteps(sel);
      assert block == styles + [s];
      OnlyConcat(styles, [s], IsConstants);
      OnlyNoneAll(styles, IsConstants);
      assert Only([s], IsConstants) == [];
    } else if !s.DefineWpConfigConsts? {
      OnlyNoneAll(block, IsConstants);
    }
  }

  lemma {:induction false} KeptConstants(steps: seq<Step>, sel: Selection, i: nat)
    requires i <= |steps|
    ensures Only(KeepFrom(steps, sel, i), IsConstants) == OnlyFrom(steps, IsConstants, i)
    decreases |steps| - i
  {
    if i < |steps| {
      var block := KeepStep(steps[i], i, sel);
      var rest := KeepFrom(steps, sel, i + 1);
      assert KeepFrom(steps, sel, i) == block + rest;
      assert Only(rest, IsConstants) == OnlyFrom(steps, IsConstants, i + 1) by {
        KeptConstants(steps, sel, i + 1);
      }
      ConstantsBlock(steps[i], i, sel);
      OnlyConcat(block, rest, IsConstants);
    }
  }

  lemma {:induction false} NoConstantsIn(steps: seq<Step>)
    requires forall k :: 0 <= k < |steps| ==> steps[k].RunPhp?
    ensures Only(steps, IsConstants) == []
  {
    OnlyNoneAll(steps, IsConstants);
  }

  lemma {:induction false} SelectedConstants(sel: Selection)
    ensures Only(Selected(sel), IsConstants) == ConstantSteps(sel.constantFields)
  {
    var u := UserSteps(sel.users);
    var c := ConstantSteps(sel.constantFields);
    var p := PageSteps(sel.pages);
    var t := PartSteps(sel.templateParts);
    var m := TemplateSteps(sel.templates);
    NoConstantsIn(u);
    NoConstantsIn(p);
    NoConstantsIn(t);
    NoConstantsIn(m);
    assert Only(c, IsConstants) == c;
    OnlyConcat(u, c, IsConstants);
    OnlyConcat(u + c, p, IsConstants);
    OnlyConcat(u + c + p, t, IsConstants);
    OnlyConcat(u + c + p + t, m, IsConstants);
    assert [] + c + [] + [] + [] == c;
  }

  /** Constants: the generated constants steps are kept, and one more carrying the
      constant inputs is appended when any input has a key. */
  lemma {:induction false} ConstantsSelection(base: Blueprint, sel: Selection)
    ensures Only(UpdateBlueprint(base, sel).shown.steps, IsConstants)
            == Only(base.steps, IsConstants) + ConstantSteps(sel.constantFields)
  {
    assert Only(ZipSteps(sel.zipUrl), IsConstants) == [] by {
      OnlyNoneAll(ZipSteps(sel.zipUrl), IsConstants);
    }
    assert Only(KeepFrom(base.steps, sel, 0), IsConstants) == Only(base.steps, IsConstants) by {
      KeptConstants(base.steps, sel, 0);
      OnlyFromAll(base.steps, IsConstants);
    }
    SelectedConstants(sel);
    ShownOnly(base, sel, IsConstants);
  }

  /** The position of an appended step in the order the script appends them. */
  function Phase(s: Step): (p: nat)
    ensures p <= 5
  {
    match s
    case RunPhp(CreateUser(_, _, _, _)) => 1
    case DefineWpConfigConsts(_) => 2
    case RunPhp(CreatePage(_, _, _, _)) => 3
    case RunPhp(CreateTemplatePart(_)) => 4
    case RunPhp(CreateTemplate(_, _, _)) => 5
    case _ => 0
  }

  predicate PhaseSorted(steps: seq<Step>) {
    forall i, j :: 0 <= i < j < |steps| ==> Phase(steps[i]) <= Phase(steps[j])
  }

  predicate AtMost(steps: seq<Step>, p: nat) {
    forall k :: 0 <= k < |steps| ==> Phase(steps[k]) <= p
  }

  predicate AllPhase(steps: seq<Step>, p: nat) {
    forall k :: 0 <= k < |steps| ==> Phase(steps[k]) == p
  }

  /** Every step has a phase of an appended step. */
  predicate AllAppended(steps: seq<Step>) {
    forall k :: 0 <= k < |steps| ==> 1 <= Phase(steps[k])
  }

  lemma {:induction false} PhaseSortedSnoc(a: seq<Step>, b: seq<Step>, p: nat)
    requires PhaseSorted(a) && AtMost(a, p) && AllPhase(b, p)
    requires 1 <= p && AllAppended(a)
    ensures PhaseSorted(a + b) && AtMost(a + b, p) && AllAppended(a + b)
  {
    forall i, j | 0 <= i < j < |a + b| ensures Phase((a + b)[i]) <= Phase((a + b)[j]) {
      if j >= |a| {
        assert (a + b)[j] == b[j - |a|];
        if i >= |a| { assert (a + b)[i] == b[i - |a|]; }
      }
    }
    forall k | 0 <= k < |a + b| ensures 1 <= Phase((a + b)[k]) <= p {
      if k >= |a| { assert (a + b)[k] == b[k - |a|]; }
    }
  }

  lemma {:induction false} UsersPhase(steps: seq<Step>)
    requires forall k :: 0 <= k < |steps| ==> steps[k].RunPhp? && steps[k].code.CreateUser?
    ensures AllPhase(steps, 1)
  {
  }

  lemma {:induction false} PagesPhase(steps: seq<Step>)
    requires forall k :: 0 <= k < |steps| ==> steps[k].RunPhp? && steps[k].code.CreatePage?
    ensures AllPhase(steps, 3)
  {
  }

  lemma {:induction false} PartsPhase(steps: seq<Step>)
    requires forall k :: 0 <= k < |steps| ==> steps[k].RunPhp? && steps[k].code.CreateTemplatePart?
    ensures AllPhase(steps, 4)
  {
  }

  lemma {:induction false} TemplatesPhase(steps: seq<Step>)
    requires forall k :: 0 <= k < |steps| ==> steps[k].RunPhp? && steps[k].code.CreateTemplate?
    ensures AllPhase(steps, 5)
  {
  }

  /** The appended steps follow the script's order: users, then constants, then pages,
      then template parts, then templates. */
  lemma {:induction false} SelectedInPhaseOrder(sel: Selection)
    ensures PhaseSorted(Selected(sel)) && AllAppended(Selected(sel))
  {
    var u := UserSteps(sel.users);
    var c := ConstantSteps(sel.constantFields);
    var p := PageSteps(sel.pages);
    var t := PartSteps(sel.templateParts);
    var m := TemplateSteps(sel.templates);
    assert PhaseSorted(u) && AtMost(u, 1) && AllAppended(u) by {
      UsersPhase(u);
      PhaseSortedSnoc([], u, 1);
      assert [] + u == u;
    }
    assert PhaseSorted(u + c) && AtMost(u + c, 2) && AllAppended(u + c) by {
      assert AllPhase(c, 2);
      PhaseSortedSnoc(u, c, 2);
    }
    assert PhaseSorted(u + c + p) && AtMost(u + c + p, 3) && AllAppended(u + c + p) by {
      PagesPhase(p);
      PhaseSortedSnoc(u + c, p, 3);
    }
    assert PhaseSorted(u + c + p + t) && AtMost(u + c + p + t, 4) && AllAppended(u + c + p + t) by {
      PartsPhase(t);
      PhaseSortedSnoc(u + c + p, t, 4);
    }
    TemplatesPhase(m);
    PhaseSortedSnoc(u + c + p + t, m, 5);
  }

  predicate HasSiteOptions(steps: seq<Step>, i: nat) {
    exists j :: i <= j < |steps| && steps[j].SetSiteOptions?
  }

  lemma {:induction false} OptionsFromSpec(steps: seq<Step>, sel: Selection, i: nat, current: OMap<string, string>)
    requires i <= |steps|
    ensures OptionsFrom(steps, sel, i, current)
            == if HasSiteOptions(steps, i) then FieldMap(sel.optionFields) else current
    decreases |steps| - i
  {
    if i < |steps| {
      var next := if steps[i].SetSiteOptions? then FieldMap(sel.optionFields) else current;
      OptionsFromSpec(steps, sel, i + 1, next);
      if HasSiteOptions(steps, i + 1) {
        var j :| i + 1 <= j < |steps| && steps[j].SetSiteOptions?;
        assert HasSiteOptions(steps, i);
      } else if HasSiteOptions(steps, i) {
        var j :| i <= j < |steps| && steps[j].SetSiteOptions?;
        assert j == i;
      }
    }
  }

  /** The extractor steps: when the box is checked, the launched blueprint is the shown
      one plus an unlabelled install of the extractor and a setSiteOptions step carrying
      the constants, the rebuilt options, the landing page, the default-checked flag and
      the name; the options are those rebuilt from the inputs when the generated steps
      have a setSiteOptions step, and the script's previous ones otherwise. Unchecked,
      both blueprints are the same. */
  lemma {:induction false} ExtractorSelection(base: Blueprint, sel: Selection)
    ensures var r := UpdateBlueprint(base, sel);
      && r.additionalOptions == (if HasSiteOptions(base.steps, 0) then FieldMap(sel.optionFields) else sel.storedOptions)
      && (sel.includeExtractor ==> r.launched.steps == r.shown.steps + ExtractorSteps(sel, r.additionalOptions))
      && (!sel.includeExtractor ==> r.launched == r.shown)
  {
    var steps := base.steps + ZipSteps(sel.zipUrl);
    var r := UpdateBlueprint(base, sel);
    assert r.additionalOptions == OptionsFrom(steps, sel, 0, sel.storedOptions);
    OptionsFromSpec(steps, sel, 0, sel.storedOptions);
    assert HasSiteOptions(steps, 0) == HasSiteOptions(base.steps, 0) by {
      if HasSiteOptions(steps, 0) {
        var j :| 0 <= j < |steps| && steps[j].SetSiteOptions?;
        assert j < |base.steps| && base.steps[j] == steps[j];
      }
      if HasSiteOptions(base.steps, 0) {
        var j :| 0 <= j < |base.steps| && base.steps[j].SetSiteOptions?;
        assert steps[j] == base.steps[j];
      }
    }
  }

  /** The `j`-th reference is inserted under index `k + j`, and its token replaced right
      after. */
  lemma {:induction false} ReferenceOpsAt(refs: seq<Rewriter.Reference>, k: nat, j: nat)
    requires j < |refs|
    ensures var ops := ReferenceOps(refs, k);
      ops[2 * j] == InsertOp(refs[j], k + j) && ops[2 * j + 1] == ReplaceReferenceToken(k + j)
    decreases j
  {
    var tail := ReferenceOps(refs[1..], k + 1);
    assert ReferenceOps(refs, k) == [InsertOp(refs[0], k), ReplaceReferenceToken(k)] + tail;
    if j > 0 {
      ReferenceOpsAt(refs[1..], k + 1, j - 1);
      assert refs[1..][j - 1] == refs[j];
      AfterPair(InsertOp(refs[0], k), ReplaceReferenceToken(k), tail, 2 * (j - 1));
      AfterPair(InsertOp(refs[0], k), ReplaceReferenceToken(k), tail, 2 * (j - 1) + 1);
    }
  }

  lemma {:induction false} AfterPair<T>(a: T, b: T, tail: seq<T>, i: nat)
    requires i < |tail|
    ensures ([a, b] + tail)[i + 2] == tail[i]
  {
  }

  /** The navigation lookups visit the table in ascending id order and cover every entry. */
  lemma {:induction false} NavOpsSorted(items: Rewriter.NavItems)
    ensures var ops := NavOps(SortByKey(items));
      && |ops| == |items|
      && (forall i :: 0 <= i < |ops| ==> ops[i].LookupNavItem?)
      && (forall i, j :: 0 <= i < j < |ops| ==> ops[i].id <= ops[j].id)
      && (forall p :: p in items ==> LookupNavItem(p.0, Escape(p.1.0), p.1.1) in ops)
  {
    var sorted := SortByKey(items);
    var ops := NavOps(sorted);
    SortByKeyLength(items);
    forall p | p in items ensures LookupNavItem(p.0, Escape(p.1.0), p.1.1) in ops {
      assert p in multiset(items);
      assert p in sorted;
      var i :| 0 <= i < |sorted| && sorted[i] == p;
      assert ops[i] == LookupNavItem(p.0, Escape(p.1.0), p.1.1);
    }
  }

  lemma {:induction false} Layout(first: PartOp, nav: seq<PartOp>, rs: seq<PartOp>, last: PartOp)
    ensures var ops := [first] + nav + rs + [last];
      && |ops| == 2 + |nav| + |rs|
      && ops[0] == first && ops[|ops| - 1] == last
      && ops[1..|nav| + 1] == nav
      && (forall i :: 1 <= i <= |nav| ==> ops[i] == nav[i - 1])
      && (forall i :: 0 <= i < |rs| ==> ops[1 + |nav| + i] == rs[i])
  {
    var ops := [first] + nav + rs + [last];
    forall i | 1 <= i <= |nav| ensures ops[i] == nav[i - 1] {
      assert ops[1..|nav| + 1][i - 1] == ops[i];
    }
  }

  /** The template-part payload, first half: load the part's content, then look up each
      navigation target in ascending id order, every table entry included; the part
      itself is inserted last. */
  lemma {:induction false} PartPayloadOrder(b: PartBox)
    ensures var ops := PartScript(b).ops;
      var n := |b.part.navItems|;
      && |ops| == 2 + n + 2 * |b.part.references|
      && ops[0] == LoadPartContent(Spliced(Encode(b.part.content)))
      && ops[|ops| - 1] == InsertPart(Escape(b.title), Escape(b.name))
      && (forall i :: 1 <= i <= n ==> ops[i].LookupNavItem?)
      && (forall i, j :: 1 <= i < j <= n ==> ops[i].id <= ops[j].id)
      && (forall p :: p in b.part.navItems ==> LookupNavItem(p.0, Escape(p.1.0), p.1.1) in ops[1..n + 1])
  {
    var n := |b.part.navItems|;
    var first := LoadPartContent(Spliced(Encode(b.part.content)));
    var nav := NavOps(SortByKey(b.part.navItems));
    var rs := ReferenceOps(b.part.references, 0);
    var last := InsertPart(Escape(b.title), Escape(b.name));
    var ops := [first] + nav + rs + [last];
    assert PartScript(b).ops == ops;
    NavOpsSorted(b.part.navItems);
    Layout(first, nav, rs, last);
    NavBlock(ops, nav);
    assert forall p :: p in b.part.navItems ==> LookupNavItem(p.0, Escape(p.1.0), p.1.1) in ops[1..n + 1];
  }

  /** The lookups placed right after the first operation keep their kind and order. */
  lemma {:induction false} NavBlock(ops: seq<PartOp>, nav: seq<PartOp>)
    requires |nav| < |ops| && forall i :: 1 <= i <= |nav| ==> ops[i] == nav[i - 1]
    requires forall i :: 0 <= i < |nav| ==> nav[i].LookupNavItem?
    requires forall i, j :: 0 <= i < j < |nav| ==> nav[i].id <= nav[j].id
    ensures forall i :: 1 <= i <= |nav| ==> ops[i].LookupNavItem?
    ensures forall i, j :: 1 <= i < j <= |nav| ==> ops[i].id <= ops[j].id
  {
    forall i, j | 1 <= i < j <= |nav|
      ensures ops[i].id <= ops[j].id
    {
      assert ops[i] == nav[i - 1] && ops[j] == nav[j - 1];
    }
  }

  lemma {:induction false} ReferenceAt(ops: seq<PartOp>, n: nat, first: PartOp, nav: seq<PartOp>, refs: seq<Rewriter.Reference>, last: PartOp, j: nat)
    requires ops == [first] + nav + ReferenceOps(refs, 0) + [last]
    requires n == |nav| && j < |refs|
    ensures 2 + n + 2 * j < |ops|
    ensures ops[1 + n + 2 * j] == InsertOp(refs[j], j)
    ensures ops[2 + n + 2 * j] == ReplaceReferenceToken(j)
  {
    var rs := ReferenceOps(refs, 0);
    ReferenceOpsAt(refs, 0, j);
    MiddleAt([first] + nav, rs, [last], 2 * j);
    MiddleAt([first] + nav, rs, [last], 2 * j + 1);
  }

  lemma {:induction false} MiddleAt<T>(a: seq<T>, b: seq<T>, c: seq<T>, i: nat)
    requires i < |b|
    ensures |a| + i < |a + b + c| && (a + b + c)[|a| + i] == b[i]
  {
  }

  /** The template-part payload, second half: after the lookups, each reference is
      inserted under its index and its `REFERENCE_<k>` token replaced right after. */
  lemma {:induction false} PartReferenceOrder(b: PartBox, j: nat)
    requires j < |b.part.references|
    ensures var ops := PartScript(b).ops;
      var n := |b.part.navItems|;
      var ref := b.part.references[j];
      && 2 + n + 2 * j < |ops|
      && ops[1 + n + 2 * j] == InsertReference(j, ref.postType, Escape(ref.title), Spliced(ref.content), Escape(ref.name))
      && ops[2 + n + 2 * j] == ReplaceReferenceToken(j)
  {
    var nav := NavOps(SortByKey(b.part.navItems));
    assert |nav| == |b.part.navItems| by {
      SortByKeyLength(b.part.navItems);
    }
    ReferenceAt(PartScript(b).ops, |b.part.navItems|, LoadPartContent(Spliced(Encode(b.part.content))), nav,
                b.part.references, InsertPart(Escape(b.title), Escape(b.name)), j);
  }

  /** A checked page whose content, as its attribute delivers it, has no backslash-`n`
      pair of its own reaches its payload intact, newlines included, with only its
      quotes escaped. (The attribute delivers the stored content only when that holds
      no HTML character reference.) */
  lemma {:induction false} PageRoundTrip(page: PageBox)
    requires page.checked && NoEscapedEol(page.content)
    ensures PageSteps([page]) == [RunPhp(CreatePage(Escape(page.postType), Escape(page.title), Escape(page.content), Escape(page.name)))]
  {
    PayloadRoundTrip(page.content);
    assert [page][1..] == [];
  }

  /** The generated steps with every installPlugin label removed. */
  function Unlabelled(steps: seq<Step>): (r: seq<Step>)
    ensures |r| == |steps|
    ensures forall k :: 0 <= k < |r| ==>
      r[k] == (if steps[k].InstallPlugin? then InstallPlugin(steps[k].pluginData, None) else steps[k])
  {
    if |steps| == 0 then []
    else [if steps[0].InstallPlugin? then InstallPlugin(steps[0].pluginData, None) else steps[0]] + Unlabelled(steps[1..])
  }

  /** The generated steps with every installPlugin label removed and every filled
      option input assigned into each setSiteOptions map. */
  function Refreshed(steps: seq<Step>, fields: seq<(string, string)>): (r: seq<Step>)
    ensures |r| == |steps|
    ensures forall k :: 0 <= k < |r| ==>
      r[k] == match steps[k]
              case InstallPlugin(data, _) => InstallPlugin(data, None)
              case SetSiteOptions(options) => SetSiteOptions(MergeOptions(options, fields))
              case _ => steps[k]
  {
    if |steps| == 0 then []
    else [Refresh(steps[0], fields)] + Refreshed(steps[1..], fields)
  }

  function Refresh(s: Step, fields: seq<(string, string)>): Step {
    match s
    case InstallPlugin(data, _) => InstallPlugin(data, None)
    case SetSiteOptions(options) => SetSiteOptions(MergeOptions(options, fields))
    case _ => s
  }

  /** With no option input filled, refreshing only removes the labels. */
  lemma {:induction false} RefreshedUnfilled(steps: seq<Step>, fields: seq<(string, string)>)
    requires forall k :: 0 <= k < |fields| ==> fields[k].0 == ""
    ensures Refreshed(steps, fields) == Unlabelled(steps)
  {
    NothingFilled(fields);
    var r, u := Refreshed(steps, fields), Unlabelled(steps);
    forall k | 0 <= k < |r|
      ensures r[k] == u[k]
    {
      if steps[k].SetSiteOptions? {
        assert MergeOptions(steps[k].options, fields) == steps[k].options;
      }
    }
  }

  /** The text an option input shows for a value: PHP prints `false` as nothing, `true`
      as `1` and an array as `Array`. */
  function Rendered(v: Value): (r: string)
    ensures v.Text? ==> r == v.text
    ensures v.Flag? ==> (r == "" <==> !v.flag)
  {
    match v
    case Text(s) => s
    case Flag(b) => if b then "1" else ""
    case Table(_) => "Array"
  }

  /** The key and value inputs the page shows for a setSiteOptions map, in its order. */
  function RenderedFields(options: OMap<string, Value>): (r: seq<(string, string)>)
    ensures |r| == |options|
    ensures forall k :: 0 <= k < |r| ==> r[k] == (options[k].0, Rendered(options[k].1))
  {
    if |options| == 0 then [] else [(options[0].0, Rendered(options[0].1))] + RenderedFields(options[1..])
  }

  /** The map with every value replaced by the text its input shows. */
  function AsRendered(options: OMap<string, Value>): (r: OMap<string, Value>)
    ensures |r| == |options|
    ensures forall k :: 0 <= k < |r| ==> r[k] == (options[k].0, Text(Rendered(options[k].1)))
  {
    if |options| == 0 then [] else [(options[0].0, Text(Rendered(options[0].1)))] + AsRendered(options[1..])
  }

  lemma {:induction false} AllFilled(fields: seq<(string, string)>)
    requires forall k :: 0 <= k < |fields| ==> fields[k].0 != ""
    ensures Filled(fields) == fields
    decreases |fields|
  {
    if |fields| > 0 {
      AllFilled(fields[1..]);
    }
  }

  /** Reading the inputs shown for a map back into it turns every value into the text
      shown: a string stays, `false` becomes the empty string and `true` becomes `1`;
      the keys and their order stay. */
  lemma {:induction false} RenderedRoundTrip(options: OMap<string, Value>)
    requires Wf(options)
    requires forall k :: 0 <= k < |options| ==> options[k].0 != ""
    ensures MergeOptions(options, RenderedFields(options)) == AsRendered(options)
  {
    var fields := RenderedFields(options);
    AllFilled(fields);
    var pairs := AsText(fields);
    assert pairs == AsRendered(options);
    PutAllInPlace(options, pairs, 0);
    assert pairs[..0] + options[0..] == options;
    assert pairs[0..] == pairs;
  }

  /** The selections the page starts from when nothing was changed and the
      `blueprint_extractor_default_checked` option is unset (with it set, every page,
      template, template part, user and global-styles box starts checked): every
      plugin checked, the current theme without global styles, no zip URL, no filled
      constant input and no checked box. The option inputs may hold anything. */
  predicate Untouched(steps: seq<Step>, sel: Selection) {
    && sel.zipUrl == ""
    && (forall i :: 0 <= i < |steps| && steps[i].InstallPlugin? ==> i in sel.usePlugin)
    && !sel.ignoreTheme
    && (sel.globalStyles.None? || !sel.globalStyles.value.checked)
    && (forall k :: 0 <= k < |sel.constantFields| ==> sel.constantFields[k].0 == "")
    && (forall k :: 0 <= k < |sel.users| ==> !sel.users[k].checked)
    && (forall k :: 0 <= k < |sel.pages| ==> !sel.pages[k].checked)
    && (forall k :: 0 <= k < |sel.templateParts| ==> !sel.templateParts[k].checked)
    && (forall k :: 0 <= k < |sel.templates| ==> !sel.templates[k].checked)
  }

  lemma {:induction false} NothingFilled(fields: seq<(string, string)>)
    requires forall k :: 0 <= k < |fields| ==> fields[k].0 == ""
    ensures Filled(fields) == []
    decreases |fields|
  {
    if |fields| > 0 {
      NothingFilled(fields[1..]);
    }
  }

  lemma {:induction false} KeepUntouched(steps: seq<Step>, sel: Selection, i: nat)
    requires i <= |steps| && Untouched(steps, sel)
    requires forall j :: 0 <= j < |steps| && steps[j].SetSiteOptions? ==> |steps[j].options| > 0
    ensures KeepFrom(steps, sel, i) == Refreshed(steps[i..], sel.optionFields)
    decreases |steps| - i
  {
    if i < |steps| {
      KeepUntouched(steps, sel, i + 1);
      assert steps[i..][1..] == steps[i + 1..];
      assert KeepStep(steps[i], i, sel) == [Refreshed(steps[i..], sel.optionFields)[0]];
    }
  }

  lemma {:induction false} NoUsers(users: seq<UserBox>)
    requires forall k :: 0 <= k < |users| ==> !users[k].checked
    ensures UserSteps(users) == []
    decreases |users|
  {
    if |users| > 0 { NoUsers(users[1..]); }
  }

  lemma {:induction false} NoPages(pages: seq<PageBox>)
    requires forall k :: 0 <= k < |pages| ==> !pages[k].checked
    ensures PageSteps(pages) == []
    decreases |pages|
  {
    if |pages| > 0 { NoPages(pages[1..]); }
  }

  lemma {:induction false} NoParts(parts: seq<PartBox>)
    requires forall k :: 0 <= k < |parts| ==> !parts[k].checked
    ensures PartSteps(parts) == []
    decreases |parts|
  {
    if |parts| > 0 { NoParts(parts[1..]); }
  }

  lemma {:induction false} NoTemplates(templates: seq<PostBox>)
    requires forall k :: 0 <= k < |templates| ==> !templates[k].checked
    ensures TemplateSteps(templates) == []
    decreases |templates|
  {
    if |templates| > 0 { NoTemplates(templates[1..]); }
  }

  lemma {:induction false} NothingSelected(sel: Selection)
    requires forall k :: 0 <= k < |sel.constantFields| ==> sel.constantFields[k].0 == ""
    requires forall k :: 0 <= k < |sel.users| ==> !sel.users[k].checked
    requires forall k :: 0 <= k < |sel.pages| ==> !sel.pages[k].checked
    requires forall k :: 0 <= k < |sel.templateParts| ==> !sel.templateParts[k].checked
    requires forall k :: 0 <= k < |sel.templates| ==> !sel.templates[k].checked
    ensures Selected(sel) == []
  {
    NoUsers(sel.users);
    NoPages(sel.pages);
    NoParts(sel.templateParts);
    NoTemplates(sel.templates);
    assert ConstantSteps(sel.constantFields) == [] by {
      ConstantsStepIff(sel.constantFields);
      assert forall p :: p in sel.constantFields ==> p.0 == "";
    }
  }

  /** With the selections untouched the shown blueprint is the generated one with the
      plugin labels removed and the option inputs assigned into the site options,
      provided no generated setSiteOptions step is empty; with no option input filled
      it is the generated one unlabelled. */
  lemma {:induction false} UntouchedSelection(base: Blueprint, sel: Selection)
    requires Untouched(base.steps, sel)
    requires forall j :: 0 <= j < |base.steps| && base.steps[j].SetSiteOptions? ==> |base.steps[j].options| > 0
    ensures UpdateBlueprint(base, sel).shown.steps == Refreshed(base.steps, sel.optionFields)
    ensures (forall k :: 0 <= k < |sel.optionFields| ==> sel.optionFields[k].0 == "")
            ==> UpdateBlueprint(base, sel).shown.steps == Unlabelled(base.steps)
  {
    var kept := KeepFrom(base.steps, sel, 0);
    ShownSteps(base, sel);
    assert kept == Refreshed(base.steps, sel.optionFields) by {
      KeepUntouched(base.steps, sel, 0);
      assert base.steps[0..] == base.steps;
    }
    NothingSelected(sel);
    assert kept + [] + [] == kept;
    if forall k :: 0 <= k < |sel.optionFields| ==> sel.optionFields[k].0 == "" {
      RefreshedUnfilled(base.steps, sel.optionFields);
    }
  }

  /** Applied to a freshly generated blueprint with nothing changed on the page, the
      merge shows the generated steps unlabelled with the option inputs assigned into
      the site options: the generated setSiteOptions step always carries its three
      site options, so it is never dropped. */
  lemma {:induction false} GeneratedUntouched(env: Assembler.Environment, q: Assembler.Query, caches: Assembler.Caches, sel: Selection)
    requires Untouched(Assembler.GenerateBlueprint(env, q, caches).blueprint.steps, sel)
    ensures var steps := Assembler.GenerateBlueprint(env, q, caches).blueprint.steps;
      UpdateBlueprint(Assembler.GenerateBlueprint(env, q, caches).blueprint, sel).shown.steps
      == Refreshed(steps, sel.optionFields)
  {
    var base := Assembler.GenerateBlueprint(env, q, caches).blueprint;
    GeneratedOptionsStep(env, q, caches);
    LayoutOptionsFilled(base.steps);
    UntouchedSelection(base, sel);
  }

  /** The page as first shown for a freshly generated blueprint, when
      `blueprint_extractor_default_checked` is unset and no additional options are
      stored: the option inputs hold exactly the generated site options as printed.
      The shown steps are the generated
      ones unlabelled, except that each site option now holds the text of its input:
      a stored option keeps its value and a missing one (`false`) becomes the empty
      string. */
  lemma {:induction false} GeneratedUnedited(env: Assembler.Environment, q: Assembler.Query, caches: Assembler.Caches,
                                             base: Blueprint, sel: Selection)
    requires base == Assembler.GenerateBlueprint(env, q, caches).blueprint
    requires Untouched(base.steps, sel)
    requires sel.optionFields == RenderedFields(Assembler.SiteOptions(env))
    ensures var shown := UpdateBlueprint(base, sel).shown.steps;
      && |shown| == |base.steps| >= 2
      && (forall k :: 0 <= k < |shown| && k != |shown| - 2 ==> shown[k] == Unlabelled(base.steps)[k])
      && shown[|shown| - 2] == SetSiteOptions(StoredSiteOptions(env))
  {
    var options := Assembler.SiteOptions(env);
    GeneratedOptionsStep(env, q, caches);
    UneditedShown(base, sel, options);
    SiteOptionsReadBack(env);
  }
  /** A generated blueprint has the usual layout, and its setSiteOptions step holds the generated site options. */
  lemma {:induction false} GeneratedOptionsStep(env: Assembler.Environment, q: Assembler.Query, caches: Assembler.Caches)
    ensures var steps := Assembler.GenerateBlueprint(env, q, caches).blueprint.steps;
      && Assembler.Layout(steps)
      && steps[|steps| - 2] == SetSiteOptions(Assembler.SiteOptions(env))
  {
    Assembler.GenerateLayout(env, q, caches);
  }

  /** The site options as their inputs show them: each stored text, or the empty
      string when the option is missing. */
  function StoredSiteOptions(env: Assembler.Environment): (r: OMap<string, Value>)
    ensures Keys(r) == Assembler.SiteOptionNames
    ensures forall k :: 0 <= k < |r| ==> r[k].1 == Text(env.option(r[k].0).GetOr(""))
  {
    var options := Assembler.SiteOptions(env);
    AsRenderedGet(options, "");
    AsRendered(options)
  }

  /** The generated site options, read back from their inputs. */
  lemma {:induction false} SiteOptionsReadBack(env: Assembler.Environment)
    ensures var options := Assembler.SiteOptions(env);
      MergeOptions(options, RenderedFields(options)) == StoredSiteOptions(env)
  {
    SiteOptionsNamed(env);
    RenderedRoundTrip(Assembler.SiteOptions(env));
  }

  /** The generated site options have distinct, non-empty names. */
  lemma {:induction false} SiteOptionsNamed(env: Assembler.Environment)
    ensures var options := Assembler.SiteOptions(env);
      && Wf(options)
      && forall k :: 0 <= k < |options| ==> options[k].0 != ""
  {
    var options := Assembler.SiteOptions(env);
    KeysOf(options);
  }

  /** Untouched selections over steps laid out as generated: the site options step
      holds its map with the option inputs assigned in, and the other steps lose only
      their labels. */
  lemma {:induction false} UneditedShown(base: Blueprint, sel: Selection, options: OMap<string, Value>)
    requires Assembler.Layout(base.steps) && base.steps[|base.steps| - 2] == SetSiteOptions(options)
    requires Untouched(base.steps, sel)
    ensures var shown := UpdateBlueprint(base, sel).shown.steps;
      && |shown| == |base.steps|
      && (forall k :: 0 <= k < |shown| && k != |shown| - 2 ==> shown[k] == Unlabelled(base.steps)[k])
      && shown[|shown| - 2] == SetSiteOptions(MergeOptions(options, sel.optionFields))
  {
    LayoutOptionsFilled(base.steps);
    UntouchedSelection(base, sel);
    RefreshedLayout(base.steps, sel.optionFields, options);
  }

  /** Steps laid out as generated have one setSiteOptions step, and it is not empty. */
  lemma {:induction false} LayoutOptionsFilled(steps: seq<Step>)
    requires Assembler.Layout(steps)
    ensures forall j :: 0 <= j < |steps| && steps[j].SetSiteOptions? ==> |steps[j].options| > 0
  {
    forall j | 0 <= j < |steps| && steps[j].SetSiteOptions?
      ensures |steps[j].options| > 0
    {
      assert j == |steps| - 2;
      assert |Keys(steps[j].options)| == |Assembler.SiteOptionNames|;
    }
  }

  /** Over steps laid out as generated, refreshing changes the site options step by
      assigning the inputs in, and the other steps only lose their labels. */
  lemma {:induction false} RefreshedLayout(steps: seq<Step>, fields: seq<(string, string)>, options: OMap<string, Value>)
    requires Assembler.Layout(steps) && steps[|steps| - 2] == SetSiteOptions(options)
    ensures var r := Refreshed(steps, fields);
      && (forall k :: 0 <= k < |r| && k != |r| - 2 ==> r[k] == Unlabelled(steps)[k])
      && r[|r| - 2] == SetSiteOptions(MergeOptions(options, fields))
  {
    var r := Refreshed(steps, fields);
    forall k | 0 <= k < |r| && k != |r| - 2
      ensures r[k] == Unlabelled(steps)[k]
    {
      if k < |r| - 2 {
        assert steps[k].InstallPlugin? || steps[k].InstallTheme?;
      } else {
        assert steps[k].RunPhp?;
      }
    }
  }

  /** Each generated site option, read back from its input. */
  lemma {:induction false} SiteOptionRendered(env: Assembler.Environment, name: string)
    ensures var options := Assembler.SiteOptions(env);
      var r := MergeOptions(options, RenderedFields(options));
      && Keys(r) == Assembler.SiteOptionNames
      && (name in Assembler.SiteOptionNames ==> Get(r, name) == Some(Text(env.option(name).GetOr(""))))
  {
    var options := Assembler.SiteOptions(env);
    SiteOptionsReadBack(env);
    AsRenderedGet(options, name);
    if name in Assembler.SiteOptionNames {
      Assembler.SiteOptionsGet(env, name);
    }
  }

  /** Reading back keeps the keys and turns each value into the text it shows. */
  lemma {:induction false} AsRenderedGet(options: OMap<string, Value>, k: string)
    ensures Keys(AsRendered(options)) == Keys(options)
    ensures Get(AsRendered(options), k)
            == match Get(options, k) case None => None case Some(v) => Some(Text(Rendered(v)))
    decreases |options|
  {
    if |options| > 0 {
      AsRenderedGet(options[1..], k);
      Cons((options[0].0, Text(Rendered(options[0].1))), AsRendered(options[1..]));
    }
  }
}

=== FILE: naming.dfy ===
/** The suggested name for the next blueprint: a name ending in a number has that number
    raised by one (`preg_replace( '/\d+$/', $m[0] + 1, $name )`), any other name gets
    ` V2` appended. PCRE's `$` also matches just before a final line feed, so a name
    ending in digits and one line feed keeps the line feed after the new number. */
module Naming {
  import opened Wrappers
  import opened Text

  const FirstVersion: string := " V2"

  /** A name cut around its trailing number: the text before it, the digits (possibly
      none) and what follows them (nothing, or one final line feed). */
  datatype NameParts = NameParts(text: string, digits: string, ending: string)

  /** The part of the name the pattern's `$` anchors against: all of it, or all but a
      final line feed. */
  function Anchored(name: string): (r: (string, string))
    ensures r.0 + r.1 == name
    ensures r.1 == "" || r.1 == "\n"
  {
    if |name| > 0 && name[|name| - 1] == '\n' then (name[..|name| - 1], "\n") else (name, "")
  }

  /** The length of the longest run of digits ending `s`. */
  function RunLength(s: string): (n: nat)
    ensures n <= |s|
    ensures n > 0 ==> IsDigit(s[|s| - 1])
    ensures n < |s| ==> !IsDigit(s[|s| - n - 1])
    decreases |s|
  {
    if |s| == 0 || !IsDigit(s[|s| - 1]) then 0 else RunLength(s[..|s| - 1]) + 1
  }

  /** Where `\d+$` matches: the anchored part split before its trailing digit run. */
  function Split(name: string): NameParts {
    var a := Anchored(name);
    var n := RunLength(a.0);
    NameParts(a.0[..|a.0| - n], a.0[|a.0| - n..], a.1)
  }

  /** The trailing number of a name, when its anchored part ends in digits. */
  function TrailingNumber(name: string): Option<nat> {
    var p := Split(name);
    if |p.digits| == 0 then None else Some(DigitsValue(p.digits))
  }

  /** `render_admin_page`'s name bump. */
  function BumpName(name: string): string {
    var p := Split(name);
    if |p.digits| == 0 then name + FirstVersion
    else p.text + NatToString(DigitsValue(p.digits) + 1) + p.ending
  }
}

/** Properties of the name bump: how a trailing number is found and raised, and what
    names without one become. */
module NamingFacts {
  import opened Wrappers
  import opened Text
  import opened Naming

  /** `d` is all digits: its trailing digit run is the whole of it. */
  predicate DigitRun(d: string) {
    RunLength(d) == |d|
  }

  /** The last `n` characters of `s`, without the final one, are the last `n - 1` of `s`
      without its final one. */
  lemma {:induction false} DropLastOfSuffix(s: string, n: nat)
    requires 0 < n <= |s|
    ensures s[|s| - n..][..n - 1] == s[..|s| - 1][|s| - n..]
  {
  }

  /** The trailing digit run of any text is a digit run. */
  lemma {:induction false} RunIsDigitRun(s: string)
    ensures DigitRun(s[|s| - RunLength(s)..])
    decreases |s|
  {
    var n := RunLength(s);
    if n > 0 {
      RunIsDigitRun(s[..|s| - 1]);
      DropLastOfSuffix(s, n);
    }
  }

  /** `Split` cuts the name without losing or adding anything, ends with nothing or a
      line feed, and leaves no digit at the end of the text. */
  lemma {:induction false} SplitParts(name: string)
    ensures var p := Split(name);
      && p.text + p.digits + p.ending == name
      && (p.ending == "" || p.ending == "\n")
      && (|p.text| == 0 || !IsDigit(p.text[|p.text| - 1]))
  {
    var a := Anchored(name);
    SliceJoin(a.0, RunLength(a.0));
  }

  /** The digits `Split` finds are a digit run. */
  lemma {:induction false} SplitDigits(name: string)
    ensures DigitRun(Split(name).digits)
  {
    RunIsDigitRun(Anchored(name).0);
  }

  /** A name has a trailing number exactly when its anchored part ends in a digit. */
  lemma {:induction false} TrailingNumberIff(name: string)
    ensures var body := Anchored(name).0;
      TrailingNumber(name).Some? <==> |body| > 0 && IsDigit(body[|body| - 1])
  {
  }

  /** The printed form of a number is a digit run. */
  lemma {:induction false} NatToStringIsRun(n: nat)
    ensures DigitRun(NatToString(n))
  {
    if n >= 10 {
      NatToStringIsRun(n / 10);
      ConcatSlices(NatToString(n / 10), [DigitChar(n % 10)]);
    }
  }

  /** Appending a digit run to a text that does not end in a digit makes exactly that
      run the trailing run. */
  lemma {:induction false} RunOfDigitSuffix(text: string, digits: string)
    requires |text| == 0 || !IsDigit(text[|text| - 1])
    requires DigitRun(digits)
    ensures RunLength(text + digits) == |digits|
    decreases |digits|
  {
    ConcatSlices(text, digits);
    if |digits| > 0 {
      RunOfDigitSuffix(text, digits[..|digits| - 1]);
    }
  }

  /** The anchored part of `text + digits + ending` when `ending` is empty or a line
      feed. */
  lemma {:induction false} AnchoredParts(text: string, digits: string, ending: string)
    requires |digits| > 0 && DigitRun(digits)
    requires ending == "" || ending == "\n"
    ensures Anchored(text + digits + ending) == (text + digits, ending)
  {
    ConcatSlices(text + digits, ending);
  }

  /** A name laid out as text, a non-empty digit run and an optional final line feed is
      split back into exactly those parts. */
  lemma {:induction false} SplitOf(text: string, digits: string, ending: string)
    requires |text| == 0 || !IsDigit(text[|text| - 1])
    requires |digits| > 0 && DigitRun(digits)
    requires ending == "" || ending == "\n"
    ensures Split(text + digits + ending) == NameParts(text, digits, ending)
  {
    AnchoredParts(text, digits, ending);
    RunOfDigitSuffix(text, digits);
    ConcatSlices(text, digits);
  }

  /** The bump of a name with a trailing number, in terms of its parts. */
  lemma {:induction false} BumpShape(name: string)
    requires |Split(name).digits| > 0
    ensures TrailingNumber(name) == Some(DigitsValue(Split(name).digits))
    ensures BumpName(name) == Split(name).text + NatToString(DigitsValue(Split(name).digits) + 1) + Split(name).ending
  {
  }

  /** A name laid out as text, a non-empty digit run and an optional final line feed
      has that run's value as its trailing number. */
  lemma {:induction false} PartsOfLayout(text: string, digits: string, ending: string, name: string)
    requires |text| == 0 || !IsDigit(text[|text| - 1])
    requires |digits| > 0 && DigitRun(digits)
    requires ending == "" || ending == "\n"
    requires name == text + digits + ending
    ensures Split(name) == NameParts(text, digits, ending)
    ensures TrailingNumber(name) == Some(DigitsValue(digits))
  {
    SplitOf(text, digits, ending);
  }

  /** The old text, the printed successor of the trailing number and the old ending, put
      together, split back into those parts and carry the successor as trailing number. */
  lemma {:induction false} SuccessorParts(name: string, bumped: string)
    requires |Split(name).digits| > 0
    requires bumped == Split(name).text + NatToString(DigitsValue(Split(name).digits) + 1) + Split(name).ending
    ensures TrailingNumber(bumped) == Some(DigitsValue(Split(name).digits) + 1)
    ensures Split(bumped).text == Split(name).text
    ensures Split(bumped).ending == Split(name).ending
  {
    var p := Split(name);
    var v := DigitsValue(p.digits) + 1;
    var next := NatToString(v);
    assert DigitRun(next) && DigitsValue(next) == v by {
      NatToStringIsRun(v);
      NatToStringRoundTrip(v);
    }
    assert (p.ending == "" || p.ending == "\n") && (|p.text| == 0 || !IsDigit(p.text[|p.text| - 1])) by {
      SplitParts(name);
    }
    PartsOfLayout(p.text, next, p.ending, bumped);
  }

  /** A name with a trailing number is bumped to the next number, with the text before
      the number and the final line feed kept. */
  lemma {:induction false} BumpIncrements(name: string)
    requires TrailingNumber(name).Some?
    ensures TrailingNumber(BumpName(name)) == Some(TrailingNumber(name).value + 1)
    ensures Split(BumpName(name)).text == Split(name).text
    ensures Split(BumpName(name)).ending == Split(name).ending
  {
    var bumped := BumpName(name);
    BumpShape(name);
    SuccessorParts(name, bumped);
  }

  /** A name without a trailing number gets ` V2`. */
  lemma {:induction false} BumpUnnumbered(name: string)
    requires TrailingNumber(name).None?
    ensures BumpName(name) == name + " V2"
  {
  }

  lemma {:induction false} Three(s: string)
    requires s == "2"
    ensures NatToString(DigitsValue(s) + 1) == "3"
  {
    assert s[..0] == "";
  }

  /** Whatever precedes it, a ` V2` suffix is bumped to ` V3`. */
  lemma {:induction false} BumpSecondVersion(name: string)
    ensures BumpName(name + " V2") == name + " V3"
  {
    var text := name + " V";
    assert name + " V2" == text + "2" + "";
    assert DigitRun("2");
    SplitOf(text, "2", "");
    BumpShape(name + " V2");
    Three(Split(name + " V2").digits);
    assert text + "3" + "" == name + " V3";
  }

  /** A name without a trailing number gets ` V2`, and bumping that gives ` V3`. */
  lemma {:induction false} BumpTwice(name: string)
    requires TrailingNumber(name).None?
    ensures BumpName(name) == name + " V2"
    ensures BumpName(BumpName(name)) == name + " V3"
  {
    BumpUnnumbered(name);
    BumpSecondVersion(name);
  }

  /** A name made of text and a digit run is bumped to the text and the printed successor
      of the run's value. */
  lemma {:induction false} BumpPlain(text: string, digits: string, next: string)
    requires |text| == 0 || !IsDigit(text[|text| - 1])
    requires |digits| > 0 && DigitRun(digits)
    requires next == NatToString(DigitsValue(digits) + 1)
    ensures BumpName(text + digits) == text + next
  {
    var name := text + digits;
    assert Split(name) == NameParts(text, digits, "") by {
      AppendEmpty(name);
      PartsOfLayout(text, digits, "", name);
    }
    AppendEmpty(text + next);
  }

  /** `009` reads as nine; its successor prints as `10`. */
  lemma {:induction false} ZeroZeroNineTen(s: string)
    requires s == "009"
    ensures DigitRun(s) && NatToString(DigitsValue(s) + 1) == "10"
  {
    var s2, s1, s0 := s[..2], s[..2][..1], s[..2][..1][..0];
    assert s2 == "00" && s1 == "0" && s0 == "";
    assert DigitsValue(s1) == 0;
    assert DigitsValue(s2) == 0;
    assert DigitsValue(s) == 9;
    assert NatToString(10) == NatToString(1) + [DigitChar(0)];
  }

  /** Leading zeros are read as a decimal number and not kept: `… 009` becomes `… 10`. */
  lemma {:induction false} LeadingZerosDropped(text: string)
    requires |text| == 0 || !IsDigit(text[|text| - 1])
    ensures BumpName(text + "009") == text + "10"
  {
    ZeroZeroNineTen("009");
    BumpPlain(text, "009", "10");
  }
}

=== FILE: option_scan.dfy ===
/** The plugin-options scanner: for every active plugin that is not ignored, the options
    its PHP files read with `get_option( '…' )` that are not core options and are set
    to a truthy value, grouped by plugin slug. The WordPress lookups (the plugin's file
    list, the option names a file's text mentions, the stored option value) are oracle
    fields of `Site`. */
module OptionScan {
  import opened Wrappers
  import opened Text
  import opened OrderedMap
  import opened Resolver

  /** The WordPress installation as the scanner sees it.
      `files`: `get_plugin_files( $plugin )`, paths relative to the plugins directory;
      `optionNames`: group 1 of the `get_option(…)` pattern over a file's text, in order;
      `value`: `maybe_serialize( get_option( $name ) )`, `None` when the value is falsy. */
  datatype Site = Site(
    files: string -> seq<string>,
    optionNames: string -> seq<string>,
    value: string -> Option<string>)

  /** Options the scanner never reports, whatever reads them. */
  const CoreOptions: seq<string> := [
    "home", "WPLANG", "blogname", "blogdescription", "site_icon", "siteurl", "stylesheet",
    "start_of_week", "timezone_string", "date_format", "time_format", "gmt_offset",
    "permalink_structure", "rss_use_excerpt", "comment_registration", "blog_charset",
    "posts_per_page", "rewrite_rules", "sidebars_widgets", "admin_email", "page_on_front",
    "page_for_posts", "show_on_front", "active_plugins"]

  /** The number of slashes at the start of `s`. */
  function LeadingSlashes(s: string): (k: nat)
    ensures k <= |s|
    ensures forall j :: 0 <= j < k ==> s[j] == '/'
    ensures k < |s| ==> s[k] != '/'
  {
    if |s| == 0 || s[0] != '/' then 0 else 1 + LeadingSlashes(s[1..])
  }

  /** PHP `strtok( $s, '/' )` on a fresh string: leading slashes are skipped, then the
      characters up to the next slash; `None` (PHP `false`) when nothing is left. */
  function FirstToken(s: string): (r: Option<string>)
    ensures r.Some? ==> |r.value| > 0 && '/' !in r.value && Contains(s, r.value)
    ensures r.Some? ==> var k := LeadingSlashes(s);
      && k + |r.value| <= |s| && s[k..k + |r.value|] == r.value
      && (k + |r.value| < |s| ==> s[k + |r.value|] == '/')
    ensures r.None? <==> forall k :: 0 <= k < |s| ==> s[k] == '/'
  {
    var k := LeadingSlashes(s);
    if k == |s| then None
    else
      var rest := s[k..];
      var n := SegmentEnd(rest);
      assert rest[..n] == s[k..k + n];
      assert OccursAt(s, rest[..n], k);
      assert n < |rest| ==> s[k + n] == rest[n];
      Some(rest[..n])
  }

  /** The length of the slash-free run at the start of `s`. */
  function SegmentEnd(s: string): (n: nat)
    ensures n <= |s| && '/' !in s[..n]
    ensures n < |s| ==> s[n] == '/'
    ensures |s| > 0 && s[0] != '/' ==> n > 0
  {
    if |s| == 0 || s[0] == '/' then 0
    else
      var n := 1 + SegmentEnd(s[1..]);
      assert s[..n] == [s[0]] + s[1..][..n - 1];
      n
  }

  /** A file the scanner reads: a `.php` file whose first path segment is neither
      `node_modules` nor `vendor`. */
  predicate ScannedFile(file: string) {
    EndsWith(file, ".php")
    && FirstToken(file) != Some("node_modules") && FirstToken(file) != Some("vendor")
  }

  /** The files of a plugin that lives in a folder are listed under that folder, so
      their first segment is the folder itself. A plugin's own nested `vendor` or
      `node_modules` directory is therefore scanned; only a plugin folder of that name
      is skipped. */
  lemma {:induction false} ScannedInFolder(dir: string, rest: string)
    requires |dir| > 0 && '/' !in dir
    ensures FirstToken(dir + "/" + rest) == Some(dir)
    ensures ScannedFile(dir + "/" + rest)
            <==> EndsWith(dir + "/" + rest, ".php") && dir != "node_modules" && dir != "vendor"
  {
    var s := dir + "/" + rest;
    assert s[0] == dir[0] && s[|dir|] == '/';
    assert dir[0] in dir;
    var r := FirstToken(s);
    assert r.Some?;
    var v := r.value;
    assert LeadingSlashes(s) == 0;
    assert s[..|v|] == v;
    assert v == s[..|dir|] == dir;
  }

  /** An option name the scanner keeps: not a core option, not `wp_…`, not `_…`. */
  predicate KeptName(name: string) {
    name !in CoreOptions && !StartsWith(name, "wp_") && !StartsWith(name, "_")
  }

  /** One reported option: (plugin slug, option name, stored value). */
  type Finding = (string, string, string)

  /** The options of one file, in the order the de-duplicated names appear. */
  function NameFindings(site: Site, slug: string, names: seq<string>): (r: seq<Finding>)
    ensures forall x :: x in r ==>
              x.0 == slug && x.1 in names && KeptName(x.1) && site.value(x.1) == Some(x.2)
    ensures forall n :: n in names && KeptName(n) && site.value(n).Some? ==>
              (slug, n, site.value(n).value) in r
  {
    if |names| == 0 then []
    else
      var n := names[0];
      var rest := NameFindings(site, slug, names[1..]);
      if KeptName(n) && site.value(n).Some? then [(slug, n, site.value(n).value)] + rest else rest
  }

  /** The options of the files of one plugin, file by file. */
  function FileFindings(site: Site, slug: string, files: seq<string>): (r: seq<Finding>)
    ensures forall x :: x in r ==>
              (x.0 == slug && KeptName(x.1) && site.value(x.1) == Some(x.2)
               && exists f :: f in files && ScannedFile(f) && x.1 in site.optionNames(f))
    ensures forall f, n ::
              (f in files && ScannedFile(f) && n in site.optionNames(f) && KeptName(n) && site.value(n).Some?)
              ==> (slug, n, site.value(n).value) in r
  {
    if |files| == 0 then []
    else
      var f := files[0];
      var here := if ScannedFile(f) then NameFindings(site, slug, Unique(site.optionNames(f))) else [];
      var rest := FileFindings(site, slug, files[1..]);
      assert forall x :: x in here + rest <==> x in here || x in rest;
      assert forall g :: g in files[1..] ==> g in files;
      here + rest
  }

  /** The options of every plugin, in `active_plugins` order, skipping ignored slugs. */
  function PluginFindings(site: Site, plugins: seq<string>, ignored: seq<string>): seq<Finding>
  {
    if |plugins| == 0 then []
    else
      var slug := SlugOf(plugins[0]);
      var here := if slug in ignored then [] else FileFindings(site, slug, site.files(plugins[0]));
      here + PluginFindings(site, plugins[1..], ignored)
  }

  /** Every finding meets the filter conditions and carries the stored value. */
  lemma {:induction false} FindingsSound(site: Site, plugins: seq<string>, ignored: seq<string>)
    ensures forall f :: f in PluginFindings(site, plugins, ignored) ==>
              Reportable(site, plugins, ignored, f.0, f.1) && site.value(f.1) == Some(f.2)
    decreases |plugins|
  {
    if |plugins| > 0 {
      var slug := SlugOf(plugins[0]);
      var here := if slug in ignored then [] else FileFindings(site, slug, site.files(plugins[0]));
      var rest := PluginFindings(site, plugins[1..], ignored);
      assert PluginFindings(site, plugins, ignored) == here + rest;
      FindingsSound(site, plugins[1..], ignored);
      forall f | f in here
        ensures Reportable(site, plugins, ignored, f.0, f.1) && site.value(f.1) == Some(f.2)
      {
        var g :| g in site.files(plugins[0]) && ScannedFile(g) && f.1 in site.optionNames(g);
        assert ReportableVia(site, plugins, ignored, f.0, f.1, 0, g);
      }
      forall f | f in rest
        ensures Reportable(site, plugins, ignored, f.0, f.1)
      {
        ReportableTail(site, plugins, ignored, f.0, f.1);
      }
    }
  }

  /** The conditions under which option `name` of plugin `plugins[i]` (read from `file`)
      is reported for `slug`. */
  predicate ReportableVia(site: Site, plugins: seq<string>, ignored: seq<string>,
                          slug: string, name: string, i: nat, file: string) {
    i < |plugins| && SlugOf(plugins[i]) == slug && slug !in ignored
    && file in site.files(plugins[i]) && ScannedFile(file)
    && name in site.optionNames(file) && KeptName(name) && site.value(name).Some?
  }

  /** The reference definition of what the scanner reports, independent of the order
      of the walk. */
  ghost predicate Reportable(site: Site, plugins: seq<string>, ignored: seq<string>, slug: string, name: string) {
    exists i: nat, file: string :: ReportableVia(site, plugins, ignored, slug, name, i, file)
  }

  lemma {:induction false} ReportableTail(site: Site, plugins: seq<string>, ignored: seq<string>, slug: string, name: string)
    requires |plugins| > 0
    requires Reportable(site, plugins[1..], ignored, slug, name)
    ensures Reportable(site, plugins, ignored, slug, name)
  {
    var i: nat, f :| ReportableVia(site, plugins[1..], ignored, slug, name, i, f);
    assert ReportableVia(site, plugins, ignored, slug, name, i + 1, f);
  }

  /** Every option the conditions admit is among the findings. */
  lemma {:induction false} FindingsComplete(site: Site, plugins: seq<string>, ignored: seq<string>,
                                            slug: string, name: string)
    requires Reportable(site, plugins, ignored, slug, name)
    ensures (slug, name, site.value(name).value) in PluginFindings(site, plugins, ignored)
    decreases |plugins|
  {
    var i: nat, f :| ReportableVia(site, plugins, ignored, slug, name, i, f);
    var r := PluginFindings(site, plugins, ignored);
    var here := if SlugOf(plugins[0]) in ignored then [] else FileFindings(site, SlugOf(plugins[0]), site.files(plugins[0]));
    var rest := PluginFindings(site, plugins[1..], ignored);
    assert r == here + rest;
    if i == 0 {
      assert (slug, name, site.value(name).value) in here;
    } else {
      assert ReportableVia(site, plugins[1..], ignored, slug, name, i - 1, f);
      FindingsComplete(site, plugins[1..], ignored, slug, name);
    }
  }

  // ---------------------------------------------------------------------------
  // Grouping by slug.

  type Options = OMap<string, OMap<string, string>>

  /** `$plugin_options[ $slug ][ $name ]`, when both levels are set. */
  function Lookup(m: Options, slug: string, name: string): Option<string> {
    match Get(m, slug)
    case None => None
    case Some(inner) => Get(inner, name)
  }

  /** Every slug present holds at least one option. */
  ghost predicate NoEmptyGroup(m: Options) {
    forall s :: Get(m, s).Some? ==> |Get(m, s).value| > 0
  }

  /** Creates the slug's array on first use, then assigns the option in it. */
  function Record(m: Options, f: Finding): (r: Options)
    ensures Lookup(r, f.0, f.1) == Some(f.2)
    ensures forall s, n :: (s, n) != (f.0, f.1) ==> Lookup(r, s, n) == Lookup(m, s, n)
    ensures NoEmptyGroup(m) ==> NoEmptyGroup(r)
  {
    var inner := Put(Get(m, f.0).GetOr([]), f.1, f.2);
    assert f.1 in Keys(inner);
    Put(m, f.0, inner)
  }

  /** All findings recorded in order. */
  function Group(m: Options, fs: seq<Finding>): (r: Options)
    ensures NoEmptyGroup(m) ==> NoEmptyGroup(r)
    decreases |fs|
  {
    if |fs| == 0 then m else Group(Record(m, fs[0]), fs[1..])
  }

  /** Some finding is about option `name` of `slug`. */
  ghost predicate Mentions(fs: seq<Finding>, slug: string, name: string) {
    exists j :: 0 <= j < |fs| && fs[j].0 == slug && fs[j].1 == name
  }

  lemma {:induction false} MentionsSplit(fs: seq<Finding>, slug: string, name: string)
    requires |fs| > 0
    ensures Mentions(fs, slug, name) <==> (fs[0].0 == slug && fs[0].1 == name) || Mentions(fs[1..], slug, name)
  {
    if Mentions(fs, slug, name) && !(fs[0].0 == slug && fs[0].1 == name) {
      var j :| 0 <= j < |fs| && fs[j].0 == slug && fs[j].1 == name;
      assert fs[1..][j - 1] == fs[j];
    }
    if Mentions(fs[1..], slug, name) {
      var j :| 0 <= j < |fs[1..]| && fs[1..][j].0 == slug && fs[1..][j].1 == name;
      assert fs[j + 1] == fs[1..][j];
    }
  }

  /** A (slug, name) is set after grouping exactly when it was set before or some
      finding names it, and its value is the earlier one or that of a finding. */
  lemma {:induction false} GroupLookup(m: Options, fs: seq<Finding>, slug: string, name: string)
    ensures Lookup(Group(m, fs), slug, name).Some? <==> Lookup(m, slug, name).Some? || Mentions(fs, slug, name)
    ensures Lookup(Group(m, fs), slug, name).Some? ==>
              Lookup(Group(m, fs), slug, name) == Lookup(m, slug, name)
              || (slug, name, Lookup(Group(m, fs), slug, name).value) in fs
    decreases |fs|
  {
    if |fs| > 0 {
      assert forall x :: x in fs[1..] ==> x in fs;
      var m1 := Record(m, fs[0]);
      var r := Group(m, fs);
      assert r == Group(m1, fs[1..]);
      GroupLookup(m1, fs[1..], slug, name);
      MentionsSplit(fs, slug, name);
      if fs[0].0 == slug && fs[0].1 == name {
        assert Lookup(m1, slug, name) == Some(fs[0].2);
        assert fs[0] == (slug, name, fs[0].2);
      } else {
        assert (slug, name) != (fs[0].0, fs[0].1);
        assert Lookup(m1, slug, name) == Lookup(m, slug, name);
      }
    } else {
      assert !Mentions(fs, slug, name);
    }
  }

  /** `get_wp_plugin_options`. */
  function PluginOptions(site: Site, plugins: seq<string>, ignored: seq<string>): (r: Options)
    ensures NoEmptyGroup(r)
  {
    Group([], PluginFindings(site, plugins, ignored))
  }

  /** An option the filter conditions admit is reported. */
  lemma {:induction false} ReportableReported(site: Site, plugins: seq<string>, ignored: seq<string>, slug: string, name: string)
    requires Reportable(site, plugins, ignored, slug, name)
    ensures Lookup(PluginOptions(site, plugins, ignored), slug, name).Some?
  {
    var fs := PluginFindings(site, plugins, ignored);
    GroupLookup([], fs, slug, name);
    FindingsComplete(site, plugins, ignored, slug, name);
    var j :| 0 <= j < |fs| && fs[j] == (slug, name, site.value(name).value);
    assert fs[j].0 == slug && fs[j].1 == name;
  }

  /** A reported option is admitted by the filter conditions and holds its stored value. */
  lemma {:induction false} ReportedReportable(site: Site, plugins: seq<string>, ignored: seq<string>, slug: string, name: string)
    requires Lookup(PluginOptions(site, plugins, ignored), slug, name).Some?
    ensures Reportable(site, plugins, ignored, slug, name)
    ensures Lookup(PluginOptions(site, plugins, ignored), slug, name) == site.value(name)
  {
    var fs := PluginFindings(site, plugins, ignored);
    GroupLookup([], fs, slug, name);
    FindingsSound(site, plugins, ignored);
    var j :| 0 <= j < |fs| && fs[j].0 == slug && fs[j].1 == name;
    assert fs[j] in fs;
  }

  /** An option is reported for a slug exactly when the filter conditions admit it, and
      its value is the stored one. */
  lemma {:induction false} PluginOptionsExact(site: Site, plugins: seq<string>, ignored: seq<string>, slug: string, name: string)
    ensures Lookup(PluginOptions(site, plugins, ignored), slug, name).Some?
            <==> Reportable(site, plugins, ignored, slug, name)
    ensures Lookup(PluginOptions(site, plugins, ignored), slug, name).Some? ==>
              Lookup(PluginOptions(site, plugins, ignored), slug, name) == site.value(name)
  {
    if Reportable(site, plugins, ignored, slug, name) {
      ReportableReported(site, plugins, ignored, slug, name);
    }
    if Lookup(PluginOptions(site, plugins, ignored), slug, name).Some? {
      ReportedReportable(site, plugins, ignored, slug, name);
    }
  }

  /** Only whether the slug is ignored matters, not what else the list holds. */
  lemma {:induction false} ReportableNotIgnored(site: Site, plugins: seq<string>, ignored: seq<string>, slug: string, name: string)
    requires slug !in ignored
    ensures Reportable(site, plugins, ignored, slug, name) <==> Reportable(site, plugins, [], slug, name)
  {
    if Reportable(site, plugins, ignored, slug, name) {
      var i: nat, f :| ReportableVia(site, plugins, ignored, slug, name, i, f);
      assert ReportableVia(site, plugins, [], slug, name, i, f);
    }
    if Reportable(site, plugins, [], slug, name) {
      var i: nat, f :| ReportableVia(site, plugins, [], slug, name, i, f);
      assert ReportableVia(site, plugins, ignored, slug, name, i, f);
    }
  }

  /** An ignored slug gets no options. */
  lemma {:induction false} IgnoredSlugHasNoOptions(site: Site, plugins: seq<string>, ignored: seq<string>, slug: string, name: string)
    requires slug in ignored
    ensures Lookup(PluginOptions(site, plugins, ignored), slug, name).None?
  {
    PluginOptionsExact(site, plugins, ignored, slug, name);
  }
}

=== FILE: ordered_map.dfy ===
/** PHP arrays used as dictionaries: keys kept in insertion order, assignment to an
    existing key updating its value in place, `unset` removing the entry. Modelled as
    a sequence of key/value pairs. */
module OrderedMap {
  import opened Wrappers

  type OMap<K, V> = seq<(K, V)>

  /** The keys, in iteration (insertion) order. */
  function Keys<K, V>(m: OMap<K, V>): (ks: seq<K>)
    ensures |ks| == |m|
  {
    if |m| == 0 then [] else [m[0].0] + Keys(m[1..])
  }

  /** The `i`-th key is the key of the `i`-th pair. */
  lemma {:induction false} KeyAt<K, V>(m: OMap<K, V>, i: nat)
    requires i < |m|
    ensures Keys(m)[i] == m[i].0
    decreases i
  {
    if i > 0 {
      KeyAt(m[1..], i - 1);
    }
  }

  /** Every key is the key of some pair, and every pair's key is a key. */
  lemma {:induction false} KeysOf<K, V>(m: OMap<K, V>)
    ensures forall i :: 0 <= i < |m| ==> Keys(m)[i] == m[i].0
  {
    forall i | 0 <= i < |m|
      ensures Keys(m)[i] == m[i].0
    {
      KeyAt(m, i);
    }
  }

  predicate Distinct<T(==)>(s: seq<T>) {
    forall i, j :: 0 <= i < j < |s| ==> s[i] != s[j]
  }

  /** A well-formed map has each key once, as every PHP array does. */
  predicate Wf<K(==), V>(m: OMap<K, V>) {
    Distinct(Keys(m))
  }

  /** `$m[$k]` when `isset`, else `None`. */
  function Get<K(==), V>(m: OMap<K, V>, k: K): (r: Option<V>)
    ensures r.Some? <==> k in Keys(m)
  {
    if |m| == 0 then None
    else if m[0].0 == k then Some(m[0].1)
    else Get(m[1..], k)
  }

  /** `$m[$k] = $v`: an existing key keeps its position, a new key is appended. */
  function Put<K(==,!new), V>(m: OMap<K, V>, k: K, v: V): (r: OMap<K, V>)
    ensures Get(r, k) == Some(v)
    ensures forall k' :: k' != k ==> Get(r, k') == Get(m, k')
    ensures Keys(r) == if k in Keys(m) then Keys(m) else Keys(m) + [k]
  {
    if |m| == 0 then [(k, v)]
    else if m[0].0 == k then
      Cons((k, v), m[1..]);
      Cons(m[0], m[1..]);
      [(k, v)] + m[1..]
    else
      var rest := Put(m[1..], k, v);
      PutBehind(m, k, v, rest);
      [m[0]] + rest
  }

  /** A map with a pair in front: its first pair, the rest and its keys. */
  lemma {:induction false} Cons<K, V>(x: (K, V), rest: OMap<K, V>)
    ensures ([x] + rest)[0] == x && ([x] + rest)[1..] == rest
    ensures Keys([x] + rest) == [x.0] + Keys(rest)
  {
  }

  /** Assigning behind a first pair with another key: what holds of the assignment to
      the rest holds of the whole with the first pair put back. */
  lemma {:induction false} PutBehind<K(!new), V>(m: OMap<K, V>, k: K, v: V, rest: OMap<K, V>)
    requires |m| > 0 && m[0].0 != k
    requires Get(rest, k) == Some(v)
    requires forall k' :: k' != k ==> Get(rest, k') == Get(m[1..], k')
    requires Keys(rest) == if k in Keys(m[1..]) then Keys(m[1..]) else Keys(m[1..]) + [k]
    ensures Get([m[0]] + rest, k) == Some(v)
    ensures forall k' :: k' != k ==> Get([m[0]] + rest, k') == Get(m, k')
    ensures Keys([m[0]] + rest) == if k in Keys(m) then Keys(m) else Keys(m) + [k]
  {
    Cons(m[0], m[1..]);
    Cons(m[0], rest);
    assert m == [m[0]] + m[1..];
    assert k in Keys(m) <==> k in Keys(m[1..]);
  }

  /** Assignment keeps every key unique. */
  lemma {:induction false} PutKeepsWf<K(!new), V>(m: OMap<K, V>, k: K, v: V)
    ensures Wf(m) ==> Wf(Put(m, k, v))
  {
  }

  /** `unset` keeps every key unique. */
  lemma {:induction false} RemoveKeepsWf<K(!new), V>(m: OMap<K, V>, k: K)
    ensures Wf(m) ==> Wf(Remove(m, k))
  {
  }

  /** `$m[$k] = $v` for each pair in order, so a later pair overwrites an earlier one. */
  function PutAll<K(==,!new), V>(m: OMap<K, V>, pairs: seq<(K, V)>): OMap<K, V>
    decreases |pairs|
  {
    if |pairs| == 0 then m else PutAll(Put(m, pairs[0].0, pairs[0].1), pairs[1..])
  }

  /** Assigning to a key the map already holds changes that pair's value in place. */
  lemma {:induction false} PutAt<K(!new), V>(m: OMap<K, V>, j: nat, v: V)
    requires j < |m|
    requires forall l :: 0 <= l < j ==> m[l].0 != m[j].0
    ensures Put(m, m[j].0, v) == m[j := (m[j].0, v)]
    decreases j
  {
    var k := m[j].0;
    if j == 0 {
      assert Put(m, k, v) == [(k, v)] + m[1..];
      UpdateAt(m, 0, (k, v));
    } else {
      var tail := m[1..];
      assert tail[j - 1] == m[j];
      PutAt(tail, j - 1, v);
      assert Put(m, k, v) == [m[0]] + Put(tail, k, v);
      UpdateAt(m, j, (k, v));
    }
  }

  /** Updating an element of a sequence, seen from its first element. */
  lemma {:induction false} UpdateAt<T>(s: seq<T>, j: nat, x: T)
    requires j < |s|
    ensures j == 0 ==> s[j := x] == [x] + s[1..]
    ensures j > 0 ==> s[j := x] == [s[0]] + s[1..][j - 1 := x]
  {
    var u := s[j := x];
    var w := if j == 0 then [x] + s[1..] else [s[0]] + s[1..][j - 1 := x];
    assert |u| == |w|;
    forall l | 0 <= l < |u|
      ensures u[l] == w[l]
    {
    }
  }

  /** Assigning, in order, to every key a well-formed map holds gives the new pairs:
      `pairs` are the map's keys with new values. */
  lemma {:induction false} PutAllInPlace<K(!new), V>(m: OMap<K, V>, pairs: seq<(K, V)>, i: nat)
    requires Wf(m) && |pairs| == |m| && i <= |m|
    requires forall k :: 0 <= k < |m| ==> pairs[k].0 == m[k].0
    ensures PutAll(pairs[..i] + m[i..], pairs[i..]) == pairs
    decreases |m| - i
  {
    if i == |m| {
      assert pairs[..i] + m[i..] == pairs;
    } else {
      PutInPlace(m, pairs, i);
      PutAllInPlace(m, pairs, i + 1);
      assert pairs[i..][1..] == pairs[i + 1..];
    }
  }

  /** One assignment of the series above. */
  lemma {:induction false} PutInPlace<K(!new), V>(m: OMap<K, V>, pairs: seq<(K, V)>, i: nat)
    requires Wf(m) && |pairs| == |m| && i < |m|
    requires forall k :: 0 <= k < |m| ==> pairs[k].0 == m[k].0
    ensures Put(pairs[..i] + m[i..], pairs[i].0, pairs[i].1) == pairs[..i + 1] + m[i + 1..]
  {
    var cur := pairs[..i] + m[i..];
    assert cur[i] == m[i];
    forall l | 0 <= l < i
      ensures cur[l].0 != cur[i].0
    {
      KeyAt(m, l);
      KeyAt(m, i);
      assert cur[l] == pairs[l];
    }
    PutAt(cur, i, pairs[i].1);
    assert (cur[i].0, pairs[i].1) == pairs[i];
    SpliceStep(pairs, m, i);
  }

  /** Taking one more element from `a` in front of the rest of `b`. */
  lemma {:induction false} SpliceStep<T>(a: seq<T>, b: seq<T>, i: nat)
    requires |a| == |b| && i < |b|
    ensures (a[..i] + b[i..])[i := a[i]] == a[..i + 1] + b[i + 1..]
  {
    var put, next := (a[..i] + b[i..])[i := a[i]], a[..i + 1] + b[i + 1..];
    assert |put| == |next|;
    forall l | 0 <= l < |next|
      ensures put[l] == next[l]
    {
    }
  }

  /** A series of assignments keeps every key unique. */
  lemma {:induction false} PutAllKeepsWf<K(!new), V>(m: OMap<K, V>, pairs: seq<(K, V)>)
    ensures Wf(m) ==> Wf(PutAll(m, pairs))
    decreases |pairs|
  {
    if |pairs| > 0 {
      PutKeepsWf(m, pairs[0].0, pairs[0].1);
      PutAllKeepsWf(Put(m, pairs[0].0, pairs[0].1), pairs[1..]);
    }
  }

  /** The sequence `s` with every occurrence of `x` left out, order kept. */
  function Without<T(==,!new)>(s: seq<T>, x: T): (r: seq<T>)
    ensures x !in r
    ensures forall y :: y in r <==> y in s && y != x
    ensures Distinct(s) ==> Distinct(r)
  {
    if |s| == 0 then []
    else if s[0] == x then Without(s[1..], x)
    else
      var rest := Without(s[1..], x);
      assert Distinct(s) ==> Distinct(s[1..]) && s[0] !in s[1..];
      [s[0]] + rest
  }

  /** `unset( $m[$k] )`: the key disappears, everything else stays in order. */
  function Remove<K(==,!new), V>(m: OMap<K, V>, k: K): (r: OMap<K, V>)
    ensures Get(r, k) == None
    ensures forall k' :: k' != k ==> Get(r, k') == Get(m, k')
    ensures Keys(r) == Without(Keys(m), k)
  {
    if |m| == 0 then []
    else if m[0].0 == k then Remove(m[1..], k)
    else
      var rest := Remove(m[1..], k);
      Cons(m[0], m[1..]);
      Cons(m[0], rest);
      [m[0]] + rest
  }

  /** The value of the last pair with key `k`, if any pair has it. */
  function LastValue<K(==), V>(pairs: seq<(K, V)>, k: K): (r: Option<V>)
    ensures r.Some? <==> k in Keys(pairs)
    ensures r.Some? ==> (k, r.value) in pairs
  {
    if |pairs| == 0 then None
    else
      Cons(pairs[0], pairs[1..]);
      assert pairs == [pairs[0]] + pairs[1..];
      var later := LastValue(pairs[1..], k);
      if later.Some? then later
      else if pairs[0].0 == k then Some(pairs[0].1)
      else None
  }

  /** `LastValue` picks the pair with key `k` that no later pair with key `k` follows. */
  lemma {:induction false} LastValueIsLast<K, V>(pairs: seq<(K, V)>, k: K, i: nat)
    requires i < |pairs| && pairs[i].0 == k
    requires forall j :: i < j < |pairs| ==> pairs[j].0 != k
    ensures LastValue(pairs, k) == Some(pairs[i].1)
    decreases i
  {
    var rest := pairs[1..];
    assert forall j :: 0 <= j < |rest| ==> rest[j] == pairs[j + 1];
    if i == 0 {
      KeysOf(rest);
      assert k !in Keys(rest);
    } else {
      LastValueIsLast(rest, k, i - 1);
    }
  }

  /** After a series of assignments a key holds the value of its LAST assignment, and
      a key never assigned keeps its old value. */
  lemma {:induction false} PutAllLastWins<K(!new), V>(m: OMap<K, V>, pairs: seq<(K, V)>, k: K)
    ensures Get(PutAll(m, pairs), k) == if k in Keys(pairs) then LastValue(pairs, k) else Get(m, k)
    decreases |pairs|
  {
    if |pairs| > 0 {
      Cons(pairs[0], pairs[1..]);
      assert pairs == [pairs[0]] + pairs[1..];
      PutAllLastWins(Put(m, pairs[0].0, pairs[0].1), pairs[1..], k);
    }
  }

  /** After a series of assignments the keys are the old ones and those assigned. */
  lemma {:induction false} PutAllKeys<K(!new), V>(m: OMap<K, V>, pairs: seq<(K, V)>, k: K)
    ensures k in Keys(PutAll(m, pairs)) <==> k in Keys(m) || k in Keys(pairs)
  {
    PutAllLastWins(m, pairs, k);
  }

  /** `array_unique`: the first occurrence of each value, in order. */
  function Unique<T(==,!new)>(s: seq<T>): (r: seq<T>)
    ensures Distinct(r)
    ensures forall x :: x in r <==> x in s
    ensures |r| <= |s|
  {
    if |s| == 0 then []
    else
      var u := Unique(s[..|s| - 1]);
      assert s == s[..|s| - 1] + [s[|s| - 1]];
      if s[|s| - 1] in u then u else u + [s[|s| - 1]]
  }

  /** Appending a value to the input adds it at the end of the output unless it was
      already there. */
  lemma {:induction false} UniqueSnoc<T(!new)>(s: seq<T>, x: T)
    ensures Unique(s + [x]) == if x in Unique(s) then Unique(s) else Unique(s) + [x]
  {
    assert (s + [x])[..|s + [x]| - 1] == s;
  }

  /** `ks` followed by each value of `xs` it does not hold yet, once, in order of first
      occurrence: the keys of an array after assigning to the keys `xs` in turn. */
  function AppendNew<T(==,!new)>(ks: seq<T>, xs: seq<T>): (r: seq<T>)
    ensures Distinct(ks) ==> Distinct(r)
    ensures forall x :: x in r <==> x in ks || x in xs
    ensures |ks| <= |r| && r[..|ks|] == ks
    decreases |xs|
  {
    if |xs| == 0 then ks
    else
      var ks' := if xs[0] in ks then ks else ks + [xs[0]];
      var r := AppendNew(ks', xs[1..]);
      assert r[..|ks|] == r[..|ks'|][..|ks|];
      r
  }

  lemma {:induction false} AppendNewConcat<T(!new)>(ks: seq<T>, a: seq<T>, b: seq<T>)
    ensures AppendNew(ks, a + b) == AppendNew(AppendNew(ks, a), b)
    decreases |a|
  {
    if |a| == 0 {
      assert a + b == b;
    } else {
      var ks' := if a[0] in ks then ks else ks + [a[0]];
      assert (a + b)[0] == a[0] && (a + b)[1..] == a[1..] + b;
      AppendNewConcat(ks', a[1..], b);
    }
  }

  /** `array_unique` keeps the first occurrences exactly as successive assignments
      collect keys. */
  lemma {:induction false} UniqueIsAppendNew<T(!new)>(s: seq<T>)
    ensures Unique(s) == AppendNew([], s)
    decreases |s|
  {
    if |s| > 0 {
      var init := s[..|s| - 1];
      var x := s[|s| - 1];
      var u := AppendNew([], init);
      assert s == init + [x];
      calc {
        Unique(s);
        { UniqueSnoc(init, x); }
        if x in Unique(init) then Unique(init) else Unique(init) + [x];
        { UniqueIsAppendNew(init); }
        if x in u then u else u + [x];
        { AppendNewOne(u, x); }
        AppendNew(u, [x]);
        { AppendNewConcat([], init, [x]); }
        AppendNew([], s);
      }
    }
  }

  lemma {:induction false} AppendNewOne<T(!new)>(ks: seq<T>, x: T)
    ensures AppendNew(ks, [x]) == if x in ks then ks else ks + [x]
  {
    assert [x][1..] == [];
  }

  /** The elements of `xs` that occur in `ys`, in the order of `xs`. */
  function KeepIn<T(==,!new)>(xs: seq<T>, ys: seq<T>): (r: seq<T>)
    ensures forall x :: x in r <==> x in xs && x in ys
    ensures Distinct(xs) ==> Distinct(r)
    ensures |r| <= |xs|
  {
    if |xs| == 0 then []
    else
      var rest := KeepIn(xs[1..], ys);
      assert Distinct(xs) ==> Distinct(xs[1..]) && xs[0] !in xs[1..];
      assert forall x :: x in xs <==> x == xs[0] || x in xs[1..];
      if xs[0] in ys then [xs[0]] + rest else rest
  }

  /** The elements of `xs` that do not occur in `ys`, in the order of `xs`. */
  function KeepOut<T(==,!new)>(xs: seq<T>, ys: seq<T>): (r: seq<T>)
    ensures forall x :: x in r <==> x in xs && x !in ys
    ensures Distinct(xs) ==> Distinct(r)
    ensures |r| <= |xs|
  {
    if |xs| == 0 then []
    else
      var rest := KeepOut(xs[1..], ys);
      assert Distinct(xs) ==> Distinct(xs[1..]) && xs[0] !in xs[1..];
      assert forall x :: x in xs <==> x == xs[0] || x in xs[1..];
      if xs[0] !in ys then [xs[0]] + rest else rest
  }

  /** Only the membership of `xs`'s own elements matters to the filters. */
  lemma {:induction false} FiltersAgree<T(!new)>(xs: seq<T>, ys: seq<T>, zs: seq<T>)
    requires forall x :: x in xs ==> (x in ys <==> x in zs)
    ensures KeepIn(xs, ys) == KeepIn(xs, zs)
    ensures KeepOut(xs, ys) == KeepOut(xs, zs)
    decreases |xs|
  {
    if |xs| > 0 {
      assert forall x :: x in xs[1..] ==> x in xs;
      FiltersAgree(xs[1..], ys, zs);
    }
  }

  /** Leaving out one value and then a list is leaving out both at once. */
  lemma {:induction false} KeepOutWithout<T(!new)>(xs: seq<T>, p: T, ys: seq<T>)
    ensures KeepOut(Without(xs, p), ys) == KeepOut(xs, [p] + ys)
    decreases |xs|
  {
    if |xs| > 0 {
      KeepOutWithout(xs[1..], p, ys);
    }
  }

  /** Two distinct sequences with no common element concatenate to a distinct one. */
  lemma {:induction false} DistinctConcat<T>(a: seq<T>, b: seq<T>)
    requires Distinct(a) && Distinct(b)
    requires forall x :: x in a ==> x !in b
    ensures Distinct(a + b)
  {
    forall i, j | 0 <= i < j < |a + b|
      ensures (a + b)[i] != (a + b)[j]
    {
      if j >= |a| && i < |a| {
        assert (a + b)[i] in a;
        assert (a + b)[j] == b[j - |a|];
      }
    }
  }
}

=== FILE: prioritize.dfy ===
/** Plugin discovery and the one-level dependency prioritisation of `generate_blueprint`:
    which active plugins get an installPlugin step, which are recorded as ignored, and
    in what order the steps come out. */
module Prioritize {
  import opened Wrappers
  import opened Text
  import opened OrderedMap
  import opened Manifest
  import opened Resolver

  /** The header fields read with `get_plugin_data`; `requiresPlugins` is `None` when the
      header is absent. */
  datatype PluginHeader = PluginHeader(name: string, requiresPlugins: Option<string>)

  /** What discovery depends on: the ignore list, the `ignore_all_plugins` flag, the
      plugin headers (by plugin file) and the classification of each slug by the plugin
      directory (`PluginLookup` of the directory's answers in the plugin itself). */
  datatype Request = Request(
    ignore: seq<string>,
    ignoreAll: bool,
    header: string -> PluginHeader,
    lookup: string -> Option<Locator>)

  /** A resolvable plugin: where it is fetched from and its display name. */
  datatype Found = Found(resource: Locator, name: string)

  /** The loop state: `$plugin_steps`, `$dependent_upon`, `$this->ignored_plugins` and
      the resource transient. */
  datatype Discovery = Discovery(
    found: OMap<string, Found>,
    dependentUpon: OMap<string, seq<string>>,
    ignoredPlugins: seq<string>,
    cache: PluginCache)

  predicate Skipped(rq: Request, slug: string) {
    slug in rq.ignore || rq.ignoreAll
  }

  /** `isset( … ) && ! empty( … )`; PHP's `empty` also holds of the string "0". */
  predicate HasRequirements(h: PluginHeader) {
    h.requiresPlugins.Some? && h.requiresPlugins.value != "" && h.requiresPlugins.value != "0"
  }

  /** The required slugs: the header split on commas, pieces NOT trimmed. */
  function Requirements(h: PluginHeader): (r: seq<string>)
    ensures HasRequirements(h) <==> |r| > 0
  {
    if HasRequirements(h) then Explode(",", h.requiresPlugins.value) else []
  }

  /** The header `a, b` requires `a` and ` b` (with its space), which matches no slug
      of that name. */
  lemma {:induction false} RequirementsNotTrimmed()
    ensures Requirements(PluginHeader("P", Some("a, b"))) == ["a", " b"]
  {
    ExplodeAtDelimiter(',', "a", " b");
    ExplodeNoDelimiter(',', " b");
    assert "a" + [','] + " b" == "a, b";
  }

  /** `$dependent_upon[ $dependent ][] = $slug` for each required slug in turn. */
  function AddDependent(deps: OMap<string, seq<string>>, required: seq<string>, slug: string)
    : (r: OMap<string, seq<string>>)
    ensures Wf(deps) ==> Wf(r)
    decreases |required|
  {
    if |required| == 0 then deps
    else
      var k := required[0];
      var ds := Get(deps, k).GetOr([]) + [slug];
      PutKeepsWf(deps, k, ds);
      AddDependent(Put(deps, k, ds), required[1..], slug)
  }

  /** The keys of `$dependent_upon` gain the required slugs not already there, in order
      of first mention. */
  lemma {:induction false} AddDependentKeys(deps: OMap<string, seq<string>>, required: seq<string>, slug: string)
    ensures Keys(AddDependent(deps, required, slug)) == AppendNew(Keys(deps), required)
    decreases |required|
  {
    if |required| > 0 {
      var k := required[0];
      AddDependentKeys(Put(deps, k, Get(deps, k).GetOr([]) + [slug]), required[1..], slug);
    }
  }

  /** One pass of the discovery loop for the plugin file `plugin`. */
  function DiscoverOne(rq: Request, plugin: string, st: Discovery): (r: Discovery)
    ensures Wf(st.found) ==> Wf(r.found)
    ensures Wf(st.dependentUpon) ==> Wf(r.dependentUpon)
  {
    var slug := SlugOf(plugin);
    if Skipped(rq, slug) then st
    else
      var (res, cache) := Resource(st.cache, slug, rq.lookup);
      match res
      case None => st.(ignoredPlugins := st.ignoredPlugins + [slug], cache := cache)
      case Some(loc) =>
        var h := rq.header(plugin);
        PutKeepsWf(st.found, slug, Found(loc, h.name));
        Discovery(Put(st.found, slug, Found(loc, h.name)),
                  AddDependent(st.dependentUpon, Requirements(h), slug),
                  st.ignoredPlugins, cache)
  }

  /** The discovery loop over the active plugins, in order. */
  function Discover(rq: Request, plugins: seq<string>, st: Discovery): (r: Discovery)
    ensures Wf(st.found) ==> Wf(r.found)
    ensures Wf(st.dependentUpon) ==> Wf(r.dependentUpon)
    decreases |plugins|
  {
    if |plugins| == 0 then st else Discover(rq, plugins[1..], DiscoverOne(rq, plugins[0], st))
  }

  // ---------------------------------------------------------------------------
  // What discovery computes, stated against a reference definition.

  /** The memoised answer for `slug` given the transient as it stood before the run. */
  function Resolve(cache0: PluginCache, lookup: string -> Option<Locator>, slug: string): Option<Locator> {
    if slug in cache0 then cache0[slug] else lookup(slug)
  }

  /** Every cached answer is the one `Resolve` gives. */
  ghost predicate CacheAgrees(cache0: PluginCache, lookup: string -> Option<Locator>, cache: PluginCache) {
    cache0.Keys <= cache.Keys && forall s :: s in cache ==> cache[s] == Resolve(cache0, lookup, s)
  }

  /** Every found plugin is fetched from the place `Resolve` gives. */
  ghost predicate FoundAgrees(cache0: PluginCache, lookup: string -> Option<Locator>, found: OMap<string, Found>) {
    forall s :: Get(found, s).Some? ==> Resolve(cache0, lookup, s) == Some(Get(found, s).value.resource)
  }

  /** `slug` is the slug of some plugin that is not skipped and resolves. */
  ghost predicate Resolvable(rq: Request, cache0: PluginCache, plugins: seq<string>, slug: string) {
    exists i :: 0 <= i < |plugins| && SlugOf(plugins[i]) == slug && !Skipped(rq, slug)
                && Resolve(cache0, rq.lookup, slug).Some?
  }

  /** The plugin's slug when it is not skipped and does not resolve. */
  function UnresolvedOf(rq: Request, cache0: PluginCache, plugin: string): seq<string> {
    var slug := SlugOf(plugin);
    if !Skipped(rq, slug) && Resolve(cache0, rq.lookup, slug).None? then [slug] else []
  }

  /** The slugs of the plugins that are not skipped and do not resolve, in order. */
  function Unresolved(rq: Request, cache0: PluginCache, plugins: seq<string>): seq<string> {
    if |plugins| == 0 then []
    else UnresolvedOf(rq, cache0, plugins[0]) + Unresolved(rq, cache0, plugins[1..])
  }

  /** A slug is reported unresolved exactly when some plugin has it, it is not
      skipped and it does not resolve. */
  lemma {:induction false} UnresolvedMembers(rq: Request, cache0: PluginCache, plugins: seq<string>, s: string)
    ensures s in Unresolved(rq, cache0, plugins)
            <==> (exists i :: 0 <= i < |plugins| && SlugOf(plugins[i]) == s)
                 && !Skipped(rq, s) && Resolve(cache0, rq.lookup, s).None?
    decreases |plugins|
  {
    if |plugins| > 0 {
      UnresolvedMembers(rq, cache0, plugins[1..], s);
      if exists i :: 0 <= i < |plugins| && SlugOf(plugins[i]) == s {
        var i :| 0 <= i < |plugins| && SlugOf(plugins[i]) == s;
        if i > 0 {
          assert SlugOf(plugins[1..][i - 1]) == s;
        }
      }
      if exists i :: 0 <= i < |plugins[1..]| && SlugOf(plugins[1..][i]) == s {
        var i :| 0 <= i < |plugins[1..]| && SlugOf(plugins[1..][i]) == s;
        assert SlugOf(plugins[i + 1]) == s;
      }
    }
  }

  /** The slugs the plugin requires when it is not skipped and resolves. */
  function RequirementsOf(rq: Request, cache0: PluginCache, plugin: string): seq<string> {
    var slug := SlugOf(plugin);
    if !Skipped(rq, slug) && Resolve(cache0, rq.lookup, slug).Some? then Requirements(rq.header(plugin)) else []
  }

  /** Every required slug named by a plugin that is not skipped and resolves, in order. */
  function AllRequirements(rq: Request, cache0: PluginCache, plugins: seq<string>): seq<string> {
    if |plugins| == 0 then []
    else RequirementsOf(rq, cache0, plugins[0]) + AllRequirements(rq, cache0, plugins[1..])
  }

  /** The lookup answers as `Resolve` says, and the cache keeps agreeing. */
  lemma {:induction false} ResourceAgrees(cache0: PluginCache, lookup: string -> Option<Locator>, cache: PluginCache, slug: string)
    requires CacheAgrees(cache0, lookup, cache)
    ensures Resource(cache, slug, lookup).0 == Resolve(cache0, lookup, slug)
    ensures CacheAgrees(cache0, lookup, Resource(cache, slug, lookup).1)
  {
  }

  /** A single plugin makes its own slug resolvable, when it is not skipped and
      resolves, and no other. */
  lemma {:induction false} SingleReference(rq: Request, cache0: PluginCache, plugin: string)
    ensures var slug := SlugOf(plugin);
      forall k :: Resolvable(rq, cache0, [plugin], k)
                  <==> k == slug && !Skipped(rq, slug) && Resolve(cache0, rq.lookup, slug).Some?
  {
    assert [plugin][0] == plugin;
  }

  /** One pass keeps the cache and the found steps agreeing with `Resolve`. */
  lemma {:induction false} DiscoverOneAgrees(rq: Request, cache0: PluginCache, plugin: string, st: Discovery)
    requires CacheAgrees(cache0, rq.lookup, st.cache)
    ensures var r := DiscoverOne(rq, plugin, st);
      CacheAgrees(cache0, rq.lookup, r.cache)
      && (FoundAgrees(cache0, rq.lookup, st.found) ==> FoundAgrees(cache0, rq.lookup, r.found))
  {
    var slug := SlugOf(plugin);
    if !Skipped(rq, slug) {
      ResourceAgrees(cache0, rq.lookup, st.cache, slug);
    }
  }

  /** One pass adds its slug to the found steps exactly when it resolves. */
  lemma {:induction false} DiscoverOneFound(rq: Request, cache0: PluginCache, plugin: string, st: Discovery)
    requires CacheAgrees(cache0, rq.lookup, st.cache)
    ensures var r := DiscoverOne(rq, plugin, st);
      forall k :: k in Keys(r.found) <==> k in Keys(st.found) || Resolvable(rq, cache0, [plugin], k)
  {
    SingleReference(rq, cache0, plugin);
    var slug := SlugOf(plugin);
    var r := DiscoverOne(rq, plugin, st);
    if !Skipped(rq, slug) {
      ResourceAgrees(cache0, rq.lookup, st.cache, slug);
      var res := Resource(st.cache, slug, rq.lookup).0;
      if res.Some? {
        assert r.found == Put(st.found, slug, Found(res.value, rq.header(plugin).name));
        assert Keys(r.found) == if slug in Keys(st.found) then Keys(st.found) else Keys(st.found) + [slug];
      } else {
        assert r.found == st.found;
      }
    }
  }

  /** One pass appends its slug to the ignored list exactly when it does not resolve. */
  lemma {:induction false} DiscoverOneIgnored(rq: Request, cache0: PluginCache, plugin: string, st: Discovery)
    requires CacheAgrees(cache0, rq.lookup, st.cache)
    ensures DiscoverOne(rq, plugin, st).ignoredPlugins == st.ignoredPlugins + UnresolvedOf(rq, cache0, plugin)
  {
    var slug := SlugOf(plugin);
    if !Skipped(rq, slug) {
      ResourceAgrees(cache0, rq.lookup, st.cache, slug);
    } else {
      assert st.ignoredPlugins + [] == st.ignoredPlugins;
    }
  }

  /** One pass keys the slugs its plugin requires, when it resolves. */
  lemma {:induction false} DiscoverOneDeps(rq: Request, cache0: PluginCache, plugin: string, st: Discovery)
    requires CacheAgrees(cache0, rq.lookup, st.cache)
    ensures Keys(DiscoverOne(rq, plugin, st).dependentUpon)
            == AppendNew(Keys(st.dependentUpon), RequirementsOf(rq, cache0, plugin))
  {
    var slug := SlugOf(plugin);
    if !Skipped(rq, slug) {
      ResourceAgrees(cache0, rq.lookup, st.cache, slug);
      AddDependentKeys(st.dependentUpon, Requirements(rq.header(plugin)), slug);
    }
  }

  /** The whole loop keeps the cache and the found steps agreeing with `Resolve`. */
  lemma {:induction false} DiscoverAgrees(rq: Request, cache0: PluginCache, plugins: seq<string>, st: Discovery)
    requires CacheAgrees(cache0, rq.lookup, st.cache)
    ensures var r := Discover(rq, plugins, st);
      CacheAgrees(cache0, rq.lookup, r.cache)
      && (FoundAgrees(cache0, rq.lookup, st.found) ==> FoundAgrees(cache0, rq.lookup, r.found))
    decreases |plugins|
  {
    if |plugins| > 0 {
      DiscoverOneAgrees(rq, cache0, plugins[0], st);
      DiscoverAgrees(rq, cache0, plugins[1..], DiscoverOne(rq, plugins[0], st));
    }
  }

  /** The found slugs are those found before plus exactly the resolvable ones. */
  lemma {:induction false} DiscoverFound(rq: Request, cache0: PluginCache, plugins: seq<string>, st: Discovery)
    requires CacheAgrees(cache0, rq.lookup, st.cache)
    ensures var r := Discover(rq, plugins, st);
      forall k :: k in Keys(r.found) <==> k in Keys(st.found) || Resolvable(rq, cache0, plugins, k)
    decreases |plugins|
  {
    if |plugins| > 0 {
      var st1 := DiscoverOne(rq, plugins[0], st);
      DiscoverOneAgrees(rq, cache0, plugins[0], st);
      DiscoverOneFound(rq, cache0, plugins[0], st);
      DiscoverFound(rq, cache0, plugins[1..], st1);
      forall k
        ensures Resolvable(rq, cache0, plugins, k) <==>
                Resolvable(rq, cache0, [plugins[0]], k) || Resolvable(rq, cache0, plugins[1..], k)
      {
        ResolvableSplit(rq, cache0, plugins, k);
      }
    } else {
      forall k ensures !Resolvable(rq, cache0, plugins, k) { }
    }
  }

  /** The unresolvable slugs are appended to the ignored list, in order. */
  lemma {:induction false} DiscoverIgnored(rq: Request, cache0: PluginCache, plugins: seq<string>, st: Discovery)
    requires CacheAgrees(cache0, rq.lookup, st.cache)
    ensures Discover(rq, plugins, st).ignoredPlugins == st.ignoredPlugins + Unresolved(rq, cache0, plugins)
    decreases |plugins|
  {
    if |plugins| == 0 {
      assert st.ignoredPlugins + [] == st.ignoredPlugins;
    } else {
      var st1 := DiscoverOne(rq, plugins[0], st);
      var u0 := UnresolvedOf(rq, cache0, plugins[0]);
      var u1 := Unresolved(rq, cache0, plugins[1..]);
      assert st1.ignoredPlugins == st.ignoredPlugins + u0 by {
        DiscoverOneIgnored(rq, cache0, plugins[0], st);
      }
      assert Discover(rq, plugins, st).ignoredPlugins == st1.ignoredPlugins + u1 by {
        DiscoverOneAgrees(rq, cache0, plugins[0], st);
        DiscoverIgnored(rq, cache0, plugins[1..], st1);
      }
      assert st.ignoredPlugins + u0 + u1 == st.ignoredPlugins + (u0 + u1);
    }
  }

  /** The required slugs are keyed in order of first mention. */
  lemma {:induction false} DiscoverDeps(rq: Request, cache0: PluginCache, plugins: seq<string>, st: Discovery)
    requires CacheAgrees(cache0, rq.lookup, st.cache)
    ensures Keys(Discover(rq, plugins, st).dependentUpon)
            == AppendNew(Keys(st.dependentUpon), AllRequirements(rq, cache0, plugins))
    decreases |plugins|
  {
    if |plugins| > 0 {
      var st1 := DiscoverOne(rq, plugins[0], st);
      var a0 := RequirementsOf(rq, cache0, plugins[0]);
      var a1 := AllRequirements(rq, cache0, plugins[1..]);
      assert Keys(st1.dependentUpon) == AppendNew(Keys(st.dependentUpon), a0) by {
        DiscoverOneDeps(rq, cache0, plugins[0], st);
      }
      assert Keys(Discover(rq, plugins, st).dependentUpon) == AppendNew(Keys(st1.dependentUpon), a1) by {
        DiscoverOneAgrees(rq, cache0, plugins[0], st);
        DiscoverDeps(rq, cache0, plugins[1..], st1);
      }
      assert AppendNew(AppendNew(Keys(st.dependentUpon), a0), a1) == AppendNew(Keys(st.dependentUpon), a0 + a1) by {
        AppendNewConcat(Keys(st.dependentUpon), a0, a1);
      }
    }
  }

  lemma {:induction false} ResolvableSplit(rq: Request, cache0: PluginCache, plugins: seq<string>, k: string)
    requires |plugins| > 0
    ensures Resolvable(rq, cache0, plugins, k) <==>
            Resolvable(rq, cache0, [plugins[0]], k) || Resolvable(rq, cache0, plugins[1..], k)
  {
    if Resolvable(rq, cache0, plugins, k) {
      var i :| 0 <= i < |plugins| && SlugOf(plugins[i]) == k && !Skipped(rq, k)
               && Resolve(cache0, rq.lookup, k).Some?;
      if i == 0 {
        assert [plugins[0]][0] == plugins[i];
      } else {
        assert plugins[1..][i - 1] == plugins[i];
      }
    }
    if Resolvable(rq, cache0, plugins[1..], k) {
      var i :| 0 <= i < |plugins[1..]| && SlugOf(plugins[1..][i]) == k && !Skipped(rq, k)
               && Resolve(cache0, rq.lookup, k).Some?;
      assert plugins[i + 1] == plugins[1..][i];
    }
    if Resolvable(rq, cache0, [plugins[0]], k) {
      assert [plugins[0]][0] == plugins[0];
    }
  }

  /** With `ignore_all_plugins` nothing is found and nothing is recorded. */
  lemma {:induction false} IgnoreAllFindsNothing(rq: Request, plugins: seq<string>, st: Discovery)
    requires rq.ignoreAll
    ensures Discover(rq, plugins, st) == st
    decreases |plugins|
  {
    if |plugins| > 0 {
      IgnoreAllFindsNothing(rq, plugins[1..], st);
    }
  }

  // ---------------------------------------------------------------------------
  // Prioritisation.

  /** An installPlugin step before its editor-only fields are stripped. */
  datatype Entry = Entry(slug: string, resource: Locator, name: string, info: string)

  function Slugs(es: seq<Entry>): (r: seq<string>)
    ensures |r| == |es|
    ensures forall i :: 0 <= i < |es| ==> r[i] == es[i].slug
  {
    if |es| == 0 then [] else [es[0].slug] + Slugs(es[1..])
  }

  /** `$plugin_steps[ $dependent ]['name']`: the empty string once the step has left. */
  function NameOf(found: OMap<string, Found>, slug: string): string {
    match Get(found, slug)
    case None => ""
    case Some(f) => f.name
  }

  function NamesOf(found: OMap<string, Found>, slugs: seq<string>): (r: seq<string>)
    ensures |r| == |slugs|
    ensures forall i :: 0 <= i < |slugs| ==> r[i] == NameOf(found, slugs[i])
  {
    if |slugs| == 0 then [] else [NameOf(found, slugs[0])] + NamesOf(found, slugs[1..])
  }

  const PriorityPrefix: string := " (prioritized because of "

  function PriorityInfo(names: seq<string>): (r: string)
    ensures StartsWith(r, PriorityPrefix)
  {
    var r := PriorityPrefix + Implode(", ", names) + ")";
    assert r[..|PriorityPrefix|] == PriorityPrefix;
    r
  }

  /** The loop over `$dependent_upon`: each required slug that still has a step is
      emitted with its info filled in and removed from the remaining steps. */
  function Prioritized(found: OMap<string, Found>, deps: OMap<string, seq<string>>)
    : (r: (seq<Entry>, OMap<string, Found>))
    ensures Wf(found) ==> Wf(r.1)
    decreases |deps|
  {
    if |deps| == 0 then ([], found)
    else
      var (p, dependents) := deps[0];
      match Get(found, p)
      case None => Prioritized(found, deps[1..])
      case Some(f) =>
        var e := Entry(p, f.resource, f.name, PriorityInfo(NamesOf(found, dependents)));
        RemoveKeepsWf(found, p);
        var rest := Prioritized(Remove(found, p), deps[1..]);
        ([e] + rest.0, rest.1)
  }

  /** The steps left over, in discovery order, with an empty info. */
  function Remaining(left: OMap<string, Found>): (r: seq<Entry>)
    ensures Slugs(r) == Keys(left)
    ensures forall i :: 0 <= i < |r| ==> r[i].info == "" && left[i] == (r[i].slug, Found(r[i].resource, r[i].name))
  {
    if |left| == 0 then []
    else
      var rest := Remaining(left[1..]);
      var r := [Entry(left[0].0, left[0].1.resource, left[0].1.name, "")] + rest;
      assert Slugs(r) == [left[0].0] + Slugs(rest);
      r
  }

  /** All installPlugin steps: the prioritised ones, then the rest. */
  function PluginEntries(found: OMap<string, Found>, deps: OMap<string, seq<string>>): seq<Entry> {
    var (pri, left) := Prioritized(found, deps);
    pri + Remaining(left)
  }

  /** The step as it appears in the generated blueprint. */
  function ToStep(e: Entry): (s: Step)
    ensures s.InstallPlugin? && s.meta.Some? && s.meta.value.slug == e.slug
  {
    InstallPlugin(e.resource, Some(PluginLabel(e.name, e.slug, e.info)))
  }

  lemma {:induction false} KeysCons<V>(m: OMap<string, V>)
    requires |m| > 0
    ensures Keys(m) == [m[0].0] + Keys(m[1..])
    ensures Wf(m) ==> Wf(m[1..]) && m[0].0 !in Keys(m[1..])
  {
    var ks, tail := Keys(m), Keys(m[1..]);
    assert ks == [m[0].0] + tail;
    if Wf(m) {
      assert forall i :: 0 <= i < |tail| ==> tail[i] == ks[i + 1];
      assert forall i :: 0 <= i < |tail| ==> tail[i] != ks[0];
    }
  }

  lemma {:induction false} SlugsAppend(a: seq<Entry>, b: seq<Entry>)
    ensures Slugs(a + b) == Slugs(a) + Slugs(b)
  {
    var l, r := Slugs(a + b), Slugs(a) + Slugs(b);
    assert |l| == |r|;
    forall i | 0 <= i < |l|
      ensures l[i] == r[i]
    {
      if i < |a| {
        assert (a + b)[i] == a[i];
      } else {
        assert (a + b)[i] == b[i - |a|];
      }
    }
  }

  /** The prioritised steps are the required slugs that have a step, in the order they
      were first required. */
  lemma {:induction false} PrioritizedSlugs(found: OMap<string, Found>, deps: OMap<string, seq<string>>)
    requires Wf(deps)
    ensures Slugs(Prioritized(found, deps).0) == KeepIn(Keys(deps), Keys(found))
    decreases |deps|
  {
    if |deps| > 0 {
      var (p, dependents) := deps[0];
      KeysCons(deps);
      var tail := Keys(deps[1..]);
      match Get(found, p)
      case None =>
        PrioritizedSlugs(found, deps[1..]);
      case Some(f) =>
        var found' := Remove(found, p);
        PrioritizedSlugs(found', deps[1..]);
        assert forall x :: x in tail ==> (x in Keys(found') <==> x in Keys(found));
        FiltersAgree(tail, Keys(found'), Keys(found));
        var rest := Prioritized(found', deps[1..]);
        var e := Entry(p, f.resource, f.name, PriorityInfo(NamesOf(found, dependents)));
        assert Slugs([e] + rest.0) == [p] + Slugs(rest.0);
    }
  }

  /** The steps left over are the others, in discovery order, their values untouched. */
  lemma {:induction false} PrioritizedLeft(found: OMap<string, Found>, deps: OMap<string, seq<string>>)
    requires Wf(deps)
    ensures var left := Prioritized(found, deps).1;
      && Keys(left) == KeepOut(Keys(found), Keys(deps))
      && (forall k :: k !in Keys(deps) ==> Get(left, k) == Get(found, k))
    decreases |deps|
  {
    if |deps| == 0 {
      KeepOutNone(Keys(found));
    } else {
      var (p, dependents) := deps[0];
      KeysCons(deps);
      var tail := Keys(deps[1..]);
      match Get(found, p)
      case None =>
        PrioritizedLeft(found, deps[1..]);
        FiltersAgree(Keys(found), tail, Keys(deps));
      case Some(f) =>
        PrioritizedLeft(Remove(found, p), deps[1..]);
        KeepOutWithout(Keys(found), p, tail);
    }
  }

  /** Every entry is the step discovered for its slug. */
  predicate FromFound(found: OMap<string, Found>, es: seq<Entry>) {
    forall i :: 0 <= i < |es| ==> Get(found, es[i].slug) == Some(Found(es[i].resource, es[i].name))
  }

  /** Every prioritised step is the one discovered for its slug, marked as prioritised. */
  lemma {:induction false} PrioritizedFromFound(found: OMap<string, Found>, deps: OMap<string, seq<string>>)
    ensures FromFound(found, Prioritized(found, deps).0)
    ensures forall e :: e in Prioritized(found, deps).0 ==> StartsWith(e.info, PriorityPrefix)
    decreases |deps|
  {
    if |deps| > 0 {
      var (p, dependents) := deps[0];
      match Get(found, p)
      case None =>
        PrioritizedFromFound(found, deps[1..]);
      case Some(f) =>
        var found' := Remove(found, p);
        PrioritizedFromFound(found', deps[1..]);
        var rest := Prioritized(found', deps[1..]).0;
        forall i | 0 <= i < |rest|
          ensures Get(found, rest[i].slug) == Some(Found(rest[i].resource, rest[i].name))
        {
          assert Get(found', rest[i].slug) == Some(Found(rest[i].resource, rest[i].name));
        }
    }
  }

  /** The required slugs listed in `$dependent_upon` before `p`. */
  function KeysBefore(deps: OMap<string, seq<string>>, p: string): (r: seq<string>)
    ensures p !in r
    ensures forall s :: s in r ==> s in Keys(deps)
  {
    if |deps| == 0 || deps[0].0 == p then []
    else
      KeysCons(deps);
      [deps[0].0] + KeysBefore(deps[1..], p)
  }

  /** The names of `slugs` once the steps of `gone` have left: those, and slugs that
      never had a step, give the empty name. */
  function NamesAfter(found: OMap<string, Found>, gone: seq<string>, slugs: seq<string>): (r: seq<string>)
    ensures |r| == |slugs|
    ensures forall i :: 0 <= i < |slugs| ==> r[i] == if slugs[i] in gone then "" else NameOf(found, slugs[i])
  {
    if |slugs| == 0 then []
    else [if slugs[0] in gone then "" else NameOf(found, slugs[0])] + NamesAfter(found, gone, slugs[1..])
  }

  /** `$plugin_steps` as a round finds it: the discovered steps without those of `gone`. */
  ghost predicate StepsWithout(cur: OMap<string, Found>, found: OMap<string, Found>, gone: seq<string>) {
    forall s :: Get(cur, s) == if s in gone then None else Get(found, s)
  }

  /** The entry's info names, in order, the plugins requiring its slug, with the steps
      of `gone` and of the slugs required earlier already moved out. */
  ghost predicate InfoAfter(found: OMap<string, Found>, gone: seq<string>, deps: OMap<string, seq<string>>, e: Entry) {
    && Get(deps, e.slug).Some?
    && e.info == PriorityPrefix
         + Implode(", ", NamesAfter(found, gone + KeysBefore(deps, e.slug), Get(deps, e.slug).value)) + ")"
  }

  /** An entry of a later round, seen from the round before. */
  lemma {:induction false} InfoAfterShift(found: OMap<string, Found>, gone: seq<string>,
                                          deps: OMap<string, seq<string>>, e: Entry)
    requires |deps| > 0 && Wf(deps)
    requires InfoAfter(found, gone + [deps[0].0], deps[1..], e)
    ensures InfoAfter(found, gone, deps, e)
  {
    KeysCons(deps);
    assert e.slug in Keys(deps[1..]);
    assert Get(deps, e.slug) == Get(deps[1..], e.slug);
    assert KeysBefore(deps, e.slug) == [deps[0].0] + KeysBefore(deps[1..], e.slug);
    assert gone + KeysBefore(deps, e.slug) == gone + [deps[0].0] + KeysBefore(deps[1..], e.slug);
  }

  /** The info of each prioritised step, by induction over the rounds. */
  lemma {:induction false} PrioritizedInfoFrom(found: OMap<string, Found>, cur: OMap<string, Found>,
                                               gone: seq<string>, deps: OMap<string, seq<string>>)
    requires Wf(deps) && StepsWithout(cur, found, gone)
    ensures var pri := Prioritized(cur, deps).0;
      forall i :: 0 <= i < |pri| ==> InfoAfter(found, gone, deps, pri[i])
    decreases |deps|
  {
    if |deps| > 0 {
      var (p, ds) := deps[0];
      KeysCons(deps);
      var tail := deps[1..];
      var rest := if Get(cur, p).None? then cur else Remove(cur, p);
      assert StepsWithout(rest, found, gone + [p]);
      PrioritizedInfoFrom(found, rest, gone + [p], tail);
      assert var pri := Prioritized(rest, tail).0;
        forall i :: 0 <= i < |pri| ==> InfoAfter(found, gone + [p], tail, pri[i]);
      var later := Prioritized(rest, tail).0;
      forall i | 0 <= i < |later|
        ensures InfoAfter(found, gone, deps, later[i])
      {
        InfoAfterShift(found, gone, deps, later[i]);
      }
      match Get(cur, p)
      case None =>
        assert Prioritized(cur, deps).0 == later;
      case Some(f) =>
        var e := Entry(p, f.resource, f.name, PriorityInfo(NamesOf(cur, ds)));
        HeadInfoAfter(found, cur, gone, deps, e);
        assert Prioritized(cur, deps).0 == [e] + later;
    }
  }

  /** The entry of a round's first required slug. */
  lemma {:induction false} HeadInfoAfter(found: OMap<string, Found>, cur: OMap<string, Found>,
                                         gone: seq<string>, deps: OMap<string, seq<string>>, e: Entry)
    requires |deps| > 0 && StepsWithout(cur, found, gone)
    requires e.slug == deps[0].0 && e.info == PriorityInfo(NamesOf(cur, deps[0].1))
    ensures InfoAfter(found, gone, deps, e)
  {
    var (p, ds) := deps[0];
    assert NamesOf(cur, ds) == NamesAfter(found, gone + KeysBefore(deps, p), ds) by {
      assert KeysBefore(deps, p) == [];
      assert gone + [] == gone;
    }
  }

  /** The info of every installPlugin step. A slug some plugin requires names the
      plugins requiring it, joined by `, ` in the order they required it; a requiring
      plugin whose step was prioritised in an earlier round, or that has no step,
      contributes an empty name. Every other step has an empty info. */
  lemma {:induction false} PluginEntriesInfo(found: OMap<string, Found>, deps: OMap<string, seq<string>>)
    requires Wf(deps)
    ensures var es := PluginEntries(found, deps);
      forall i :: 0 <= i < |es| ==>
        if es[i].slug in Keys(deps) then
          es[i].info == PriorityPrefix
            + Implode(", ", NamesAfter(found, KeysBefore(deps, es[i].slug), Get(deps, es[i].slug).value)) + ")"
        else es[i].info == ""
  {
    var (pri, left) := Prioritized(found, deps);
    PrioritizedInfoFrom(found, found, [], deps);
    PrioritizedLeft(found, deps);
    var es := PluginEntries(found, deps);
    var rem := Remaining(left);
    forall i | 0 <= i < |es|
      ensures if es[i].slug in Keys(deps) then
          es[i].info == PriorityPrefix
            + Implode(", ", NamesAfter(found, KeysBefore(deps, es[i].slug), Get(deps, es[i].slug).value)) + ")"
        else es[i].info == ""
    {
      if i < |pri| {
        assert es[i] == pri[i];
        assert InfoAfter(found, [], deps, pri[i]);
        assert [] + KeysBefore(deps, pri[i].slug) == KeysBefore(deps, pri[i].slug);
      } else {
        assert es[i] == rem[i - |pri|];
        assert es[i].slug in Slugs(rem);
      }
    }
  }

  lemma {:induction false} KeepOutNone(xs: seq<string>)
    ensures KeepOut(xs, []) == xs
    decreases |xs|
  {
    if |xs| > 0 {
      KeepOutNone(xs[1..]);
      assert xs == [xs[0]] + xs[1..];
    }
  }

  /** The generated installPlugin steps are the discovered plugins, each once: first
      those some plugin requires, in the order they were first required, then the rest
      in discovery order. */
  lemma {:induction false} PluginEntriesOrder(found: OMap<string, Found>, deps: OMap<string, seq<string>>)
    requires Wf(found) && Wf(deps)
    ensures var es := PluginEntries(found, deps);
      var n := |KeepIn(Keys(deps), Keys(found))|;
      && Slugs(es) == KeepIn(Keys(deps), Keys(found)) + KeepOut(Keys(found), Keys(deps))
      && Distinct(Slugs(es))
      && (forall k :: k in Slugs(es) <==> k in Keys(found))
      && (forall i :: 0 <= i < |es| ==> (i < n <==> es[i].slug in Keys(deps)))
      && FromFound(found, es)
  {
    var (pri, left) := Prioritized(found, deps);
    PrioritizedSlugs(found, deps);
    PrioritizedLeft(found, deps);
    PrioritizedFromFound(found, deps);
    var es := pri + Remaining(left);
    SlugsAppend(pri, Remaining(left));
    var a := KeepIn(Keys(deps), Keys(found));
    var b := KeepOut(Keys(found), Keys(deps));
    DistinctConcat(a, b);
    forall i | 0 <= i < |es|
      ensures (i < |a| <==> es[i].slug in Keys(deps))
      ensures Get(found, es[i].slug) == Some(Found(es[i].resource, es[i].name))
    {
      assert Slugs(es)[i] == es[i].slug;
      if i < |a| {
        assert es[i] == pri[i];
        assert a[i] in a;
      } else {
        var j := i - |pri|;
        assert es[i] == Remaining(left)[j];
        assert b[j] in b;
        assert Get(left, b[j]) == Get(found, b[j]);
        assert left[j] == (b[j], Found(es[i].resource, es[i].name));
        GetAt(left, j);
      }
    }
  }

  /** A slug that some plugin requires comes before every slug nothing requires. */
  lemma {:induction false} RequiredFirst(found: OMap<string, Found>, deps: OMap<string, seq<string>>, a: string, b: string)
    requires Wf(found) && Wf(deps)
    requires a in Keys(deps) && b !in Keys(deps)
    ensures var es := PluginEntries(found, deps);
      forall i, j :: 0 <= i < |es| && 0 <= j < |es| && es[i].slug == a && es[j].slug == b ==> i < j
  {
    PluginEntriesOrder(found, deps);
  }

  lemma {:induction false} GetAt<V>(m: OMap<string, V>, j: nat)
    requires Wf(m) && j < |m|
    ensures Get(m, m[j].0) == Some(m[j].1)
  {
    if j > 0 {
      KeysCons(m);
      GetAt(m[1..], j - 1);
    }
  }

  /** Prioritisation looks one level deep. When `c` (discovered first) requires `b` and
      `b` requires `a`, `b` is emitted first, `a` after it with its dependent's name
      already gone, and `c` last: `a` is installed after `b`, which requires it. */
  lemma {:induction false} ChainedRequirementOrder(a: string, b: string, c: string, fa: Found, fb: Found, fc: Found)
    requires a != b && b != c && a != c
    ensures var found := [(c, fc), (b, fb), (a, fa)];
      var deps := AddDependent(AddDependent([], [b], c), [a], b);
      && deps == [(b, [c]), (a, [b])]
      && PluginEntries(found, deps)
         == [Entry(b, fb.resource, fb.name, PriorityInfo([fc.name])),
             Entry(a, fa.resource, fa.name, PriorityInfo([""])),
             Entry(c, fc.resource, fc.name, "")]
  {
    ChainedDependents(a, b, c);
    ChainedPrioritized(a, b, c, fa, fb, fc);
  }

  lemma {:induction false} ChainedDependents(a: string, b: string, c: string)
    requires a != b
    ensures AddDependent(AddDependent([], [b], c), [a], b) == [(b, [c]), (a, [b])]
  {
    var deps := [(b, [c]), (a, [b])];
    assert AddDependent([], [b], c) == [(b, [c])] by {
      assert [b][1..] == [];
      var none: OMap<string, seq<string>> := [];
      assert Get(none, b).GetOr([]) + [c] == [c];
    }
    assert Get([(b, [c])], a) == None;
    assert Put([(b, [c])], a, [b]) == deps by {
      assert [(b, [c])][1..] == [];
    }
    assert [a][1..] == [];
    assert Get([(b, [c])], a).GetOr([]) + [b] == [b];
    assert AddDependent([(b, [c])], [a], b) == AddDependent(deps, [], b);
  }

  lemma {:induction false} ChainedRemovals(a: string, b: string, c: string, fa: Found, fb: Found, fc: Found)
    requires a != b && b != c && a != c
    ensures Remove([(c, fc), (b, fb), (a, fa)], b) == [(c, fc), (a, fa)]
    ensures Remove([(c, fc), (a, fa)], a) == [(c, fc)]
  {
    var found := [(c, fc), (b, fb), (a, fa)];
    assert found[1..] == [(b, fb), (a, fa)] && found[1..][1..] == [(a, fa)] && [(a, fa)][1..] == [];
    assert Remove([(a, fa)], b) == [(a, fa)];
    var f1 := [(c, fc), (a, fa)];
    assert f1[1..] == [(a, fa)];
  }

  /** The second round of the chained example: `a` is still there, and `b`, its only
      dependent, has already been emitted. */
  lemma {:induction false} ChainedSecond(a: string, b: string, c: string, fa: Found, fc: Found)
    requires a != b && b != c && a != c
    ensures Prioritized([(c, fc), (a, fa)], [(a, [b])])
         == ([Entry(a, fa.resource, fa.name, PriorityInfo([""]))], [(c, fc)])
  {
    var f1 := [(c, fc), (a, fa)];
    var deps := [(a, [b])];
    assert deps[1..] == [];
    assert f1[1..] == [(a, fa)] && f1[1..][1..] == [];
    assert Get(f1, a) == Some(fa);
    assert Get(f1, b) == None;
    assert NamesOf(f1, [b]) == [""];
    assert Remove(f1, a) == [(c, fc)];
    assert Prioritized(Remove(f1, a), deps[1..]) == ([], [(c, fc)]);
    var ea := Entry(a, fa.resource, fa.name, PriorityInfo(NamesOf(f1, [b])));
    assert [ea] + [] == [ea];
  }

  /** One round of the loop over `$dependent_upon` for a required slug that has a step. */
  lemma {:induction false} RoundFound(found: OMap<string, Found>, deps: OMap<string, seq<string>>, f: Found,
                   rest: (seq<Entry>, OMap<string, Found>))
    requires |deps| > 0 && Get(found, deps[0].0) == Some(f)
    requires Prioritized(Remove(found, deps[0].0), deps[1..]) == rest
    ensures Prioritized(found, deps)
         == ([Entry(deps[0].0, f.resource, f.name, PriorityInfo(NamesOf(found, deps[0].1)))] + rest.0, rest.1)
  {
  }

  /** Both rounds of the chained example: `b` with `c`'s name, then `a` with an empty
      name, leaving `c`. */
  lemma {:induction false} ChainedRounds(a: string, b: string, c: string, fa: Found, fb: Found, fc: Found,
                                         found: OMap<string, Found>, deps: seq<(string, seq<string>)>)
    requires a != b && b != c && a != c
    requires found == [(c, fc), (b, fb), (a, fa)] && deps == [(b, [c]), (a, [b])]
    ensures Prioritized(found, deps)
         == ([Entry(b, fb.resource, fb.name, PriorityInfo([fc.name])),
              Entry(a, fa.resource, fa.name, PriorityInfo([""]))], [(c, fc)])
  {
    var ea := Entry(a, fa.resource, fa.name, PriorityInfo([""]));
    assert Get(found, b) == Some(fb) by {
      assert found[1..] == [(b, fb), (a, fa)];
    }
    assert NamesOf(found, [c]) == [fc.name] by {
      assert [c][1..] == [];
    }
    assert Prioritized(Remove(found, b), deps[1..]) == ([ea], [(c, fc)]) by {
      ChainedRemovals(a, b, c, fa, fb, fc);
      assert deps[1..] == [(a, [b])];
      ChainedSecond(a, b, c, fa, fc);
    }
    RoundFound(found, deps, fb, ([ea], [(c, fc)]));
    var eb := Entry(b, fb.resource, fb.name, PriorityInfo([fc.name]));
    assert deps[0] == (b, [c]);
    assert [eb] + [ea] == [eb, ea];
  }

  lemma {:induction false} ChainedPrioritized(a: string, b: string, c: string, fa: Found, fb: Found, fc: Found)
    requires a != b && b != c && a != c
    ensures PluginEntries([(c, fc), (b, fb), (a, fa)], [(b, [c]), (a, [b])])
         == [Entry(b, fb.resource, fb.name, PriorityInfo([fc.name])),
             Entry(a, fa.resource, fa.name, PriorityInfo([""])),
             Entry(c, fc.resource, fc.name, "")]
  {
    var eb := Entry(b, fb.resource, fb.name, PriorityInfo([fc.name]));
    var ea := Entry(a, fa.resource, fa.name, PriorityInfo([""]));
    var ec := Entry(c, fc.resource, fc.name, "");
    ChainedRounds(a, b, c, fa, fb, fc, [(c, fc), (b, fb), (a, fa)], [(b, [c]), (a, [b])]);
    assert Remaining([(c, fc)]) == [ec] by {
      assert [(c, fc)][1..] == [];
      assert [ec] + [] == [ec];
    }
    assert [eb, ea] + [ec] == [eb, ea, ec];
  }
}

=== FILE: resolver.dfy ===
/** Resource resolution: how a plugin or theme slug is fetched by the Playground, with
    every answer (negative ones included) memoised in a slug-keyed transient. The
    directory lookups (`plugins_api`, `themes_api`) are oracle parameters; the
    transient is a plain map (its one-day expiry is not modelled). */
module Resolver {
  import opened Wrappers
  import opened Text
  import opened Manifest

  // ---------------------------------------------------------------------------
  // The memo pattern shared by both lookups.

  /** Answers `key` from `cache` when present; otherwise asks `fetch` once and records
      the answer, whatever it is. */
  function Memo<V>(cache: map<string, V>, key: string, fetch: string -> V): (r: (V, map<string, V>))
    ensures r.1.Keys == cache.Keys + {key}
    ensures r.1[key] == r.0
    ensures key in cache ==> r.0 == cache[key] && r.1 == cache
    ensures key !in cache ==> r.0 == fetch(key)
    ensures forall k :: k in cache ==> r.1[k] == cache[k]
  {
    if key in cache then (cache[key], cache) else (fetch(key), cache[key := fetch(key)])
  }

  /** Asking again for the same key returns the same answer and leaves the cache alone,
      whatever the lookup would now say. */
  lemma {:induction false} MemoRepeatHits<V>(cache: map<string, V>, key: string, fetch: string -> V, later: string -> V)
    ensures Memo(Memo(cache, key, fetch).1, key, later) == Memo(cache, key, fetch)
  {
  }

  // ---------------------------------------------------------------------------
  // Plugins.

  /** What `plugins_api( 'plugin_information', … )` hands back. */
  datatype PluginApiResponse = PluginApiError | PluginInformation(downloadLink: Option<string>)

  /** The `blueprint_extractor_plugin_zip` transient; `None` records a `false` answer. */
  type PluginCache = map<string, Option<Locator>>

  const OwnSlug: string := "blueprint-extractor"
  const RegistryDownloadPrefix: string := "https://downloads.wordpress.org/plugin/"
  const GithubPrefix: string := "https://github.com/"
  const ArchiveRefs: string := "/archive/refs/"
  const ProxyRepo: string := "https://github-proxy.com/proxy/?repo="
  const ProxyRelease: string := "&release="

  /** `explode( '/', $plugin )[0]`: the plugin's directory (or its file when it has none),
      that is, everything before the first slash. */
  function SlugOf(plugin: string): (slug: string)
    ensures StartsWith(plugin, slug)
    ensures '/' !in slug
    ensures slug == plugin || plugin[|slug|] == '/'
  {
    var parts := Explode("/", plugin);
    SlashAbsent(parts[0]);
    parts[0]
  }

  lemma {:induction false} SlashAbsent(s: string)
    requires !Contains(s, "/")
    ensures '/' !in s
  {
    forall k | 0 <= k < |s|
      ensures s[k] != '/'
    {
      assert !OccursAt(s, "/", k);
      assert s[k..k + 1] == [s[k]];
    }
  }

  /** The "own plugin" normalisation compares an 18-character prefix with a
      19-character literal, so it never fires: every slug passes through unchanged. */
  function NormalizeSlug(slug: string): (r: string)
    ensures r == slug
  {
    if Take(slug, 18) == OwnSlug then OwnSlug else slug
  }

  /** How far `[^/]+` reaches from the start of `s`. */
  function SegmentLength(s: string): (n: nat)
    ensures n <= |s|
    ensures '/' !in s[..n]
    ensures n < |s| ==> s[n] == '/'
  {
    if |s| == 0 || s[0] == '/' then 0
    else
      var n := 1 + SegmentLength(s[1..]);
      assert s[..n] == [s[0]] + s[1..][..n - 1];
      n
  }

  /** Greedy `([^/]+)\.zip` inside a slash-free run: the LAST `.zip` at index 1 or later,
      searching down from `j`. */
  function LastZipFrom(run: string, j: nat): (r: Option<nat>)
    requires j + 4 <= |run|
    ensures r.Some? ==> 1 <= r.value <= j && OccursAt(run, ".zip", r.value)
    ensures r.Some? ==> forall k: nat :: r.value < k <= j ==> !OccursAt(run, ".zip", k)
    ensures r.None? ==> forall k: nat :: 1 <= k <= j ==> !OccursAt(run, ".zip", k)
    decreases j
  {
    if j == 0 then None
    else if run[j..j + 4] == ".zip" then Some(j)
    else LastZipFrom(run, j - 1)
  }

  /** Group 3 of the archive pattern, read off the slash-free run after `heads/`/`tags/`. */
  function ZipRef(run: string): Option<string>
  {
    if |run| < 5 then None
    else
      match LastZipFrom(run, |run| - 4)
      case None => None
      case Some(k) => Some(run[..k])
  }

  /** `https://github\.com/([^/]+/[^/]+)/archive/refs/(heads|tags)/([^/]+)\.zip`
      tried at the start of `t`: groups 1 and 3 on success. Each `[^/]+` is followed by
      a `/` or by `.zip`, so the only backtracking that matters is group 3's. */
  function MatchHere(t: string): (r: Option<(string, string)>)
    ensures r.Some? ==> StartsWith(t, GithubPrefix)
  {
    if !StartsWith(t, GithubPrefix) then None else MatchOwnerRepo(t[|GithubPrefix|..])
  }

  /** The pattern after the host: `owner/repo/archive/refs/…`. */
  function MatchOwnerRepo(a: string): Option<(string, string)>
  {
    var o := SegmentLength(a);
    if o == 0 || o == |a| then None
    else
      match MatchRepo(a[o + 1..])
      case None => None
      case Some((repo, ref)) => Some((a[..o] + "/" + repo, ref))
  }

  /** The pattern after the owner's slash: `repo/archive/refs/…`, giving the repository
      and the ref. */
  function MatchRepo(b: string): Option<(string, string)>
  {
    var n := SegmentLength(b);
    if n == 0 || !StartsWith(b[n..], ArchiveRefs) then None
    else
      match MatchKindRef(b[n + |ArchiveRefs|..])
      case None => None
      case Some(ref) => Some((b[..n], ref))
  }

  /** The pattern after `refs/`: `(heads|tags)/([^/]+)\.zip`, giving group 3. */
  function MatchKindRef(c: string): Option<string>
  {
    var d := if StartsWith(c, "heads/") then Some(c[6..])
             else if StartsWith(c, "tags/") then Some(c[5..])
             else None;
    if d.None? then None else ZipRef(d.value[..SegmentLength(d.value)])
  }

  /** A text that starts at `i` occurs there. */
  lemma {:induction false} PrefixOfSuffix(s: string, i: nat, p: string)
    requires i <= |s| && StartsWith(s[i..], p)
    ensures OccursAt(s, p, i) && Contains(s, p)
  {
    assert s[i..][..|p|] == s[i..i + |p|];
    assert OccursAt(s, p, i);
  }

  /** Unanchored `preg_match`: the match starting at the leftmost position from `i` on. */
  function GithubArchiveMatch(link: string, i: nat): (r: Option<(string, string)>)
    requires i <= |link|
    ensures r.Some? ==> Contains(link, GithubPrefix)
    decreases |link| - i
  {
    match MatchHere(link[i..])
    case Some(g) =>
      PrefixOfSuffix(link, i, GithubPrefix);
      Some(g)
    case None => if i == |link| then None else GithubArchiveMatch(link, i + 1)
  }

  /** Classifies the directory's answer for `slug` (lines 49-62 of the plugin). */
  function ClassifyDownload(slug: string, response: PluginApiResponse): (r: Option<Locator>)
    ensures r.Some? ==> response.PluginInformation? && response.downloadLink.Some?
    ensures r.Some? && r.value.PluginDirectory? <==>
              response.PluginInformation? && response.downloadLink.Some?
              && StartsWith(response.downloadLink.value, RegistryDownloadPrefix)
    ensures r.Some? && r.value.PluginDirectory? ==> r.value.slug == slug
    ensures r.Some? && r.value.Url? ==> StartsWith(r.value.url, ProxyRepo)
    ensures r.Some? && r.value.Url? ==> Contains(response.downloadLink.value, GithubPrefix)
    ensures r.Some? ==> !r.value.ThemeDirectory?
  {
    match response
    case PluginApiError => None
    case PluginInformation(None) => None
    case PluginInformation(Some(link)) =>
      if StartsWith(link, RegistryDownloadPrefix) then Some(PluginDirectory(slug))
      else
        match GithubArchiveMatch(link, 0)
        case Some((repo, ref)) => Some(Url(ProxyRepo + repo + ProxyRelease + ref))
        case None => None
  }

  /** `[^/]+` stops exactly at the end of a slash-free prefix. */
  lemma {:induction false} SegmentOfSlashFree(x: string, y: string)
    requires '/' !in x
    requires |y| == 0 || y[0] == '/'
    ensures SegmentLength(x + y) == |x|
    decreases |x|
  {
    if |x| > 0 {
      assert (x + y)[1..] == x[1..] + y;
      SegmentOfSlashFree(x[1..], y);
    } else {
      assert x + y == y;
    }
  }

  lemma {:induction false} KindRefOfArchive(kind: string, ref: string)
    requires |ref| > 0 && '/' !in ref
    requires kind == "heads" || kind == "tags"
    ensures MatchKindRef(kind + "/" + ref + ".zip") == Some(ref)
  {
    var zipped := ref + ".zip";
    var c := kind + "/" + zipped;
    if kind == "heads" {
      assert StartsWith(c, "heads/");
      assert c[6..] == zipped;
    } else {
      assert c[0] == 't';
      assert !StartsWith(c, "heads/");
      assert StartsWith(c, "tags/");
      assert c[5..] == zipped;
    }
    SegmentOfSlashFree(zipped, "");
    assert zipped + "" == zipped;
    assert zipped[..|zipped|] == zipped;
    assert zipped[|ref|..|ref| + 4] == ".zip";
    assert zipped[..|ref|] == ref;
    assert LastZipFrom(zipped, |ref|) == Some(|ref|);
    assert ZipRef(zipped) == Some(ref);
    assert SegmentLength(zipped) == |zipped|;
    assert c == kind + "/" + ref + ".zip";
    assert MatchKindRef(c) == ZipRef(zipped);
  }

  /** `owner/` followed by the rest: the first segment is `owner`, the rest follows the
      slash. */
  lemma {:induction false} SegmentThenSlash(owner: string, rest: string)
    requires '/' !in owner
    ensures var a := owner + ("/" + rest);
      SegmentLength(a) == |owner| && a[..|owner|] == owner && a[|owner| + 1..] == rest
  {
    SegmentOfSlashFree(owner, "/" + rest);
    ConcatSlices(owner, "/" + rest);
    assert ("/" + rest)[1..] == rest;
  }

  /** `repo/archive/refs/` followed by the rest: the segment is `repo`, then the fixed
      text, then the rest. */
  lemma {:induction false} SegmentThenRefs(repo: string, c: string)
    requires '/' !in repo
    ensures var b := repo + (ArchiveRefs + c);
      && SegmentLength(b) == |repo| && b[..|repo|] == repo
      && StartsWith(b[|repo|..], ArchiveRefs) && b[|repo| + |ArchiveRefs|..] == c
  {
    SegmentOfSlashFree(repo, ArchiveRefs + c);
    ConcatSlices(repo, ArchiveRefs + c);
    ConcatSlices(ArchiveRefs, c);
    var b := repo + (ArchiveRefs + c);
    assert b[|repo| + |ArchiveRefs|..] == b[|repo|..][|ArchiveRefs|..];
  }

  lemma {:induction false} OwnerRepoOfArchive(owner: string, repo: string, c: string)
    requires |owner| > 0 && |repo| > 0
    requires '/' !in owner && '/' !in repo
    requires MatchKindRef(c).Some?
    ensures MatchOwnerRepo(owner + "/" + repo + ArchiveRefs + c)
            == Some((owner + "/" + repo, MatchKindRef(c).value))
  {
    var ref := MatchKindRef(c).value;
    var b := repo + (ArchiveRefs + c);
    var a := owner + ("/" + b);
    SlashAssoc(owner, repo, ArchiveRefs, c);
    SegmentThenRefs(repo, c);
    RepoAt(b, |repo|, c, ref);
    SegmentThenSlash(owner, b);
    OwnerAt(a, |owner|, b, repo, ref);
  }

  lemma {:induction false} SlashAssoc(x: string, y: string, z: string, w: string)
    ensures x + ("/" + (y + (z + w))) == x + "/" + y + z + w
  {
  }

  /** `repo/archive/refs/` and a matching rest, with the segment length known. */
  lemma {:induction false} RepoAt(b: string, n: nat, rest: string, ref: string)
    requires 0 < n <= |b| && SegmentLength(b) == n && StartsWith(b[n..], ArchiveRefs)
    requires n + |ArchiveRefs| <= |b| && rest == b[n + |ArchiveRefs|..] && MatchKindRef(rest) == Some(ref)
    ensures MatchRepo(b) == Some((b[..n], ref))
  {
  }

  /** `owner/` and a matching rest, with the segment length known. */
  lemma {:induction false} OwnerAt(a: string, o: nat, b: string, repo: string, ref: string)
    requires 0 < o < |a| && SegmentLength(a) == o && b == a[o + 1..]
    requires MatchRepo(b) == Some((repo, ref))
    ensures MatchOwnerRepo(a) == Some((a[..o] + "/" + repo, ref))
  {
  }

  /** A link that starts with the GitHub host cannot start with the plugin directory. */
  lemma {:induction false} GithubIsNotRegistry(link: string)
    requires StartsWith(link, GithubPrefix)
    ensures !StartsWith(link, RegistryDownloadPrefix)
  {
    assert link[8] == GithubPrefix[8];
  }

  /** A link the pattern matches at its very start is proxied with the two groups. */
  lemma {:induction false} ClassifyMatchAtStart(slug: string, link: string, g: (string, string))
    requires MatchHere(link) == Some(g)
    ensures ClassifyDownload(slug, PluginInformation(Some(link))) == Some(Url(ProxyRepo + g.0 + ProxyRelease + g.1))
  {
    GithubIsNotRegistry(link);
    assert link[0..] == link;
  }

  /** The download link GitHub gives for a branch (`heads`) or tag (`tags`) archive. */
  function ArchiveLink(owner: string, repo: string, kind: string, ref: string): string
  {
    GithubPrefix + owner + "/" + repo + ArchiveRefs + kind + "/" + ref + ".zip"
  }

  lemma {:induction false} MatchArchiveLink(owner: string, repo: string, kind: string, ref: string)
    requires |owner| > 0 && |repo| > 0 && |ref| > 0
    requires '/' !in owner && '/' !in repo && '/' !in ref
    requires kind == "heads" || kind == "tags"
    ensures MatchHere(ArchiveLink(owner, repo, kind, ref)) == Some((owner + "/" + repo, ref))
  {
    var c := kind + "/" + ref + ".zip";
    var a := owner + "/" + repo + ArchiveRefs + c;
    var link := ArchiveLink(owner, repo, kind, ref);
    assert link == GithubPrefix + a;
    KindRefOfArchive(kind, ref);
    OwnerRepoOfArchive(owner, repo, c);
    assert StartsWith(link, GithubPrefix);
    assert link[|GithubPrefix|..] == a;
  }

  lemma {:induction false} ProxyAssoc(a: string, b: string, c: string, d: string, e: string, f: string)
    ensures a + (b + c + d) + e + f == a + b + c + d + e + f
  {
  }

  /** Both `heads` and `tags` archive links map to the GitHub proxy with the repository
      and the ref. */
  lemma {:induction false} GithubArchiveLink(slug: string, owner: string, repo: string, kind: string, ref: string)
    requires |owner| > 0 && |repo| > 0 && |ref| > 0
    requires '/' !in owner && '/' !in repo && '/' !in ref
    requires kind == "heads" || kind == "tags"
    ensures ClassifyDownload(slug, PluginInformation(Some(ArchiveLink(owner, repo, kind, ref))))
            == Some(Url(ProxyRepo + owner + "/" + repo + ProxyRelease + ref))
  {
    var link := ArchiveLink(owner, repo, kind, ref);
    var g := (owner + "/" + repo, ref);
    MatchArchiveLink(owner, repo, kind, ref);
    ClassifyMatchAtStart(slug, link, g);
    ProxyAssoc(ProxyRepo, owner, "/", repo, ProxyRelease, ref);
  }

  // ---------------------------------------------------------------------------
  // The converse: which links are proxied, and with which groups.

  /** The parts the archive pattern accepts: non-empty slash-free owner, repository and
      ref, and a `heads` or `tags` kind. */
  predicate ArchiveParts(owner: string, repo: string, kind: string, ref: string) {
    && |owner| > 0 && |repo| > 0 && |ref| > 0
    && '/' !in owner && '/' !in repo && '/' !in ref
    && (kind == "heads" || kind == "tags")
  }

  /** An archive link with those parts starts at index `i` of `link`. */
  predicate ArchiveAt(link: string, i: nat, owner: string, repo: string, kind: string, ref: string) {
    i <= |link| && ArchiveParts(owner, repo, kind, ref) && StartsWith(link[i..], ArchiveLink(owner, repo, kind, ref))
  }

  lemma {:induction false} StartsWithJoin(s: string, p: string, q: string)
    requires StartsWith(s, p) && StartsWith(s[|p|..], q)
    ensures StartsWith(s, p + q)
  {
    assert s[..|p| + |q|] == s[..|p|] + s[|p|..][..|q|];
  }

  /** Group 3 is a non-empty prefix of the run, followed there by `.zip`. */
  lemma {:induction false} ZipRefSound(run: string)
    requires ZipRef(run).Some?
    ensures var ref := ZipRef(run).value;
      |ref| > 0 && StartsWith(run, ref + ".zip") && ref == run[..|ref|]
  {
    var k := LastZipFrom(run, |run| - 4).value;
    assert run[..k + 4] == run[..k] + run[k..k + 4];
  }

  /** The tail of an archive link after `refs/`. */
  function KindRefTail(kind: string, ref: string): string {
    kind + "/" + ref + ".zip"
  }

  /** The archive link, associated to the right, one segment at a time. */
  lemma {:induction false} ArchiveLinkNested(owner: string, repo: string, kind: string, ref: string)
    ensures ArchiveLink(owner, repo, kind, ref)
            == GithubPrefix + (owner + ("/" + (repo + (ArchiveRefs + KindRefTail(kind, ref)))))
  {
    Assoc7(GithubPrefix, owner, "/", repo, ArchiveRefs, kind + "/" + ref, ".zip");
  }

  lemma {:induction false} Assoc7(a: string, b: string, c: string, d: string, e: string, f: string, g: string)
    ensures a + b + c + d + e + f + g == a + (b + (c + (d + (e + (f + g)))))
  {
  }

  /** What `(heads|tags)/([^/]+)\.zip` accepts at the start of `c`. */
  lemma {:induction false} KindRefSound(c: string) returns (kind: string)
    requires MatchKindRef(c).Some?
    ensures var ref := MatchKindRef(c).value;
      && (kind == "heads" || kind == "tags") && |ref| > 0 && '/' !in ref
      && StartsWith(c, KindRefTail(kind, ref))
  {
    var ref := MatchKindRef(c).value;
    var n := if StartsWith(c, "heads/") then 6 else 5;
    kind := if n == 6 then "heads" else "tags";
    assert StartsWith(c, kind + "/");
    var d := c[n..];
    var run := d[..SegmentLength(d)];
    assert ZipRef(run) == Some(ref);
    ZipRefSound(run);
    KindRefJoin(c, kind, d, run, ref);
  }

  /** The kind, its slash and a slash-free run that starts with `ref.zip`, joined over
      bare strings. */
  lemma {:induction false} KindRefJoin(c: string, kind: string, d: string, run: string, ref: string)
    requires StartsWith(c, kind + "/") && d == c[|kind| + 1..]
    requires StartsWith(d, run) && '/' !in run && |ref| > 0 && StartsWith(run, ref + ".zip")
    ensures '/' !in ref && StartsWith(c, KindRefTail(kind, ref))
  {
    forall j | 0 <= j < |ref|
      ensures ref[j] != '/'
    {
      assert ref[j] == run[j];
    }
    assert StartsWith(d, ref + ".zip") by {
      assert d[..|ref| + 4] == run[..|ref| + 4];
    }
    StartsWithJoin(c, kind + "/", ref + ".zip");
    assert kind + "/" + (ref + ".zip") == KindRefTail(kind, ref);
  }

  /** What `[^/]+/archive/refs/…` accepts after the owner's slash. */
  lemma {:induction false} RepoSound(b: string) returns (kind: string)
    requires MatchRepo(b).Some?
    ensures var (repo, ref) := MatchRepo(b).value;
      && |repo| > 0 && '/' !in repo && (kind == "heads" || kind == "tags") && |ref| > 0 && '/' !in ref
      && StartsWith(b, repo + (ArchiveRefs + KindRefTail(kind, ref)))
  {
    var n := SegmentLength(b);
    var c := b[n + |ArchiveRefs|..];
    RepoParts(b, n, c);
    kind := KindRefSound(c);
    var ref := MatchKindRef(c).value;
    var rest := b[n..];
    assert rest[|ArchiveRefs|..] == c;
    StartsWithJoin(rest, ArchiveRefs, KindRefTail(kind, ref));
    StartsWithJoin(b, b[..n], ArchiveRefs + KindRefTail(kind, ref));
  }

  /** The pieces `MatchRepo` cuts: the segment, then `ArchiveRefs`, then the rest. */
  lemma {:induction false} RepoParts(b: string, n: nat, c: string)
    requires MatchRepo(b).Some? && n == SegmentLength(b)
    requires n + |ArchiveRefs| <= |b| ==> c == b[n + |ArchiveRefs|..]
    ensures 0 < n && n + |ArchiveRefs| <= |b| && c == b[n + |ArchiveRefs|..]
    ensures '/' !in b[..n] && StartsWith(b, b[..n]) && StartsWith(b[n..], ArchiveRefs)
    ensures MatchKindRef(c).Some? && MatchRepo(b).value == (b[..n], MatchKindRef(c).value)
  {
  }

  /** The pieces `MatchOwnerRepo` cuts: the owner segment, its slash, then the rest. */
  lemma {:induction false} OwnerParts(a: string, o: nat, b: string)
    requires MatchOwnerRepo(a).Some? && o == SegmentLength(a)
    requires o < |a| ==> b == a[o + 1..]
    ensures 0 < o < |a| && b == a[o + 1..] && '/' !in a[..o] && a[o] == '/'
    ensures MatchRepo(b).Some?
    ensures MatchOwnerRepo(a).value == (a[..o] + "/" + MatchRepo(b).value.0, MatchRepo(b).value.1)
  {
  }

  /** A segment, its slash and a text the rest starts with, joined over bare strings. */
  lemma {:induction false} OwnerJoin(a: string, o: nat, b: string, tail: string)
    requires o < |a| && a[o] == '/' && b == a[o + 1..] && StartsWith(b, tail)
    ensures StartsWith(a, a[..o] + ("/" + tail))
  {
    assert a[..o + 1] == a[..o] + "/";
    StartsWithJoin(a, a[..o] + "/", tail);
    assert a[..o] + "/" + tail == a[..o] + ("/" + tail);
  }

  /** What the pattern accepts after the host. */
  lemma {:induction false} OwnerRepoSound(a: string) returns (owner: string, repo: string, kind: string)
    requires MatchOwnerRepo(a).Some?
    ensures var ref := MatchOwnerRepo(a).value.1;
      && ArchiveParts(owner, repo, kind, ref)
      && MatchOwnerRepo(a).value.0 == owner + "/" + repo
      && StartsWith(a, owner + ("/" + (repo + (ArchiveRefs + KindRefTail(kind, ref)))))
  {
    var o := SegmentLength(a);
    var b := if o < |a| then a[o + 1..] else "";
    OwnerParts(a, o, b);
    owner := a[..o];
    repo := MatchRepo(b).value.0;
    var ref := MatchRepo(b).value.1;
    kind := RepoSound(b);
    OwnerJoin(a, o, b, repo + (ArchiveRefs + KindRefTail(kind, ref)));
  }

  /** A match at the start of `t` is an archive link there, with its groups. */
  lemma {:induction false} MatchHereSound(t: string) returns (owner: string, repo: string, kind: string)
    requires MatchHere(t).Some?
    ensures ArchiveParts(owner, repo, kind, MatchHere(t).value.1)
    ensures StartsWith(t, ArchiveLink(owner, repo, kind, MatchHere(t).value.1))
    ensures MatchHere(t).value.0 == owner + "/" + repo
  {
    assert StartsWith(t, GithubPrefix);
    var a := t[|GithubPrefix|..];
    assert MatchHere(t) == MatchOwnerRepo(a);
    owner, repo, kind := OwnerRepoSound(a);
    var ref := MatchOwnerRepo(a).value.1;
    StartsWithJoin(t, GithubPrefix, owner + ("/" + (repo + (ArchiveRefs + KindRefTail(kind, ref)))));
    ArchiveLinkNested(owner, repo, kind, ref);
  }

  /** `[^/]+` reaches at least past a slash-free prefix. */
  lemma {:induction false} SegmentCovers(x: string, y: string)
    requires '/' !in x
    ensures SegmentLength(x + y) >= |x|
    decreases |x|
  {
    if |x| > 0 {
      assert (x + y)[0] == x[0] && x[0] in x;
      assert (x + y)[1..] == x[1..] + y;
      SegmentCovers(x[1..], y);
    }
  }

  /** Whatever follows an archive link's `.zip`, the kind-and-ref part still matches. */
  lemma {:induction false} KindRefComplete(kind: string, ref: string, rest: string)
    requires (kind == "heads" || kind == "tags") && |ref| > 0 && '/' !in ref
    ensures MatchKindRef(KindRefTail(kind, ref) + rest).Some?
  {
    var zipped := ref + ".zip";
    var c := KindRefTail(kind, ref) + rest;
    var d := zipped + rest;
    if kind == "heads" {
      assert StartsWith(c, "heads/");
      assert c[6..] == d;
    } else {
      assert c[0] == 't';
      assert !StartsWith(c, "heads/");
      assert StartsWith(c, "tags/");
      assert c[5..] == d;
    }
    assert '/' !in zipped;
    SegmentCovers(zipped, rest);
    var run := d[..SegmentLength(d)];
    ZipInRun(run, ref, rest);
  }

  /** A slash-free run that starts with `ref.zip` has a group 3. */
  lemma {:induction false} ZipInRun(run: string, ref: string, rest: string)
    requires |ref| > 0 && |ref| + 4 <= |run| <= |ref| + 4 + |rest| && run == (ref + ".zip" + rest)[..|run|]
    ensures ZipRef(run).Some?
  {
    assert run[|ref|..|ref| + 4] == (ref + ".zip")[|ref|..];
    assert OccursAt(run, ".zip", |ref|);
  }

  /** An archive link at the start of `t`, with anything after it, is matched there. */
  lemma {:induction false} MatchHereComplete(t: string, owner: string, repo: string, kind: string, ref: string)
    requires ArchiveParts(owner, repo, kind, ref)
    requires StartsWith(t, ArchiveLink(owner, repo, kind, ref))
    ensures MatchHere(t).Some?
  {
    var link := ArchiveLink(owner, repo, kind, ref);
    var rest := t[|link|..];
    var c := KindRefTail(kind, ref) + rest;
    KindRefComplete(kind, ref, rest);
    OwnerRepoOfArchive(owner, repo, c);
    ArchiveLinkNested(owner, repo, kind, ref);
    assert t == link + rest;
    LinkThenRest(t, link, rest, GithubPrefix, owner, "/", repo, ArchiveRefs, KindRefTail(kind, ref));
    HostThen(t, owner + "/" + repo + ArchiveRefs + c);
  }

  /** Regrouping an archive link followed by more text, over bare strings. */
  lemma {:induction false} LinkThenRest(t: string, link: string, rest: string,
                                        g: string, o: string, sl: string, r: string, ar: string, k: string)
    requires link == g + (o + (sl + (r + (ar + k)))) && t == link + rest
    ensures t == g + (o + sl + r + ar + (k + rest))
  {
  }

  /** The host prefix, then the rest that `MatchOwnerRepo` reads. */
  lemma {:induction false} HostThen(t: string, a: string)
    requires t == GithubPrefix + a && MatchOwnerRepo(a).Some?
    ensures MatchHere(t) == MatchOwnerRepo(a)
  {
    assert StartsWith(t, GithubPrefix);
    assert t[|GithubPrefix|..] == a;
  }

  /** One step of the unanchored search: a miss at `i` moves on. */
  lemma {:induction false} SearchMiss(link: string, i: nat)
    requires i < |link| && MatchHere(link[i..]).None?
    ensures GithubArchiveMatch(link, i) == GithubArchiveMatch(link, i + 1)
  {
  }

  /** One step of the unanchored search: a hit at `i` is the answer. */
  lemma {:induction false} SearchHit(link: string, i: nat)
    requires i <= |link| && MatchHere(link[i..]).Some?
    ensures GithubArchiveMatch(link, i) == MatchHere(link[i..])
  {
  }

  /** The first position from `i` on where `m` accepts the suffix of `link`, with its
      answer: the shape of an unanchored search, for any matcher. */
  function FirstHit<T>(m: string -> Option<T>, link: string, i: nat): Option<T>
    requires i <= |link|
    decreases |link| - i
  {
    match m(link[i..])
    case Some(g) => Some(g)
    case None => if i == |link| then None else FirstHit(m, link, i + 1)
  }

  /** The GitHub search is that search with the anchored pattern as matcher. */
  lemma {:induction false} SearchIsFirstHit(link: string, i: nat)
    requires i <= |link|
    ensures GithubArchiveMatch(link, i) == FirstHit(MatchHere, link, i)
    decreases |link| - i
  {
    if MatchHere(link[i..]).Some? {
      SearchHit(link, i);
    } else if i < |link| {
      SearchMiss(link, i);
      SearchIsFirstHit(link, i + 1);
    }
  }

  /** The search returns the answer at the leftmost accepted position from `i` on. */
  lemma {:induction false} LeftmostMatch<T>(m: string -> Option<T>, link: string, i: nat) returns (j: nat)
    requires i <= |link| && FirstHit(m, link, i).Some?
    ensures i <= j <= |link| && m(link[j..]) == FirstHit(m, link, i)
    ensures forall k :: i <= k < j ==> m(link[k..]).None?
    decreases |link| - i
  {
    if m(link[i..]).Some? {
      j := i;
    } else {
      j := LeftmostMatch(m, link, i + 1);
    }
  }

  /** An accepted position from `i` on is found by the search. */
  lemma {:induction false} MatchFound<T>(m: string -> Option<T>, link: string, i: nat, j: nat)
    requires i <= j <= |link| && m(link[j..]).Some?
    ensures FirstHit(m, link, i).Some?
    decreases j - i
  {
    if m(link[i..]).None? {
      MatchFound(m, link, i + 1, j);
    }
  }

  /** The URL branch, read backwards: a proxied link holds a `heads`/`tags` archive link,
      the proxy URL carries its owner/repository and ref, and no archive link starts
      further left. */
  lemma {:induction false} ProxiedArchive(slug: string, link: string, u: string)
    requires ClassifyDownload(slug, PluginInformation(Some(link))) == Some(Url(u))
    ensures !StartsWith(link, RegistryDownloadPrefix)
    ensures exists i: nat, owner, repo, kind, ref ::
      && ArchiveAt(link, i, owner, repo, kind, ref)
      && u == ProxyRepo + owner + "/" + repo + ProxyRelease + ref
      && (forall j: nat, o, r, k, f :: j < i ==> !ArchiveAt(link, j, o, r, k, f))
  {
    SearchIsFirstHit(link, 0);
    var i := LeftmostMatch(MatchHere, link, 0);
    var g := GithubArchiveMatch(link, 0).value;
    var owner, repo, kind := MatchHereSound(link[i..]);
    assert u == ProxyRepo + g.0 + ProxyRelease + g.1;
    ProxyAssoc(ProxyRepo, owner, "/", repo, ProxyRelease, g.1);
    assert ArchiveAt(link, i, owner, repo, kind, g.1);
    forall j: nat, o, r, k, f | j < i
      ensures !ArchiveAt(link, j, o, r, k, f)
    {
      if ArchiveAt(link, j, o, r, k, f) {
        MatchHereComplete(link[j..], o, r, k, f);
        assert false;
      }
    }
  }

  /** A link outside the plugin directory is proxied exactly when a `heads`/`tags`
      archive link occurs in it; otherwise it gives no locator. */
  lemma {:induction false} ProxiedIff(slug: string, link: string)
    requires !StartsWith(link, RegistryDownloadPrefix)
    ensures ClassifyDownload(slug, PluginInformation(Some(link))).Some?
            <==> exists i: nat, owner, repo, kind, ref :: ArchiveAt(link, i, owner, repo, kind, ref)
    ensures ClassifyDownload(slug, PluginInformation(Some(link))).Some?
            ==> ClassifyDownload(slug, PluginInformation(Some(link))).value.Url?
  {
    var r := ClassifyDownload(slug, PluginInformation(Some(link)));
    if r.Some? {
      ProxiedArchive(slug, link, r.value.url);
    } else {
      forall i: nat, owner, repo, kind, ref | ArchiveAt(link, i, owner, repo, kind, ref)
        ensures false
      {
        MatchHereComplete(link[i..], owner, repo, kind, ref);
        SearchIsFirstHit(link, 0);
        MatchFound(MatchHere, link, 0, i);
      }
    }
  }

  /** Where the pieces of an archive link found at `i` sit in `link`, character by
      character. */
  lemma {:induction false} ArchiveLayout(link: string, i: nat, owner: string, repo: string, kind: string, ref: string)
    requires ArchiveAt(link, i, owner, repo, kind, ref)
    ensures |link| >= i + 46 && link[i] == 'h'
    ensures forall j :: 0 <= j < |owner| ==> link[i + 19 + j] == owner[j]
    ensures link[i + 19 + |owner|] == '/'
    ensures forall j :: 0 <= j < |repo| ==> link[i + 20 + |owner| + j] == repo[j]
    ensures link[i + 20 + |owner| + |repo|] == '/' && link[i + 21 + |owner| + |repo|] == 'a'
  {
    ArchiveLinkNested(owner, repo, kind, ref);
    assert |KindRefTail(kind, ref)| >= 10;
    LayoutAt(link, i, ArchiveLink(owner, repo, kind, ref), owner, repo, KindRefTail(kind, ref));
  }

  /** The same positions, for any text of that shape starting at `i`. */
  lemma {:induction false} LayoutAt(link: string, i: nat, w: string, owner: string, repo: string, k: string)
    requires i <= |link| && StartsWith(link[i..], w) && |k| >= 10 && |owner| > 0 && |repo| > 0
    requires w == GithubPrefix + (owner + ("/" + (repo + (ArchiveRefs + k))))
    ensures |link| >= i + 46 && link[i] == 'h'
    ensures forall j :: 0 <= j < |owner| ==> link[i + 19 + j] == owner[j]
    ensures link[i + 19 + |owner|] == '/'
    ensures forall j :: 0 <= j < |repo| ==> link[i + 20 + |owner| + j] == repo[j]
    ensures link[i + 20 + |owner| + |repo|] == '/' && link[i + 21 + |owner| + |repo|] == 'a'
  {
    NestedLayout(w, GithubPrefix, owner, "/", repo, ArchiveRefs, k);
    SliceAt(link, i, w);
  }

  /** A text that starts at `i` of `link` agrees with it character by character. */
  lemma {:induction false} SliceAt(link: string, i: nat, w: string)
    requires i <= |link| && StartsWith(link[i..], w)
    ensures forall j :: 0 <= j < |w| ==> link[i + j] == w[j]
  {
    forall j | 0 <= j < |w|
      ensures link[i + j] == w[j]
    {
      assert link[i..][..|w|][j] == w[j];
    }
  }

  /** Character positions in a right-nested concatenation `g + (o + (sl + (r + (ar + k))))`. */
  lemma {:induction false} NestedLayout(w: string, g: string, o: string, sl: string, r: string, ar: string, k: string)
    requires w == g + (o + (sl + (r + (ar + k)))) && |sl| == 1 && |ar| >= 2
    ensures |w| == |g| + |o| + 1 + |r| + |ar| + |k|
    ensures forall j :: 0 <= j < |g| ==> w[j] == g[j]
    ensures forall j :: 0 <= j < |o| ==> w[|g| + j] == o[j]
    ensures w[|g| + |o|] == sl[0]
    ensures forall j :: 0 <= j < |r| ==> w[|g| + |o| + 1 + j] == r[j]
    ensures w[|g| + |o| + 1 + |r|] == ar[0] && w[|g| + |o| + 2 + |r|] == ar[1]
  {
  }

  /** A link shorter than any archive link is never proxied; for instance the
      `archive/v1.zip` form without `refs/heads` or `refs/tags`. */
  lemma {:induction false} ShortLinkNotProxied(slug: string)
    ensures ClassifyDownload(slug, PluginInformation(Some("https://github.com/o/r/archive/v1.zip"))) == None
  {
    var link := "https://github.com/o/r/archive/v1.zip";
    assert |link| < 46;
    assert !StartsWith(link, RegistryDownloadPrefix) by {
      assert link[8] != RegistryDownloadPrefix[8];
    }
    ProxiedIff(slug, link);
    forall i: nat, owner, repo, kind, ref | ArchiveAt(link, i, owner, repo, kind, ref)
      ensures false
    {
      ArchiveLayout(link, i, owner, repo, kind, ref);
    }
  }

  /** `https://github.com/o/r/releases/download/v1/p.zip`. */
  const ReleaseAsset: string := GithubPrefix + "o/r/releases/download/v1/p.zip"

  /** A release-asset link holds no archive link, so it is not proxied. */
  lemma {:induction false} ReleaseAssetNotProxied(slug: string)
    ensures ClassifyDownload(slug, PluginInformation(Some(ReleaseAsset))) == None
  {
    var link := ReleaseAsset;
    assert !StartsWith(link, RegistryDownloadPrefix) by {
      assert link[8] != RegistryDownloadPrefix[8];
    }
    ProxiedIff(slug, link);
    forall i: nat, owner, repo, kind, ref | ArchiveAt(link, i, owner, repo, kind, ref)
      ensures false
    {
      ReleaseHostAtStart(i, owner, repo, kind, ref);
      ReleaseOwner(owner, repo, kind, ref);
      ReleaseRepo(owner, repo, kind, ref);
      ReleaseNoRefs(owner, repo, kind, ref);
    }
  }

  /** In the release-asset link the host can only start at index 0. */
  lemma {:induction false} ReleaseHostAtStart(i: nat, owner: string, repo: string, kind: string, ref: string)
    ensures ArchiveAt(ReleaseAsset, i, owner, repo, kind, ref) ==> i == 0
  {
    var link := ReleaseAsset;
    assert |link| == 49 && link[1] == 't' && link[2] == 't' && link[3] == 'p';
    if ArchiveAt(link, i, owner, repo, kind, ref) {
      ArchiveLayout(link, i, owner, repo, kind, ref);
    }
  }

  /** Its owner segment is `o`: a longer one would hold the slash after it. */
  lemma {:induction false} ReleaseOwner(owner: string, repo: string, kind: string, ref: string)
    ensures ArchiveAt(ReleaseAsset, 0, owner, repo, kind, ref) ==> |owner| == 1
  {
    var link := ReleaseAsset;
    assert link[20] == '/';
    if ArchiveAt(link, 0, owner, repo, kind, ref) {
      ArchiveLayout(link, 0, owner, repo, kind, ref);
    }
  }

  /** Its repository segment is `r`, for the same reason. */
  lemma {:induction false} ReleaseRepo(owner: string, repo: string, kind: string, ref: string)
    ensures ArchiveAt(ReleaseAsset, 0, owner, repo, kind, ref) && |owner| == 1 ==> |repo| == 1
  {
    var link := ReleaseAsset;
    assert link[22] == '/';
    if ArchiveAt(link, 0, owner, repo, kind, ref) && |owner| == 1 {
      ArchiveLayout(link, 0, owner, repo, kind, ref);
    }
  }

  /** After `o/r` comes `/releases/`, not `/archive/refs/`. */
  lemma {:induction false} ReleaseNoRefs(owner: string, repo: string, kind: string, ref: string)
    ensures !(ArchiveAt(ReleaseAsset, 0, owner, repo, kind, ref) && |owner| == 1 && |repo| == 1)
  {
    var link := ReleaseAsset;
    assert link[23] == 'r';
    if ArchiveAt(link, 0, owner, repo, kind, ref) && |owner| == 1 && |repo| == 1 {
      ArchiveLayout(link, 0, owner, repo, kind, ref);
      assert false;
    }
  }

  /** The classification of every slug by the plugin directory answering `api`. */
  function PluginLookup(api: string -> PluginApiResponse): string -> Option<Locator> {
    s => ClassifyDownload(s, api(s))
  }

  /** The memo of `get_plugin_resource` over any classification `lookup`. */
  function Resource(cache: PluginCache, slug: string, lookup: string -> Option<Locator>)
    : (r: (Option<Locator>, PluginCache))
    ensures slug in cache ==> r.0 == cache[slug] && r.1 == cache
    ensures slug !in cache ==> r.0 == lookup(slug) && r.1 == cache[slug := r.0]
  {
    Memo(cache, NormalizeSlug(slug), lookup)
  }

  /** `get_plugin_resource`: the memoised classification of the normalised slug. */
  function GetPluginResource(cache: PluginCache, slug: string, api: string -> PluginApiResponse)
    : (r: (Option<Locator>, PluginCache))
    ensures slug in cache ==> r.0 == cache[slug] && r.1 == cache
    ensures slug !in cache ==> r.0 == ClassifyDownload(slug, api(slug)) && r.1 == cache[slug := r.0]
  {
    Resource(cache, slug, PluginLookup(api))
  }

  // ---------------------------------------------------------------------------
  // Themes.

  /** `check_theme_exists`: whether `themes_api` answered without an error, memoised in
      the `expose_blueprints_theme_exists` transient. `themeFound` is that oracle. */
  function CheckThemeExists(cache: map<string, bool>, slug: string, themeFound: string -> bool)
    : (r: (bool, map<string, bool>))
    ensures slug in cache ==> r.0 == cache[slug] && r.1 == cache
    ensures slug !in cache ==> r.0 == themeFound(slug) && r.1 == cache[slug := r.0]
  {
    Memo(cache, slug, themeFound)
  }
}

=== FILE: rewriter.dfy ===
/** The template-part reference rewriting done while listing template parts: every
    navigation block that references an existing menu post gets the next local index,
    the post's own navigation links are recorded and their ids replaced by
    `NAV_ITEM_<id>`, and the reference id in the part is replaced by `REFERENCE_<k>`.
    Every replacement is PHP `str_replace`. The markers and their JSON payloads are
    parsed outside the model: the part's references and each content's navigation-link
    ids come in as sequences of optional numeric ids (`None` for a payload without a
    numeric id). */
module Rewriter {
  import opened Wrappers
  import opened Text
  import opened OrderedMap

  /** The fields of a post that the rewriting reads. */
  datatype Post = Post(title: string, content: string, postType: string, name: string)

  /** `get_post`: the posts that exist, by id. */
  type Posts = map<nat, Post>

  /** An entry of `$references`: the original id and the (navigation-rewritten) post. */
  datatype Reference = Reference(id: nat, title: string, content: string, postType: string, name: string)

  /** `$nav_items`: post id to (post_name, post_type), in insertion order. */
  type NavItems = OMap<nat, (string, string)>

  /** The rewritten part content with the two side tables. */
  datatype Rewrite = Rewrite(content: string, references: seq<Reference>, navItems: NavItems)

  const ReferencePrefix: string := "REFERENCE_"
  const NavItemPrefix: string := "NAV_ITEM_"

  function ReferenceToken(k: nat): string {
    ReferencePrefix + NatToString(k)
  }

  function NavToken(id: nat): string {
    NavItemPrefix + NatToString(id)
  }

  /** The ids of `ids` that are numeric and name an existing post, in order. */
  function Existing(posts: Posts, ids: seq<Option<nat>>): (r: seq<nat>)
    ensures forall i :: 0 <= i < |r| ==> r[i] in posts
    ensures |r| <= |ids|
  {
    if |ids| == 0 then []
    else
      var rest := Existing(posts, ids[1..]);
      if ids[0].Some? && ids[0].value in posts then [ids[0].value] + rest else rest
  }

  /** An id is kept exactly when it occurs as a numeric id and names an existing post. */
  lemma {:induction false} ExistingMembers(posts: Posts, ids: seq<Option<nat>>, id: nat)
    ensures id in Existing(posts, ids) <==> id in posts && Some(id) in ids
    decreases |ids|
  {
    if |ids| > 0 {
      ExistingMembers(posts, ids[1..], id);
      assert Some(id) in ids <==> Some(id) == ids[0] || Some(id) in ids[1..];
    }
  }

  /** The loop over a referenced post's navigation links. */
  function RewriteNav(posts: Posts, ids: seq<Option<nat>>, content: string, items: NavItems)
    : (r: (string, NavItems))
    ensures Wf(items) ==> Wf(r.1)
    decreases |ids|
  {
    if |ids| == 0 then (content, items)
    else if ids[0].Some? && ids[0].value in posts then
      var id := ids[0].value;
      PutKeepsWf(items, id, (posts[id].name, posts[id].postType));
      RewriteNav(posts, ids[1..], Replace(content, NatToString(id), NavToken(id)),
                 Put(items, id, (posts[id].name, posts[id].postType)))
    else RewriteNav(posts, ids[1..], content, items)
  }

  /** One navigation block referencing the existing post `id`: its navigation links are
      recorded and rewritten, the post is recorded under the next index, and the id is
      replaced by that index's token in the part. */
  function Visit(posts: Posts, navIds: string -> seq<Option<nat>>, id: nat, acc: Rewrite): Rewrite
    requires id in posts
  {
    var p := posts[id];
    var k := |acc.references|;
    var (content, items) := RewriteNav(posts, navIds(p.content), p.content, acc.navItems);
    Rewrite(Replace(acc.content, NatToString(id), ReferenceToken(k)),
            acc.references + [Reference(id, p.title, content, p.postType, p.name)],
            items)
  }

  /** The loop over the part's navigation blocks. The index is the number of references
      recorded so far; it is taken before the post is looked up, and a missing post
      leaves everything as it was. */
  function RewriteRefs(posts: Posts, navIds: string -> seq<Option<nat>>, refs: seq<Option<nat>>, acc: Rewrite)
    : (r: Rewrite)
    decreases |refs|
  {
    if |refs| == 0 then acc
    else if refs[0].Some? && refs[0].value in posts then
      RewriteRefs(posts, navIds, refs[1..], Visit(posts, navIds, refs[0].value, acc))
    else RewriteRefs(posts, navIds, refs[1..], acc)
  }

  /** One template part: `refs` are the references of its navigation blocks, `navIds`
      reads the navigation-link ids of a post's content. */
  function RewritePart(posts: Posts, navIds: string -> seq<Option<nat>>, refs: seq<Option<nat>>, content: string)
    : Rewrite
  {
    RewriteRefs(posts, navIds, refs, Rewrite(content, [], []))
  }

  // ---------------------------------------------------------------------------
  // Reference definitions.

  /** The content of a post with each of its existing navigation links replaced in turn. */
  function NavContent(posts: Posts, ids: seq<nat>, content: string): string
    decreases |ids|
  {
    if |ids| == 0 then content
    else NavContent(posts, ids[1..], Replace(content, NatToString(ids[0]), NavToken(ids[0])))
  }

  /** The reference recorded for an existing post. */
  function ReferenceTo(posts: Posts, navIds: string -> seq<Option<nat>>, id: nat): Reference
    requires id in posts
  {
    var p := posts[id];
    Reference(id, p.title, NavContent(posts, Existing(posts, navIds(p.content)), p.content), p.postType, p.name)
  }

  function ReferencesTo(posts: Posts, navIds: string -> seq<Option<nat>>, ids: seq<nat>): (r: seq<Reference>)
    requires forall i :: 0 <= i < |ids| ==> ids[i] in posts
    ensures |r| == |ids|
    ensures forall k :: 0 <= k < |ids| ==> r[k] == ReferenceTo(posts, navIds, ids[k])
  {
    if |ids| == 0 then [] else [ReferenceTo(posts, navIds, ids[0])] + ReferencesTo(posts, navIds, ids[1..])
  }

  /** The part content with the k-th existing reference, counting from `k`, replaced by
      its token. */
  function Substitute(content: string, ids: seq<nat>, k: nat): string
    decreases |ids|
  {
    if |ids| == 0 then content
    else Substitute(Replace(content, NatToString(ids[0]), ReferenceToken(k)), ids[1..], k + 1)
  }

  /** The navigation loop rewrites the content exactly as the existing ids alone say,
      whatever the table holds; the table gains exactly those ids, each with its own
      post's name and type, and keeps the rest. */
  lemma {:induction false} RewriteNavSpec(posts: Posts, ids: seq<Option<nat>>, content: string, items: NavItems)
    ensures var (c, items') := RewriteNav(posts, ids, content, items);
      && c == NavContent(posts, Existing(posts, ids), content)
      && Keys(items') == AppendNew(Keys(items), Existing(posts, ids))
      && (forall id :: id in Existing(posts, ids) ==> Get(items', id) == Some((posts[id].name, posts[id].postType)))
      && (forall id :: id !in Existing(posts, ids) ==> Get(items', id) == Get(items, id))
    decreases |ids|
  {
    if |ids| > 0 {
      if ids[0].Some? && ids[0].value in posts {
        var id := ids[0].value;
        var v := (posts[id].name, posts[id].postType);
        RewriteNavSpec(posts, ids[1..], Replace(content, NatToString(id), NavToken(id)), Put(items, id, v));
        assert Existing(posts, ids) == [id] + Existing(posts, ids[1..]);
      } else {
        RewriteNavSpec(posts, ids[1..], content, items);
      }
    }
  }

  /** The replacements run one after another over the text as already rewritten: with
      links to posts 12 and then 1, the `1` inside the token written for 12 is
      replaced as well, and `12` ends as `NAV_ITEM_NAV_ITEM_12`. */
  lemma {:induction false} NavTokensCascade(posts: Posts, items: NavItems)
    requires 12 in posts && 1 in posts
    ensures RewriteNav(posts, [Some(12), Some(1)], "12", items).0 == NavItemPrefix + NavToken(12)
  {
    var ids: seq<Option<nat>> := [Some(12), Some(1)];
    RewriteNavContent(posts, ids, "12", items);
    TwelveThenOneExisting(posts, ids);
    NavTwelveThenOne(posts);
  }

  /** The content part of the navigation loop alone. */
  lemma {:induction false} RewriteNavContent(posts: Posts, ids: seq<Option<nat>>, content: string, items: NavItems)
    ensures RewriteNav(posts, ids, content, items).0 == NavContent(posts, Existing(posts, ids), content)
  {
    RewriteNavSpec(posts, ids, content, items);
  }

  lemma {:induction false} TwelveThenOneExisting(posts: Posts, ids: seq<Option<nat>>)
    requires 12 in posts && 1 in posts && ids == [Some(12), Some(1)]
    ensures Existing(posts, ids) == [12, 1]
  {
    assert ids[1..] == [Some(1)] && |ids[1..][1..]| == 0;
  }

  /** The navigation contents for 12 and then 1, starting from `12`. */
  lemma {:induction false} NavTwelveThenOne(posts: Posts)
    ensures NavContent(posts, [12, 1], "12") == NavItemPrefix + NavToken(12)
  {
    assert NatToString(1) == "1";
    assert NatToString(12) == "1" + "2";
    var t12, t1 := NavToken(12), NavToken(1);
    var c1 := Replace("12", "12", t12);
    assert c1 == t12 by {
      assert c1 == t12 + Replace("", "12", t12);
    }
    var ns: seq<nat> := [12, 1];
    assert ns[1..] == [1] && |ns[1..][1..]| == 0;
    ReplaceTokenOnes(NavItemPrefix, "1", "2", t1);
  }

  /** Replacing the `1`s of a token for 12 rewrites only the `1` of its digits. */
  lemma {:induction false} ReplaceTokenOnes(head: string, one: string, two: string, t: string)
    requires head == NavItemPrefix && one == "1" && two == "2"
    ensures Replace(head + (one + two), one, t) == head + t + two
  {
    forall i: nat | i <= |head|
      ensures !OccursAt(head, one, i)
    {
      if i + 1 <= |head| {
        assert head[i..i + 1] == [head[i]];
      }
    }
    ReplaceAbsent(head, one, t);
    ReplaceCharConcat(head, one + two, '1', t);
    ReplaceCharStep(one + two, '1', t);
    ReplaceCharStep(two, '1', t);
    assert (one + two)[1..] == two && two[1..] == "";
  }

  /** One block records the reference the reference definition gives, under the next
      index, and replaces the id by that index's token. */
  lemma {:induction false} VisitSpec(posts: Posts, navIds: string -> seq<Option<nat>>, id: nat, acc: Rewrite)
    requires id in posts
    ensures Visit(posts, navIds, id, acc).references == acc.references + [ReferenceTo(posts, navIds, id)]
    ensures Visit(posts, navIds, id, acc).content == Replace(acc.content, NatToString(id), ReferenceToken(|acc.references|))
  {
    var p := posts[id];
    RewriteNavSpec(posts, navIds(p.content), p.content, acc.navItems);
  }

  /** The part loop against the reference definitions: the references are exactly the
      existing referenced posts, in order, each holding its navigation-rewritten
      content. */
  lemma {:induction false} RewriteRefsReferences(posts: Posts, navIds: string -> seq<Option<nat>>,
                                                 refs: seq<Option<nat>>, acc: Rewrite)
    ensures RewriteRefs(posts, navIds, refs, acc).references
            == acc.references + ReferencesTo(posts, navIds, Existing(posts, refs))
    decreases |refs|
  {
    if |refs| > 0 {
      if refs[0].Some? && refs[0].value in posts {
        var id := refs[0].value;
        var acc' := Visit(posts, navIds, id, acc);
        RewriteRefsReferences(posts, navIds, refs[1..], acc');
        VisitSpec(posts, navIds, id, acc);
        ExistingCons(posts, refs);
        ReferencesToCons(posts, navIds, Existing(posts, refs));
      } else {
        RewriteRefsReferences(posts, navIds, refs[1..], acc);
      }
    }
  }

  lemma {:induction false} ExistingCons(posts: Posts, refs: seq<Option<nat>>)
    requires |refs| > 0 && refs[0].Some? && refs[0].value in posts
    ensures Existing(posts, refs) == [refs[0].value] + Existing(posts, refs[1..])
  {
  }

  lemma {:induction false} ReferencesToCons(posts: Posts, navIds: string -> seq<Option<nat>>, ids: seq<nat>)
    requires |ids| > 0
    requires forall i :: 0 <= i < |ids| ==> ids[i] in posts
    ensures ReferencesTo(posts, navIds, ids) == [ReferenceTo(posts, navIds, ids[0])] + ReferencesTo(posts, navIds, ids[1..])
  {
  }

  /** The part content has the k-th existing reference's id replaced by `REFERENCE_k`,
      counting on from the references already recorded. */
  lemma {:induction false} RewriteRefsContent(posts: Posts, navIds: string -> seq<Option<nat>>,
                                              refs: seq<Option<nat>>, acc: Rewrite)
    ensures RewriteRefs(posts, navIds, refs, acc).content
            == Substitute(acc.content, Existing(posts, refs), |acc.references|)
    decreases |refs|
  {
    if |refs| > 0 {
      if refs[0].Some? && refs[0].value in posts {
        var id := refs[0].value;
        VisitSpec(posts, navIds, id, acc);
        RewriteRefsContent(posts, navIds, refs[1..], Visit(posts, navIds, id, acc));
        assert Existing(posts, refs) == [id] + Existing(posts, refs[1..]);
      } else {
        RewriteRefsContent(posts, navIds, refs[1..], acc);
      }
    }
  }

  /** Indices are 0, 1, 2, … over the existing references in order; a reference that
      is not numeric or whose post is missing takes no index and adds no entry. */
  lemma {:induction false} SequentialIndices(posts: Posts, navIds: string -> seq<Option<nat>>, refs: seq<Option<nat>>, content: string)
    ensures var r := RewritePart(posts, navIds, refs, content);
      var ids := Existing(posts, refs);
      && |r.references| == |ids|
      && (forall k :: 0 <= k < |ids| ==> r.references[k] == ReferenceTo(posts, navIds, ids[k]))
      && r.content == Substitute(content, ids, 0)
  {
    RewriteRefsReferences(posts, navIds, refs, Rewrite(content, [], []));
    RewriteRefsContent(posts, navIds, refs, Rewrite(content, [], []));
    assert [] + ReferencesTo(posts, navIds, Existing(posts, refs)) == ReferencesTo(posts, navIds, Existing(posts, refs));
  }

  /** Without an existing reference the part is left exactly as it was. */
  lemma {:induction false} NothingToRewrite(posts: Posts, navIds: string -> seq<Option<nat>>, refs: seq<Option<nat>>, content: string)
    requires forall i :: 0 <= i < |refs| ==> refs[i].None? || refs[i].value !in posts
    ensures RewritePart(posts, navIds, refs, content) == Rewrite(content, [], [])
  {
    NoneExist(posts, navIds, refs, Rewrite(content, [], []));
  }

  lemma {:induction false} NoneExist(posts: Posts, navIds: string -> seq<Option<nat>>, refs: seq<Option<nat>>, acc: Rewrite)
    requires forall i :: 0 <= i < |refs| ==> refs[i].None? || refs[i].value !in posts
    ensures RewriteRefs(posts, navIds, refs, acc) == acc
    decreases |refs|
  {
    if |refs| > 0 {
      NoneExist(posts, navIds, refs[1..], acc);
    }
  }

  /** A part whose single navigation block references post `r`, whose single navigation
      link targets post `n`: the part gains `REFERENCE_0`, the one reference holds `r`'s
      content with `n`'s id replaced by `NAV_ITEM_n`, and the table holds `n`. */
  lemma {:induction false} OneReferenceOneLink(posts: Posts, navIds: string -> seq<Option<nat>>, content: string, r: nat, n: nat, i: nat, j: nat)
    requires r in posts && n in posts
    requires navIds(posts[r].content) == [Some(n)]
    requires OccursAt(content, NatToString(r), i)
    requires OccursAt(posts[r].content, NatToString(n), j)
    ensures var out := RewritePart(posts, navIds, [Some(r)], content);
      && Contains(out.content, ReferenceToken(0))
      && |out.references| == 1
      && out.references[0].id == r
      && out.references[0].content == Replace(posts[r].content, NatToString(n), NavToken(n))
      && Contains(out.references[0].content, NavToken(n))
      && out.navItems == [(n, (posts[n].name, posts[n].postType))]
  {
    var out := RewritePart(posts, navIds, [Some(r)], content);
    var empty: NavItems := [];
    assert out == Visit(posts, navIds, r, Rewrite(content, [], empty)) by {
      assert [Some(r)][1..] == [];
      var v := Visit(posts, navIds, r, Rewrite(content, [], empty));
      assert RewriteRefs(posts, navIds, [Some(r)], Rewrite(content, [], empty)) == RewriteRefs(posts, navIds, [], v);
    }
    var linked := Replace(posts[r].content, NatToString(n), NavToken(n));
    assert RewriteNav(posts, [Some(n)], posts[r].content, empty)
        == (linked, [(n, (posts[n].name, posts[n].postType))]) by {
      assert [Some(n)][1..] == [];
    }
    assert out.content == Replace(content, NatToString(r), ReferenceToken(0));
    assert out.references == [Reference(r, posts[r].title, linked, posts[r].postType, posts[r].name)];
    ReplacePresent(content, NatToString(r), ReferenceToken(0), i);
    ReplacePresent(posts[r].content, NatToString(n), NavToken(n), j);
  }

  /** The replacement is over the whole part, not just the navigation block: with post 1
      referenced, every other `1` in the part becomes a token too. */
  lemma {:induction false} StrayDigitsAlsoReplaced(p: Post, navIds: string -> seq<Option<nat>>)
    ensures RewritePart(map[1 := p], navIds, [Some(1)], "1,21").content == "REFERENCE_0,2REFERENCE_0"
  {
    var posts := map[1 := p];
    assert NatToString(1) == "1";
    SequentialIndices(posts, navIds, [Some(1)], "1,21");
    assert Existing(posts, [Some(1)]) == [1];
    assert Substitute("1,21", [1], 0) == Replace("1,21", "1", ReferenceToken(0)) by {
      assert [1][1..] == [];
    }
    ReplaceOnes();
  }

  lemma {:induction false} ReplaceOnes()
    ensures Replace("1,21", "1", ReferenceToken(0)) == "REFERENCE_0,2REFERENCE_0"
  {
    var token := ReferenceToken(0);
    assert token == "REFERENCE_0" by { assert NatToString(0) == "0"; }
    assert Replace("1", "1", token) == token + Replace("", "1", token);
    assert Replace("21", "1", token) == "2" + Replace("1", "1", token);
    assert Replace(",21", "1", token) == "," + Replace("21", "1", token);
    assert Replace("1,21", "1", token) == token + Replace(",21", "1", token);
  }
}

=== FILE: text.dfy ===
/** String primitives the plugin relies on, with PHP's semantics:
    `strpos(..) === 0`, `substr`, `str_replace`, `explode`, `implode`, and the
    decimal rendering PHP uses when an integer meets a string. */
module Text {

  /** `p` is a prefix of `s` (PHP: `0 === strpos( $s, $p )`). */
  predicate StartsWith(s: string, p: string) {
    |p| <= |s| && s[..|p|] == p
  }

  /** `p` is a suffix of `s` (PHP: `substr( $s, -strlen( $p ) ) === $p`). */
  predicate EndsWith(s: string, p: string) {
    |p| <= |s| && s[|s| - |p|..] == p
  }

  /** `n` occurs in `s` starting at index `i`. */
  predicate OccursAt(s: string, n: string, i: nat) {
    i + |n| <= |s| && s[i..i + |n|] == n
  }

  /** `n` occurs somewhere in `s`. */
  predicate Contains(s: string, n: string) {
    exists i: nat | i <= |s| :: OccursAt(s, n, i)
  }

  /** PHP `substr( $s, 0, $n )`: the first `n` characters, or all of `s` when shorter. */
  function Take(s: string, n: nat): (r: string)
    ensures |r| == if |s| < n then |s| else n
    ensures StartsWith(s, r)
  {
    if |s| <= n then s else s[..n]
  }

  /** PHP `str_replace( $needle, $rep, $s )` for one needle: every non-overlapping
      occurrence, scanning left to right, is replaced; an empty needle leaves `s` as it is. */
  function Replace(s: string, needle: string, rep: string): string
    decreases |s|
  {
    if |needle| == 0 || |s| == 0 then s
    else if StartsWith(s, needle) then rep + Replace(s[|needle|..], needle, rep)
    else [s[0]] + Replace(s[1..], needle, rep)
  }

  /** PHP `explode( $d, $s )`: the pieces of `s` between non-overlapping occurrences of `d`.
      There is always at least one piece and no piece contains the delimiter. The
      first piece is a prefix of `s` ending at the leftmost occurrence of `d`, or all
      of `s` when `d` does not occur. */
  function Explode(d: string, s: string): (parts: seq<string>)
    requires |d| > 0
    ensures |parts| >= 1
    ensures StartsWith(s, parts[0])
    ensures forall k :: 0 <= k < |parts| ==> !Contains(parts[k], d)
    ensures |parts| == 1 ==> parts[0] == s
    ensures |parts| > 1 ==> OccursAt(s, d, |parts[0]|)
    ensures forall j: nat :: j < |parts[0]| ==> !OccursAt(s, d, j)
    decreases |s|
  {
    if |s| == 0 then
      NothingInEmpty(d);
      [""]
    else if StartsWith(s, d) then
      NothingInEmpty(d);
      [""] + Explode(d, s[|d|..])
    else
      var rest := Explode(d, s[1..]);
      ConsKeepsAbsent(s, rest[0], d);
      FirstCutShifts(s, d, rest[0], |rest| > 1);
      [[s[0]] + rest[0]] + rest[1..]
  }

  /** Putting back `s[0]` moves the first cut of `s[1..]` one place right, and a text
      that does not start with `d` has no occurrence at 0. */
  lemma {:induction false} FirstCutShifts(s: string, d: string, p: string, cut: bool)
    requires |s| > 0 && |d| > 0 && !StartsWith(s, d) && StartsWith(s[1..], p)
    requires cut ==> OccursAt(s[1..], d, |p|)
    requires !cut ==> p == s[1..]
    requires forall j: nat :: j < |p| ==> !OccursAt(s[1..], d, j)
    ensures cut ==> OccursAt(s, d, |p| + 1)
    ensures !cut ==> [s[0]] + p == s
    ensures forall j: nat :: j < |p| + 1 ==> !OccursAt(s, d, j)
  {
    forall j: nat | j < |p| + 1
      ensures !OccursAt(s, d, j)
    {
      if j > 0 && OccursAt(s, d, j) {
        assert s[j..j + |d|] == s[1..][j - 1..j - 1 + |d|];
        assert OccursAt(s[1..], d, j - 1);
      }
    }
    if cut {
      assert s[|p| + 1..|p| + 1 + |d|] == s[1..][|p|..|p| + |d|];
    }
  }

  /** A string without the delimiter explodes to itself. */
  lemma {:induction false} ExplodeNoDelimiter(d: char, s: string)
    requires d !in s
    ensures Explode([d], s) == [s]
    decreases |s|
  {
    if |s| > 0 {
      assert s[..1] == [s[0]];
      assert d !in s[1..];
      ExplodeNoDelimiter(d, s[1..]);
      assert [s[0]] + s[1..] == s;
    }
  }

  /** Exploding stops at the first delimiter: the piece before it comes first. */
  lemma {:induction false} ExplodeAtDelimiter(d: char, x: string, y: string)
    requires d !in x
    ensures Explode([d], x + [d] + y) == [x] + Explode([d], y)
    decreases |x|
  {
    var s := x + [d] + y;
    if |x| == 0 {
      assert s == [d] + y && s[..1] == [d] && s[1..] == y;
    } else {
      assert s[..1] == [x[0]] && s[1..] == x[1..] + [d] + y;
      assert x[0] in x && !StartsWith(s, [d]);
      assert d !in x[1..];
      ExplodeAtDelimiter(d, x[1..], y);
      assert [x[0]] + x[1..] == x;
    }
  }

  lemma {:induction false} NothingInEmpty(d: string)
    requires |d| > 0
    ensures !Contains("", d)
  {
  }

  /** Putting back the first character of `s` in front of a delimiter-free prefix of
      `s[1..]` keeps it delimiter-free, because `s` itself does not start with `d`. */
  lemma {:induction false} ConsKeepsAbsent(s: string, p: string, d: string)
    requires |s| > 0 && |d| > 0
    requires !StartsWith(s, d)
    requires StartsWith(s[1..], p)
    requires !Contains(p, d)
    ensures !Contains([s[0]] + p, d)
  {
    var q := [s[0]] + p;
    if Contains(q, d) {
      var i: nat :| i <= |q| && OccursAt(q, d, i);
      if i == 0 {
        assert false;
      } else {
        assert p[i - 1..i - 1 + |d|] == q[i..i + |d|];
        assert OccursAt(p, d, i - 1);
        assert false;
      }
    }
  }

  /** PHP `implode( $sep, $parts )`. */
  function Implode(sep: string, parts: seq<string>): string
  {
    if |parts| == 0 then ""
    else if |parts| == 1 then parts[0]
    else parts[0] + sep + Implode(sep, parts[1..])
  }

  /** `str_replace` is `implode` of `explode`: this pins down which occurrences are
      replaced (left to right, non-overlapping) independently of the scanning definition. */
  lemma {:induction false} ReplaceIsImplodeOfExplode(s: string, needle: string, rep: string)
    requires |needle| > 0
    ensures Replace(s, needle, rep) == Implode(rep, Explode(needle, s))
    decreases |s|
  {
    if |s| == 0 {
    } else if StartsWith(s, needle) {
      ReplaceIsImplodeOfExplode(s[|needle|..], needle, rep);
    } else {
      ReplaceIsImplodeOfExplode(s[1..], needle, rep);
      var rest := Explode(needle, s[1..]);
      if |rest| > 1 {
        assert ([[s[0]] + rest[0]] + rest[1..])[1..] == rest[1..];
      }
    }
  }

  /** Replacing a needle by itself changes nothing. */
  lemma {:induction false} ReplaceBySelf(s: string, needle: string)
    ensures Replace(s, needle, needle) == s
    decreases |s|
  {
    if |needle| == 0 || |s| == 0 {
    } else if StartsWith(s, needle) {
      ReplaceBySelf(s[|needle|..], needle);
      assert s == needle + s[|needle|..];
    } else {
      ReplaceBySelf(s[1..], needle);
      assert s == [s[0]] + s[1..];
    }
  }

  /** `implode` undoes `explode` for the same delimiter. */
  lemma {:induction false} ImplodeExplodeRoundTrip(d: string, s: string)
    requires |d| > 0
    ensures Implode(d, Explode(d, s)) == s
  {
    ReplaceIsImplodeOfExplode(s, d, d);
    ReplaceBySelf(s, d);
  }

  /** A subject in which the needle does not occur is returned unchanged. */
  lemma {:induction false} ReplaceAbsent(s: string, needle: string, rep: string)
    requires !Contains(s, needle)
    ensures Replace(s, needle, rep) == s
    decreases |s|
  {
    if |needle| == 0 || |s| == 0 {
    } else {
      assert !OccursAt(s, needle, 0);
      if Contains(s[1..], needle) {
        var i: nat :| i <= |s[1..]| && OccursAt(s[1..], needle, i);
        assert s[i + 1..i + 1 + |needle|] == s[1..][i..i + |needle|];
        assert OccursAt(s, needle, i + 1);
      }
      ReplaceAbsent(s[1..], needle, rep);
      assert s == [s[0]] + s[1..];
    }
  }

  /** When the needle occurs, the replacement text appears in the result. */
  lemma {:induction false} ReplacePresent(s: string, needle: string, rep: string, i: nat)
    requires |needle| > 0
    requires OccursAt(s, needle, i)
    ensures Contains(Replace(s, needle, rep), rep)
    decreases |s|
  {
    if StartsWith(s, needle) {
      assert OccursAt(Replace(s, needle, rep), rep, 0);
    } else {
      assert i > 0;
      assert s[1..][i - 1..i - 1 + |needle|] == s[i..i + |needle|];
      ReplacePresent(s[1..], needle, rep, i - 1);
      var r := Replace(s[1..], needle, rep);
      var j: nat :| j <= |r| && OccursAt(r, rep, j);
      assert ([s[0]] + r)[j + 1..j + 1 + |rep|] == r[j..j + |rep|];
      assert OccursAt([s[0]] + r, rep, j + 1);
    }
  }

  /** Replacement distributes over a concatenation whose left part cannot start an occurrence. */
  lemma {:induction false} ReplaceAppend(a: string, b: string, needle: string, rep: string)
    requires |needle| > 0
    requires forall i: nat :: i < |a| ==> !OccursAt(a + b, needle, i)
    ensures Replace(a + b, needle, rep) == a + Replace(b, needle, rep)
    decreases |a|
  {
    if |a| > 0 {
      assert !OccursAt(a + b, needle, 0);
      assert (a + b)[1..] == a[1..] + b;
      forall i: nat | i < |a[1..]|
        ensures !OccursAt(a[1..] + b, needle, i)
      {
        assert !OccursAt(a + b, needle, i + 1);
        if i + |needle| <= |a[1..] + b| {
          assert (a[1..] + b)[i..i + |needle|] == (a + b)[i + 1..i + 1 + |needle|];
        }
      }
      ReplaceAppend(a[1..], b, needle, rep);
      assert a + b == [a[0]] + (a[1..] + b);
      assert [a[0]] + (a[1..] + Replace(b, needle, rep)) == a + Replace(b, needle, rep);
    } else {
      assert a + b == b;
    }
  }

  /** For a one-character needle, replacement works character by character. */
  lemma {:induction false} ReplaceCharStep(s: string, c: char, rep: string)
    requires |s| > 0
    ensures Replace(s, [c], rep) == (if s[0] == c then rep else [s[0]]) + Replace(s[1..], [c], rep)
  {
    assert StartsWith(s, [c]) <==> s[0] == c by {
      assert s[..1] == [s[0]];
    }
  }

  /** For a one-character needle, replacement distributes over concatenation. */
  lemma {:induction false} ReplaceCharConcat(a: string, b: string, c: char, rep: string)
    ensures Replace(a + b, [c], rep) == Replace(a, [c], rep) + Replace(b, [c], rep)
    decreases |a|
  {
    if |a| == 0 {
      assert a + b == b;
    } else {
      var h := if a[0] == c then rep else [a[0]];
      ReplaceCharStep(a + b, c, rep);
      ReplaceCharStep(a, c, rep);
      assert (a + b)[0] == a[0] && (a + b)[1..] == a[1..] + b;
      ReplaceCharConcat(a[1..], b, c, rep);
      var x, y := Replace(a[1..], [c], rep), Replace(b, [c], rep);
      assert h + (x + y) == (h + x) + y;
    }
  }

  // ---------------------------------------------------------------------------
  // Decimal numbers, as PHP prints an integer and reads a run of digits.

  predicate IsDigit(c: char) {
    '0' <= c <= '9'
  }

  function DigitChar(d: nat): (c: char)
    requires d < 10
    ensures IsDigit(c)
  {
    ('0' as int + d) as char
  }

  /** The value of a decimal digit; only ever applied to digits, so anything else is
      given the value zero. */
  function DigitValue(c: char): nat {
    if IsDigit(c) then (c as int - '0' as int) as nat else 0
  }

  /** The integer a run of decimal digits denotes (leading zeros allowed). */
  function DigitsValue(s: string): nat {
    if |s| == 0 then 0 else DigitsValue(s[..|s| - 1]) * 10 + DigitValue(s[|s| - 1])
  }

  /** PHP's string form of a non-negative integer: decimal, no leading zero. */
  function NatToString(n: nat): (r: string)
    ensures |r| > 0 && IsDigit(r[|r| - 1])
    ensures |r| > 1 ==> r[0] != '0'
  {
    if n < 10 then [DigitChar(n)] else NatToString(n / 10) + [DigitChar(n % 10)]
  }

  lemma {:induction false} DigitRoundTrip(d: nat)
    requires d < 10
    ensures DigitValue(DigitChar(d)) == d
  {
  }

  /** Reading back the printed form of `n` gives `n`. */
  lemma {:induction false} NatToStringRoundTrip(n: nat)
    ensures DigitsValue(NatToString(n)) == n
  {
    DigitRoundTrip(n % 10);
    if n >= 10 {
      NatToStringRoundTrip(n / 10);
      ConcatSlices(NatToString(n / 10), [DigitChar(n % 10)]);
    }
  }

  /** Distinct numbers print differently. */
  lemma {:induction false} NatToStringInjective(m: nat, n: nat)
    requires NatToString(m) == NatToString(n)
    ensures m == n
  {
    NatToStringRoundTrip(m);
    NatToStringRoundTrip(n);
  }

  // ---------------------------------------------------------------------------
  // Slicing facts, stated over bare sequences so that proofs about the functions above
  // can use them without the solver rediscovering them in a larger context.

  lemma {:induction false} ConcatSlices<T>(a: seq<T>, b: seq<T>)
    ensures (a + b)[..|a|] == a && (a + b)[|a|..] == b
    ensures |b| > 0 ==> (a + b)[..|a + b| - 1] == a + b[..|b| - 1]
  {
  }

  lemma {:induction false} AppendEmpty<T>(a: seq<T>)
    ensures a + [] == a
  {
  }

  lemma {:induction false} SliceJoin<T>(s: seq<T>, n: nat)
    requires n <= |s|
    ensures s[..|s| - n] + s[|s| - n..] == s
  {
  }
}

=== FILE: wrappers.dfy ===
/** Failure-compatible optional values, used wherever the plugin returns `false`
    or leaves a key unset. */
module Wrappers {

  /** `None` stands for PHP's `false` / an unset key, `Some(v)` for a present value. */
  datatype Option<+T> = None | Some(value: T) {

    /** Returns the value in `Some`, or `default` for `None`. */
    function GetOr(default: T): T {
      match this
      case Some(v) => v
      case None => default
    }
  }
}
